=== FILE: README.md ===
# Test and benchmark scripts of lexical-ios, modelled in Dafny

The model covers three command-line helpers that drive the Lexical iOS test and benchmark runs.

- **`xcodebuild-test-with-env.py`** runs an `xcodebuild ... test` invocation in two phases so that
  environment variables reach the test process:
  - It builds once with `build-for-testing`, dropping test-only options.
  - It copies every `LEXICAL_BENCH_*` / `LEXICAL_FORCE_*` variable into both environment
    dictionaries of every test target of the newest `.xctestrun` file. The result is written as a
    patched copy.
  - It then runs `test-without-building` against that copy, dropping `-workspace`, `-project` and
    `-scheme` and their values. Modules: `XcodebuildArgs`, `XcTestRunPatch`, `XcodebuildMain`.
- **`with-timeout.py`** supervises a command under an idle limit and a hard limit (0 disables a
  limit):
  - It forwards each output line to the stream it came from.
  - It remembers the last XCTest runner process id announced in the output.
  - When a limit fires, it optionally runs `sample` on that process (or on the child), then sends
    SIGTERM to the child's process group. It allows a grace period of ten polls before falling back
    to SIGKILL, and returns 124.
  - Modules: `PidPattern` (the pattern that finds the process id), `Supervisor` (the monitoring
    loop as a step function over observed ticks), `Escalation` (sampling, signalling, exit status),
    `SupervisorCli` (command resolution, the environment overrides, the exit status),
    `TimeoutScenario` (a concrete hang).
- **`benchmarks.py`** has two subcommands:
  - `record` runs a command, echoes its output, and scrapes every `🔥 PERF_JSON {...}` line into
    a log row. Each row carries the run's id, issue, tag, git state and times.
  - `report` reads the log back and groups the rows by run id, issue and scenario, averaging the
    two wall times. It sorts the groups by start time (stable, code-point string order) and
    prints one line per group.
  - With `--last N` the script keeps the groups of every run that owns one of the last N groups.
    Its comment and help text promise the N most recent runs instead. Both readings are modelled:
    `ReportAsWritten` follows the code and `Report` follows the promise (see Findings).
    `BenchMain` uses `Report`; the exit status is the same under both readings.
  - Modules: `PerfScrape`, `BenchData`, `BenchRecord`, `BenchAggregate`, `LexOrder`, `StableSort`,
    `BenchReport`, `BenchMain`.

Shared helpers live in `Wrappers` (`Option`, `Result`), `Seqs` (subsequences, `Filter`) and `Text`.
`Text` holds Python's `strip`, `int()` on strings, `str.replace` and `" ".join`. `strip` and
`int()` skip different whitespace: `int()` skips only space and `\t` to `\r`, not the separators
U+001C to U+001F, so the two have separate trimming classes.

The outside world is passed in as values:
- the clock, the environment, `git` and the child process's output and return code;
- the operating system's answers during escalation (liveness, signal results, grace-period polls);
- the JSON decoder, as a function from a line to an optional record.

Integers are unbounded. The 8-bit process exit status is written out where a script's return value
becomes one. Wall times are `real`.

## Model

| member | source | states |
|---|---|---|
| Text.RStrip | scripts/benchmarks.py:194 | the result is a prefix of the input that does not end in whitespace, and only whitespace was removed |
| Text.LStrip | scripts/benchmarks.py:194 | the result is a suffix of the input that does not start with whitespace, and only whitespace was removed |
| Text.StripNoSpace | scripts/benchmarks.py:72 | `strip` leaves a string that neither starts nor ends with whitespace unchanged |
| Text.StripEmptyIffBlank | scripts/benchmarks.py:194-196 | a line strips to the empty string exactly when it is all whitespace, so exactly the blank lines are skipped |
| Text.ParseDigits | scripts/with-timeout.py:84 | `int()` of a non-empty run of decimal digits is their value |
| Text.ParseIntRoundTrip | scripts/with-timeout.py:198-202 | `int()` reads back every integer from its decimal rendering, negative ones included |
| Text.IntStripBounds | scripts/with-timeout.py:200 | the text `int()` reads lies between a prefix and a suffix of space and `\t` to `\r`, and neither starts nor ends with such a character |
| Text.ParseInt | scripts/with-timeout.py:198-202 | a value of nothing but `int()` whitespace, the empty value included, is rejected (ValueError) |
| Text.ParseIntHasDigit | scripts/with-timeout.py:200 | every value `int()` accepts holds a digit |
| Text.ParseIntChars | scripts/with-timeout.py:200 | every value `int()` accepts holds only space, `\t` to `\r`, ASCII digits, underscores and signs |
| Text.ParseIntRejectsLead | scripts/with-timeout.py:199-202 | a value starting with a character that is not space, `\t` to `\r`, an ASCII digit or a sign is rejected (ValueError); this includes the separators U+001C to U+001F |
| Text.ParseIntRejectsTail | scripts/with-timeout.py:199-202 | a value ending in a character that is not space, `\t` to `\r` or an ASCII digit is rejected (ValueError) |
| Text.ParseIntRejectsSeparator | scripts/with-timeout.py:199-202 | `int()` rejects `"\x1c8"`, although `strip` would reduce it to `"8"` |
| Text.CompactTimestamp | scripts/xcodebuild-test-with-env.py:47 | the id has no `:` and no `+`, is shorter by the number of colons, keeps every other character, and has one `_` more per `+`; it is a subsequence of the timestamp with `+` replaced by `_`, so the kept characters stay in order |
| Text.ReplaceCharCounts | scripts/benchmarks.py:108 | replacing one character by another moves its count to the other and changes no other count |
| Text.CompactTimestampIdempotent | scripts/xcodebuild-test-with-env.py:47 | compacting an already compact id changes nothing |
| XcodebuildArgs.IndexOf | scripts/xcodebuild-test-with-env.py:52 | `list.index`: absent exactly when the element is not in the list, otherwise the position of its first occurrence |
| XcodebuildArgs.SplitAfterDashDash | scripts/xcodebuild-test-with-env.py:50-54 | without `--` the arguments come back whole; with one, exactly the arguments after the first `--` |
| XcodebuildArgs.RequireArgValue | scripts/xcodebuild-test-with-env.py:57-64 | a missing key is one error, a key that is only last is the other, and otherwise the value is the argument after the key's first occurrence |
| XcodebuildArgs.StripBuildActions | scripts/xcodebuild-test-with-env.py:67-76 | no build action remains, the order is kept, and every other argument keeps its count |
| XcodebuildArgs.StripBuildActionsIdempotent | scripts/xcodebuild-test-with-env.py:67-76 | stripping twice is stripping once |
| XcodebuildArgs.StripBuildActionsIdentity | scripts/xcodebuild-test-with-env.py:67-76 | arguments without build actions pass through unchanged |
| XcodebuildArgs.TestOnlyFlagsAreDashed | scripts/xcodebuild-test-with-env.py:83-94 | every test-only option starts with `-`, so one never counts as the value of another |
| XcodebuildArgs.FilterForBuildForTesting | scripts/xcodebuild-test-with-env.py:79-109 | the build arguments are a subsequence of the input without any test-only option or test selector |
| XcodebuildArgs.FilterForBuildForTestingIdentity | scripts/xcodebuild-test-with-env.py:96-108 | arguments without test-only tokens pass through unchanged |
| XcodebuildArgs.FilterForBuildForTestingIdempotent | scripts/xcodebuild-test-with-env.py:79-109 | filtering the build arguments twice is filtering once |
| XcodebuildArgs.FilterForBuildForTestingAppend | scripts/xcodebuild-test-with-env.py:96-108 | filtering distributes over concatenation unless the first part ends in a test-only option whose value starts the second |
| XcodebuildArgs.FlagSwallowsValue | scripts/xcodebuild-test-with-env.py:100-105 | a test-only option drops the next argument with it exactly when that argument does not start with `-`; a last option is dropped alone |
| XcodebuildArgs.FilterForBuildForTestingLoop | scripts/xcodebuild-test-with-env.py:96-109 | the loop with its `skip_next` flag computes the filter |
| XcodebuildArgs.FilterForTestWithoutBuilding | scripts/xcodebuild-test-with-env.py:112-125 | the test arguments are a subsequence of the input without `-workspace`, `-project` or `-scheme` |
| XcodebuildArgs.FilterForTestWithoutBuildingIdentity | scripts/xcodebuild-test-with-env.py:117-124 | arguments without those options pass through unchanged |
| XcodebuildArgs.FilterForTestWithoutBuildingAppend | scripts/xcodebuild-test-with-env.py:117-124 | filtering distributes over concatenation unless the first part ends in one of those options awaiting its value |
| XcodebuildArgs.ProjectFlagDropsValue | scripts/xcodebuild-test-with-env.py:115-123 | each of those options is dropped with the argument after it, whatever that argument is |
| XcodebuildArgs.FilterForTestWithoutBuildingLoop | scripts/xcodebuild-test-with-env.py:117-125 | the loop with its `skip_next` flag computes the filter |
| XcTestRunPatch.CollectEnv | scripts/xcodebuild-test-with-env.py:128-133 | exactly the variables whose name starts with one of the prefixes, with their values |
| XcTestRunPatch.CollectEnvUnion | scripts/xcodebuild-test-with-env.py:128-133 | collecting with two prefix lists is the union of collecting with each |
| XcTestRunPatch.MergeEnv | scripts/xcodebuild-test-with-env.py:154-160 | the dictionary left under an environment key holds every injected variable as a string and every earlier entry that was not overridden; a non-dictionary is replaced |
| XcTestRunPatch.MergedFromUnique | scripts/xcodebuild-test-with-env.py:154-160 | that description determines the merged dictionary |
| XcTestRunPatch.MergeEnvIdempotent | scripts/xcodebuild-test-with-env.py:154-160 | merging the same variables again changes nothing |
| XcTestRunPatch.PatchTarget | scripts/xcodebuild-test-with-env.py:153-160 | both environment dictionaries of a target are merged and its other keys are untouched |
| XcTestRunPatch.PatchTargetIdempotent | scripts/xcodebuild-test-with-env.py:153-160 | patching a target twice is patching it once |
| XcTestRunPatch.PatchConfiguration | scripts/xcodebuild-test-with-env.py:151-160 | every target of a configuration is patched and nothing else changes |
| XcTestRunPatch.PatchXcTestRun | scripts/xcodebuild-test-with-env.py:146-160 | every target of every configuration is patched; the configuration count and all other keys are kept |
| XcTestRunPatch.PatchXcTestRunIdempotent | scripts/xcodebuild-test-with-env.py:146-160 | patching a patched file again changes nothing |
| XcodebuildMain.BuildPatchAndTest | scripts/xcodebuild-test-with-env.py:184-201 | a failed build returns its status and runs nothing else; a missing `.xctestrun` is an error; otherwise the patched file is the collected environment merged in, and the test status is returned |
| XcodebuildMain.Main | scripts/xcodebuild-test-with-env.py:172-201 | an empty command or one not starting with `xcodebuild` is status 2, a missing `-scheme` value is status 1 (both before anything runs), and otherwise the two phases run |
| XcodebuildMain.BuildCommand | scripts/xcodebuild-test-with-env.py:185-186 | no own contract; see `XcodebuildMain.BuildCommandShape` |
| XcodebuildMain.TestCommand | scripts/xcodebuild-test-with-env.py:199-200 | no own contract; see `XcodebuildMain.TestCommandShape` |
| XcodebuildMain.BuildCommandShape | scripts/xcodebuild-test-with-env.py:185-186 | the build command is `xcodebuild`, the filtered user arguments in order, and `build-for-testing` last, with no test-only option |
| XcodebuildMain.TestCommandShape | scripts/xcodebuild-test-with-env.py:199-200 | the test command is `xcodebuild -xctestrun <patched>`, the filtered user arguments and `test-without-building` last, with no project option |
| XcodebuildMain.FailedBuildStopsEarly | scripts/xcodebuild-test-with-env.py:187-189 | when the build fails the status is non-zero, at most one command runs and nothing is patched |
| PidPattern.MatchPidAt | scripts/with-timeout.py:80-81 | a match is `xctest (`, a non-empty run of digits and `)`, and the group is those digits |
| PidPattern.SearchPid | scripts/with-timeout.py:81 | any group the search finds is a non-empty run of digits (which match it finds: `SearchFindsFirst`) |
| PidPattern.SearchFindsFirst | scripts/with-timeout.py:81 | the search returns the match at the leftmost position that matches, wherever the search starts before it |
| PidPattern.ExtractPid | scripts/with-timeout.py:81-86 | a found process id is never negative |
| PidPattern.ExtractPidAt | scripts/with-timeout.py:81-86 | `xctest (<digits>)` with no match earlier in the line yields the value of the digits |
| PidPattern.ExtractPidFinds | scripts/with-timeout.py:80-86 | a line whose first announcement is `xctest (<n>)` yields `n` |
| PidPattern.ExtractPidAfterOtherX | scripts/with-timeout.py:80-86 | an earlier `x` that starts no match does not hide the announcement: `Lexical xctest (5)` yields 5 |
| PidPattern.SearchPidSound | scripts/with-timeout.py:81 | the search returns the group of a match at a real position |
| PidPattern.ExtractPidSound | scripts/with-timeout.py:81-86 | whenever a process id is found, the line holds `xctest (`, digits and `)`, and the id is the digits' value |
| PidPattern.ExtractPidNeedsX | scripts/with-timeout.py:81-86 | a line without `x` yields no process id |
| PidPattern.SearchSkipsNoX | scripts/with-timeout.py:81 | the search passes over any prefix without `x` |
| PidPattern.ExtractPidExample | scripts/with-timeout.py:80 | the example `xctest (81823)` yields 81823 |
| PidPattern.ExtractPidLaterExample | scripts/with-timeout.py:81-84 | `xctest (99)` yields 99 |
| PidPattern.MatchPidAsWrittenAt | scripts/with-timeout.py:46 | as written, a match's group starts with a backslash |
| PidPattern.SearchPidAsWritten | scripts/with-timeout.py:81 | as written, every group the search finds starts with a backslash |
| PidPattern.ExtractPidAsWritten | scripts/with-timeout.py:81-86 | no own contract; see `PidPattern.ExtractPidAsWrittenNeverFinds` |
| PidPattern.ExtractPidAsWrittenNeverFinds | scripts/with-timeout.py:81-86 | as written, no line ever yields a process id |
| Supervisor.Initial | scripts/with-timeout.py:42-64 | the loop starts with `last == start`, no process id, no timeout and nothing written |
| Supervisor.ToEmitted | scripts/with-timeout.py:87-93 | each line is forwarded, in order, to the stream it came from |
| Supervisor.ReadLines | scripts/with-timeout.py:76-93 | reading forwards exactly the non-empty lines, in order; `last` moves to now exactly when there was one |
| Supervisor.LastPidSnoc | scripts/with-timeout.py:81-86 | the id after one more line is that line's id if it has one, else unchanged |
| Supervisor.LastPidCons | scripts/with-timeout.py:81-86 | the id known after a batch of lines composes line by line |
| Supervisor.ReadLinesPid | scripts/with-timeout.py:76-86 | after reading, the known id is the last one found; lines without one leave it alone |
| Supervisor.LastPidUnchanged | scripts/with-timeout.py:81-86 | lines that yield no id leave the known id as it was |
| Supervisor.Step | scripts/with-timeout.py:67-104 | the hard limit is checked first; ready output is forwarded and ends the loop if the child exited; the idle limit is checked only on a tick without output; a timeout always ends the loop and announces itself |
| Supervisor.Run | scripts/with-timeout.py:66-104 | the loop keeps a timeout only together with the end of the loop, only appends output, and does nothing once ended |
| Supervisor.Supervise | scripts/with-timeout.py:66-104 | the `while True` loop computes `Run` and leaves early only after the loop ended |
| Supervisor.StepWithoutLimits | scripts/with-timeout.py:67-104 | with both limits 0 an iteration never times out and writes only forwarded lines |
| Supervisor.NoLimitsNeverTimeOut | scripts/with-timeout.py:66-104 | with both limits 0 the loop never times out and writes nothing but forwarded output |
| Supervisor.RunEndsByHardDeadline | scripts/with-timeout.py:68-71 | once a tick lies past the hard deadline, the loop has ended |
| Escalation.ChooseSampleTarget | scripts/with-timeout.py:128-137 | the last XCTest id if known, non-zero and alive, else the child if alive, and nothing when sampling is off |
| Escalation.GraceSleeps | scripts/with-timeout.py:142-145 | one sleep per poll that still finds the child running, at most ten; exactly ten when no poll of the grace period finds it gone |
| Escalation.SampleActions | scripts/with-timeout.py:136-137 | one `sample` of the target if there is one, and no signal |
| Escalation.AfterTerm | scripts/with-timeout.py:139-149 | sleeps only after a delivered SIGTERM, as many as `GraceSleeps`; SIGKILL exactly when SIGTERM failed or the child outlived the grace period, at most twice; an escaping exception follows a refused SIGKILL |
| Escalation.AfterTermKillsLast | scripts/with-timeout.py:141-149 | after the SIGTERM nothing follows a SIGKILL but a second SIGKILL, so every grace-period sleep comes before any kill |
| Escalation.EscalateRunning | scripts/with-timeout.py:125-149 | the optional sample, then exactly one SIGTERM, then at most ten sleeps and at most two SIGKILLs |
| Escalation.GracePeriodOrder | scripts/with-timeout.py:136-147 | every sleep follows the sample and the SIGTERM, no sleep follows a SIGKILL, and a child that never exits gets ten sleeps and then SIGKILL |
| Escalation.Escalate | scripts/with-timeout.py:125-149 | nothing happens unless a limit fired and the child is still running; a liveness probe that raises leads straight to SIGKILL, otherwise the escalation of `EscalateRunning` follows |
| Escalation.VanishedGroupIsIgnored | scripts/with-timeout.py:33-38 | a group that no longer exists is not an error: nothing escapes unless a SIGKILL is refused |
| Escalation.GracefulExitIsNotKilled | scripts/with-timeout.py:140-147 | when no liveness probe raises, a child that exits in the grace period after a delivered SIGTERM is never sent SIGKILL |
| Escalation.ExitCode | scripts/with-timeout.py:161-163 | 124 whenever a limit fired, otherwise the child's status with 0 for unknown |
| Escalation.RunWithTimeouts | scripts/with-timeout.py:41-163 | output is the loop's; without a timeout there are no actions and the child's status is returned; a timed-out child that already exited is not signalled and gives 124; a timed-out running child gets the `EscalateRunning` trace and 124, or 1 when an exception escapes; a raising liveness probe gives one SIGKILL and 124, or 1 when it is refused |
| Escalation.NoLimitsIsTransparent | scripts/with-timeout.py:41-163 | with both limits 0 the supervisor only forwards output, never samples or signals, and returns the child's status |
| Escalation.TimeoutReturns124 | scripts/with-timeout.py:125-162 | a timeout whose SIGKILLs are not refused returns 124, after a SIGTERM if the child was running and no liveness probe raised |
| Escalation.RefusedKillExitsOne | scripts/with-timeout.py:139-149 | a failed SIGTERM followed by a refused SIGKILL in the handler ends with status 1 and a SIGKILL as the last action |
| Escalation.OversizedPidKillsAtOnce | scripts/with-timeout.py:108-115 | an XCTest id beyond the C `pid_t` range makes `pid_exists` raise, so the child gets SIGKILL at once: no sample, no SIGTERM, no grace period |
| TimeoutScenario.ReportLineHasPid | scripts/with-timeout.py:80-86 | the runner line `xctest (4242)` yields 4242 with the intended pattern and nothing as written |
| TimeoutScenario.HangRun | scripts/with-timeout.py:97-102 | a child that prints once and then hangs past the idle limit is timed out by the idle limit |
| TimeoutScenario.CalmEscalation | scripts/with-timeout.py:128-140 | a cooperative child is sampled and then sent SIGTERM only |
| TimeoutScenario.HangSamplesXcTest | scripts/with-timeout.py:128-137 | with the intended pattern the hang samples the XCTest process and returns 124 |
| TimeoutScenario.HangSamplesChildAsWritten | scripts/with-timeout.py:128-137 | as written the same hang samples the child instead |
| SupervisorCli.DropLeadingDashDash | scripts/with-timeout.py:177-182 | a leading `--` of the captured remainder is dropped, and nothing else |
| SupervisorCli.ResolveCommand | scripts/with-timeout.py:176-189 | the captured remainder if non-empty, else everything after the first `--` of the argument vector, else nothing |
| SupervisorCli.ResolveCommandAgreesWithWrapper | scripts/with-timeout.py:187-189 | without a captured remainder the fallback is the `xcodebuild` wrapper's split after `--` |
| SupervisorCli.SamplingEnabled | scripts/with-timeout.py:195-208 | sampling is on exactly when `--sample` is given or the variable is set to a non-empty value |
| SupervisorCli.EffectiveSampleSeconds | scripts/with-timeout.py:196-202 | the variable's integer when it is set, non-empty and parses as one under `int()`'s own whitespace rules; the flag's value otherwise |
| SupervisorCli.SampleSecondsOverride | scripts/with-timeout.py:198-200 | a variable holding an integer's rendering overrides the flag with that integer |
| SupervisorCli.SampleSecondsIgnoresWords | scripts/with-timeout.py:198-202 | a variable that does not parse leaves the flag's value |
| SupervisorCli.SampleSecondsIgnoresSeparator | scripts/with-timeout.py:198-202 | a variable `"\x1c8"` leaves the flag's value, as `int()` raises on it |
| SupervisorCli.PlanRun | scripts/with-timeout.py:166-210 | a missing command is a usage error; otherwise the command runs with the limits, the sampling switch and the effective seconds |
| SupervisorCli.MainResult | scripts/with-timeout.py:190-211 | `main` gives 2 for a missing command and otherwise the supervised status |
| SupervisorCli.ExitByte | scripts/with-timeout.py:211 | the process status is the value modulo 256: unchanged in 0..255, plus 256 for small negatives |
| SupervisorCli.ProcessStatusAsWritten | scripts/with-timeout.py:214-215 | as written, a missing command exits with status 0 |
| SupervisorCli.ProcessStatus | scripts/with-timeout.py:190-215 | the status is `main`'s value as an exit byte, so a missing command is status 2 |
| SupervisorCli.MissingCommandExitsZeroAsWritten | scripts/with-timeout.py:190-215 | without a command the as-written script exits 0, the corrected one 2 |
| SupervisorCli.StatusesAgreeWithCommand | scripts/with-timeout.py:204-215 | with a command both agree on the supervised status's exit byte |
| PerfScrape.PerfJsonMatchAt | scripts/benchmarks.py:33 | a match is the marker, a one-line `{...}` group, then only trailing whitespace |
| PerfScrape.SearchPerfJson | scripts/benchmarks.py:60 | a found group is a one-line text starting with `{` and ending with `}` |
| PerfScrape.SearchPerfJsonSound | scripts/benchmarks.py:60-61 | the search returns the group of a match at a real position |
| PerfScrape.SearchSkipsNoFire | scripts/benchmarks.py:60 | the search passes over any prefix without the marker's first character |
| PerfScrape.NoFireNoPayload | scripts/benchmarks.py:60-61 | a line without 🔥 yields no record |
| PerfScrape.PayloadAt | scripts/benchmarks.py:60-63 | a line that is the marker, a one-line JSON object and trailing whitespace yields exactly that object |
| PerfScrape.RecordOf | scripts/benchmarks.py:60-66 | a line yields at most one record, and one exactly when it matches and its group decodes |
| PerfScrape.Scraped | scripts/benchmarks.py:57-66 | at most one record per line; see `PerfScrape.RecordOf` and `PerfScrape.ScrapedAppend` for which lines yield one |
| PerfScrape.ScrapedAppend | scripts/benchmarks.py:57-66 | scraping distributes over concatenated output |
| PerfScrape.ScrapedNone | scripts/benchmarks.py:57-66 | output without matching lines yields no records |
| PerfScrape.CaptureRecords | scripts/benchmarks.py:57-67 | every line is echoed, in order, and the records are the decoded groups of the matching lines |
| BenchRecord.GitAnswer | scripts/benchmarks.py:70-83 | the stripped output, absent when `git` failed or printed only whitespace |
| BenchRecord.GitDirty | scripts/benchmarks.py:86-91 | dirty exactly when the porcelain status has non-whitespace output, unknown when `git` failed |
| BenchRecord.RunId | scripts/benchmarks.py:108 | a non-empty `--run-id` is used, otherwise the compacted timestamp |
| BenchRecord.RunMeta | scripts/benchmarks.py:107-133 | each run field is its option or its `git` answer; `--git-head` wins when non-empty; `cmd` is the space-joined command |
| BenchRecord.RowsFor | scripts/benchmarks.py:119-136 | one row per record, in order, each with the same run metadata |
| BenchRecord.Record | scripts/benchmarks.py:102-143 | an empty command is status 2 with nothing run; otherwise the output is echoed, the command's status is returned and every scraped record becomes one row |
| BenchRecord.RowsShareRunId | scripts/benchmarks.py:119-136 | all rows of one run carry the same run id |
| BenchRecord.QuietOutputRecordsNothing | scripts/benchmarks.py:116-136 | output without 🔥 records nothing |
| BenchRecord.GeneratedRunIdIsCompact | scripts/benchmarks.py:108 | a generated run id contains no `:` or `+` |
| BenchAggregate.Add | scripts/benchmarks.py:163-166 | one more measurement in the count, both means now account for the old sum plus the new time, and the run's details are unchanged |
| BenchAggregate.OptAvg | scripts/benchmarks.py:168-170 | the average times the count is the sum, and 0 for an empty group |
| BenchAggregate.LegAvg | scripts/benchmarks.py:172-174 | the average times the count is the sum, and 0 for an empty group |
| BenchAggregate.OptOverLeg | scripts/benchmarks.py:176-178 | the ratio times the legacy average is the optimized average, and 0 when the legacy average is 0 |
| BenchAggregate.KeyIndex | scripts/benchmarks.py:219 | dictionary lookup: absent exactly when no group has the key, else the group with it |
| BenchAggregate.UpdateExisting | scripts/benchmarks.py:219-228 | adding a measurement to an existing group keeps the table a summary of the entries so far |
| BenchAggregate.UpdateNew | scripts/benchmarks.py:219-228 | opening a group for a new key keeps the table a summary of the entries so far |
| BenchAggregate.UpdateSummarizes | scripts/benchmarks.py:218-228 | one more entry keeps the table a summary |
| BenchAggregate.Aggregate | scripts/benchmarks.py:190-228 | no own contract; see `BenchAggregate.AggregateSummarizes` |
| BenchAggregate.AggregateSummarizes | scripts/benchmarks.py:190-228 | the groups have distinct keys in first-seen order; every entry's key has a group; each group holds the first entry's metadata and the count and sums of all entries with its key |
| BenchAggregate.AggregateCountsPositive | scripts/benchmarks.py:219-228 | every group holds at least one measurement |
| LexOrder.LessIrreflexive | scripts/benchmarks.py:235 | no string sorts before itself |
| LexOrder.LessTrichotomy | scripts/benchmarks.py:235 | two strings are equal or ordered one way, never both ways |
| LexOrder.LessTransitive | scripts/benchmarks.py:235 | the string order is transitive |
| LexOrder.PrefixIsLess | scripts/benchmarks.py:235 | a proper prefix sorts first |
| StableSort.SortBy | scripts/benchmarks.py:235 | the result is as long as the input; order, permutation and stability are in the three lemmas below |
| StableSort.SortBySorted | scripts/benchmarks.py:235 | the groups come out in ascending start time |
| StableSort.SortByPermutes | scripts/benchmarks.py:235 | sorting keeps every group, each exactly once |
| StableSort.SortByStable | scripts/benchmarks.py:235 | groups with equal start times keep their relative order |
| StableSort.SortBySortedIdentity | scripts/benchmarks.py:235 | a list already in order is unchanged |
| StableSort.FilterKeepsSorted | scripts/benchmarks.py:240 | dropping groups after the sort keeps the order |
| BenchReport.ParseLogLine | scripts/benchmarks.py:193-200 | blank lines are skipped; any other line is decoded after stripping |
| BenchReport.EntryOf | scripts/benchmarks.py:202-216 | a row is counted exactly when the non-empty issue and scenario filters both match it |
| BenchReport.EntriesOf | scripts/benchmarks.py:192-216 | every entry read from the log passes both filters |
| BenchReport.BlankLinesIgnored | scripts/benchmarks.py:194-196 | a blank line changes nothing |
| BenchReport.SliceStart | scripts/benchmarks.py:239 | Python's slice start for a possibly negative index, clamped to the list |
| BenchReport.KeepLastAsWritten | scripts/benchmarks.py:237-240 | as written, `--last 0` keeps every group |
| BenchReport.KeepLastAsWrittenShowsTail | scripts/benchmarks.py:238-240 | as written, the last N groups are kept and every kept group's run owns one of them |
| BenchReport.KeepLastAsWrittenRuns | scripts/benchmarks.py:238-240 | as written, a group is kept exactly when its run owns one of the last N groups, so at most N runs are shown |
| BenchReport.LastTwoRowsAreOneRun | scripts/benchmarks.py:238-240 | as written, `--last 2` over runs A, B, B shows run B only |
| BenchReport.RecentRunIds | scripts/benchmarks.py:237-240 | distinct run ids of the input, at most N, starting with the newest (which ones: `RecentRunIdsAreNewest`) |
| BenchReport.RecentRunIdsAreNewest | scripts/benchmarks.py:237 | an id is kept exactly when it occurs and fewer than N distinct ids follow its last occurrence: the N most recent runs |
| BenchReport.RecentRunIdsNewestFirst | scripts/benchmarks.py:237 | the kept ids come newest first: each occurs after the last occurrence of every id kept behind it |
| BenchReport.RecentRunIdsCount | scripts/benchmarks.py:237-240 | exactly N runs are kept, or all of them when there are fewer |
| BenchReport.KeepLastRuns | scripts/benchmarks.py:237-240 | 0 keeps everything; a positive N keeps only groups of the N most recent runs |
| BenchReport.KeepLastRunsShowsRuns | scripts/benchmarks.py:237-240 | a group is kept exactly when its run is among the N most recent; min(N, runs) runs are kept; the kept groups are a subsequence of the input |
| BenchReport.LastTwoRunsAreBoth | scripts/benchmarks.py:237-240 | `--last 2` over runs A, B, B shows both runs |
| BenchReport.GitShort | scripts/benchmarks.py:248 | the first eight characters of the commit, or all of a shorter one |
| BenchReport.DirtyLabel | scripts/benchmarks.py:249-253 | `dirty` exactly for a known dirty tree, `clean` exactly for a known clean one, empty exactly when the state is unknown |
| BenchReport.LineOf | scripts/benchmarks.py:247-255 | a line shows the group's run id, issue, tag, scenario and count, the first eight characters of its commit, its state word, and the means and ratio of `BenchAggregate` |
| BenchReport.ReportAsWritten | scripts/benchmarks.py:181-257 | as written: a missing log is status 2 with no output; otherwise status 0 and one line per group of the runs owning the last N groups, in start order |
| BenchReport.Report | scripts/benchmarks.py:181-257 | with `--last` as its help text says: a missing log is status 2 with no output; otherwise status 0 and one line per group of the N most recent runs, in start order |
| BenchReport.ReportsAgreeWithoutPositiveLast | scripts/benchmarks.py:237-240 | with `--last` 0 or negative the two readings print the same |
| BenchReport.ShownFromTable | scripts/benchmarks.py:230-240 | under either reading of `--last`, every shown group is a group of the table with a run id and a scenario |
| BenchReport.Ranked | scripts/benchmarks.py:230-235 | no own contract; see `BenchReport.RankedIsNamedTable` and `BenchReport.ShownInStartOrder` |
| BenchReport.RankedIsNamedTable | scripts/benchmarks.py:230-235 | the groups `--last` selects from are exactly the table's groups with a run id and a scenario, so `--last 0` shows them all |
| BenchReport.ShownGroupsAreMeasured | scripts/benchmarks.py:206-234 | under either reading, every shown group is named, holds a measurement and passes both filters |
| BenchReport.ShownInStartOrder | scripts/benchmarks.py:235-240 | under either reading, the shown groups are in ascending start time |
| BenchMain.MainResult | scripts/benchmarks.py:260-295 | no subcommand is status 2; `record` without a command is 2, otherwise the command's status; `report` is 2 exactly when the log is missing, else 0 |
| BenchMain.ExitStatus | scripts/benchmarks.py:298-299 | the process status is the exit byte of `main`'s value |
| BenchMain.RecordWithoutCommandFails | scripts/benchmarks.py:279-290 | `record` with no `--` at all ends with status 2 |
| BenchMain.RecordedRowReadBack | scripts/benchmarks.py:202-226 | a row written by `record` reads back under its run id, issue and scenario, with its metadata and wall times (0 where missing) |
| BenchMain.RecordedRowIssueFilter | scripts/benchmarks.py:205-207 | a row recorded under an issue passes exactly that issue's filter |

## Left out

- Process creation, pipes, `selectors`, `time.sleep` and the clock: the supervisor sees each loop iteration as a tick with one time reading. The readable pipes, their lines and the `poll()` result come with the tick.
- `os.killpg`, `os.kill(pid, 0)` and `subprocess.run(["sample", ...])`: these are the operating system's answers in `Escalation.Host`. A failing `sample` is only reported on stderr, so it is not modelled.
- Escalation.ProbeRaises: the only uncaught exception of `pid_exists` modelled is the `OverflowError` of `os.kill` for an id outside the 32-bit `pid_t` of macOS; other `OSError`s from `os.kill(pid, 0)` are not.
- Draining with `communicate(timeout=3)` after the loop: what it leaves in `returncode` is an input.
- Printing the timeout notices, the usage and error messages, the report header and `Recorded N ...`: only their effect on the status and the order of forwarded output is modelled.
- `find_xctestrun`'s glob and modification-time order: the host supplies the newest match's directory or none.
- Reading and writing the `.xctestrun` file with `plistlib`, and `mkdir`: the file is modelled as a value.
- `append_jsonl` and `ensure_parent_dir`, which write the log file: `Record` returns the rows it would append.
- JSON encoding and decoding: the decoder is a parameter from a line to an optional record. A line that decodes to something other than an object makes the source fail on `.get`. The model treats such a line as one the decoder rejects.
- argparse itself (unknown options, non-integer `--idle`/`--hard`/`--last`, `--help`): the parsed options are the inputs.
- BenchAggregate.OptAvg: floating-point rounding is not modelled; the sums and averages are exact reals.
- BenchReport.LineOf: the `:.4f` and `:.2f` formatting of the printed numbers is left to the printer; a line holds the exact values.
- BenchReport.EntryOf: `started_at` values that are not strings (where sorting could raise `TypeError`) and wall times that are not numbers are outside the record type.
- PerfScrape.PerfJsonMatchAt: `\s` is modelled as the whitespace below U+0080 (space, `\t` to `\r`, U+001C to U+001F); non-ASCII whitespace such as U+00A0 is not modelled.
- Text.RStrip: `str.strip` is modelled for the whitespace of `str.isspace` below U+0080 only; non-ASCII whitespace is not stripped.
- Text.ParseIntRejectsLead: `int()` also skips non-ASCII whitespace (`int("\u00a012")` is 12) and reads non-ASCII digits; the model rejects such values.
- PidPattern.MatchPidAt: `\d` is modelled as the ASCII digits; Python's `\d` also matches other Unicode decimal digits.
- Text.ParseIntRoundTrip: `int()`'s acceptance of non-ASCII digits is not modelled.
- Text.ParseInt: the model reads digit strings of any length. Python 3.11 and later raise ValueError for more than 4300 digits (the integer string conversion limit), so such a value leaves the process id or the sample seconds unchanged there.
- XcodebuildMain.Main: the wrapper's return value is the status as `main` returns it. The reduction to an exit byte is modelled once, in `SupervisorCli.ExitByte`.
- Supervisor.Step: the idle and hard checks share the iteration's single time reading.

## Findings

| source | as written | input that shows it | evidently intended | confidence | as-written member | corrected member |
|---|---|---|---|---|---|---|
| scripts/with-timeout.py:46 | the raw string `r"xctest \\((\\d+)\\)"` doubles every backslash, so the pattern asks for literal backslashes and letters `d`. Its group always starts with a backslash, which `int()` rejects. | the runner line `xctest (81823)` from the comment at line 80: no process id is learned, and on a hang the child is sampled instead of the XCTest process | `xctest \((\d+)\)`, which yields 81823 | high; not executed | PidPattern.ExtractPidAsWritten (PidPattern.ExtractPidAsWrittenNeverFinds, TimeoutScenario.HangSamplesChildAsWritten) | PidPattern.ExtractPid (PidPattern.ExtractPidFinds, TimeoutScenario.HangSamplesXcTest) |
| scripts/with-timeout.py:214-215 | `main()` is called without passing its value to `sys.exit`, so the `return 2` for a missing command at line 192 is discarded | running the script with no command after `--` exits with status 0 | exit status 2, the value `main` returns for the usage error | high; not executed | SupervisorCli.ProcessStatusAsWritten (SupervisorCli.MissingCommandExitsZeroAsWritten) | SupervisorCli.ProcessStatus |
| scripts/benchmarks.py:237-240 | `--last N` keeps the run ids found among the last N groups, not the last N run ids | with groups (run A, s1), (run B, s1), (run B, s2) in start order, `--last 2` shows only run B | the last N distinct run ids, as the comment at line 237 and the help text at line 276 say | medium; not executed | BenchReport.ReportAsWritten (BenchReport.KeepLastAsWritten, BenchReport.KeepLastAsWrittenRuns, BenchReport.LastTwoRowsAreOneRun) | BenchReport.Report (BenchReport.KeepLastRuns, BenchReport.RecentRunIdsAreNewest, BenchReport.LastTwoRunsAreBoth) |

=== FILE: bench_aggregate.dfy ===
/**
 * The report's accumulation: measurements are grouped by (run id, issue, scenario) in a dictionary
 * that keeps its keys in first-seen order. Each group keeps the metadata of its first measurement
 * and counts and sums the wall times of all of them. The dictionary is a table of key/value pairs.
 */
module BenchAggregate {
  import opened Wrappers

  datatype AggKey = AggKey(runId: string, issue: string, scenario: string)

  /** A group: metadata of its first row, and the number and sums of its measurements. */
  datatype Agg = Agg(startedAt: string, tag: string, gitHead: string, gitDirty: Option<bool>, count: nat, optSum: real, legSum: real)

  /** One measurement that passed the filters, with the fields the report reads from its row. */
  datatype Entry = Entry(key: AggKey, startedAt: string, tag: string, gitHead: string, gitDirty: Option<bool>, opt: real, leg: real)

  type Table = seq<(AggKey, Agg)>

  /** A new group for the first measurement of a key, before that measurement is added. */
  function Fresh(e: Entry): Agg {
    Agg(e.startedAt, e.tag, e.gitHead, e.gitDirty, 0, 0.0, 0.0)
  }

  /**
   * Adds one measurement to a group: one more in the count, the group's means now account for the
   * old sums plus the new times, and the run's details stay as they were.
   */
  function Add(a: Agg, opt: real, leg: real): (r: Agg)
    ensures r.count == a.count + 1
    ensures OptAvg(r) * (r.count as real) == a.optSum + opt
    ensures LegAvg(r) * (r.count as real) == a.legSum + leg
    ensures r.(count := a.count, optSum := a.optSum, legSum := a.legSum) == a
  {
    a.(count := a.count + 1, optSum := a.optSum + opt, legSum := a.legSum + leg)
  }

  /** The mean optimized time; 0 for an empty group. */
  function OptAvg(a: Agg): (avg: real)
    ensures a.count == 0 ==> avg == 0.0
    ensures a.count > 0 ==> avg * (a.count as real) == a.optSum
  {
    if a.count != 0 then a.optSum / (a.count as real) else 0.0
  }

  /** The mean legacy time; 0 for an empty group. */
  function LegAvg(a: Agg): (avg: real)
    ensures a.count == 0 ==> avg == 0.0
    ensures a.count > 0 ==> avg * (a.count as real) == a.legSum
  {
    if a.count != 0 then a.legSum / (a.count as real) else 0.0
  }

  /** Optimized over legacy; 0 when the legacy mean is 0. */
  function OptOverLeg(a: Agg): (ratio: real)
    ensures LegAvg(a) == 0.0 ==> ratio == 0.0
    ensures LegAvg(a) != 0.0 ==> ratio * LegAvg(a) == OptAvg(a)
  {
    var leg := LegAvg(a);
    if leg != 0.0 then OptAvg(a) / leg else 0.0
  }

  /** Where `k` is in the table. */
  function KeyIndex(t: Table, k: AggKey): (i: Option<nat>)
    ensures i.None? <==> forall j :: 0 <= j < |t| ==> t[j].0 != k
    ensures i.Some? ==> i.value < |t| && t[i.value].0 == k
    decreases |t|
  {
    if |t| == 0 then None
    else if t[0].0 == k then Some(0)
    else
      match KeyIndex(t[1..], k)
      case None => None
      case Some(i) => Some(i + 1)
  }

  /** `aggs.get(key)`, creating the group when it is missing, then `agg.add(...)`. */
  function Update(t: Table, e: Entry): Table {
    match KeyIndex(t, e.key)
    case Some(i) => t[i := (t[i].0, Add(t[i].1, e.opt, e.leg))]
    case None => t + [(e.key, Add(Fresh(e), e.opt, e.leg))]
  }

  /** The table after all measurements, in order. */
  function Aggregate(es: seq<Entry>): Table
    decreases |es|
  {
    if |es| == 0 then [] else Update(Aggregate(es[..|es| - 1]), es[|es| - 1])
  }

  /** How many measurements have key `k`. */
  function CountOf(es: seq<Entry>, k: AggKey): nat
    decreases |es|
  {
    if |es| == 0 then 0
    else CountOf(es[..|es| - 1], k) + (if es[|es| - 1].key == k then 1 else 0)
  }

  function OptSumOf(es: seq<Entry>, k: AggKey): real
    decreases |es|
  {
    if |es| == 0 then 0.0
    else OptSumOf(es[..|es| - 1], k) + (if es[|es| - 1].key == k then es[|es| - 1].opt else 0.0)
  }

  function LegSumOf(es: seq<Entry>, k: AggKey): real
    decreases |es|
  {
    if |es| == 0 then 0.0
    else LegSumOf(es[..|es| - 1], k) + (if es[|es| - 1].key == k then es[|es| - 1].leg else 0.0)
  }

  /** The position of the first measurement with key `k`. */
  function FirstIndexOf(es: seq<Entry>, k: AggKey): (i: Option<nat>)
    ensures i.None? <==> forall j :: 0 <= j < |es| ==> es[j].key != k
    ensures i.Some? ==> i.value < |es| && es[i.value].key == k && forall j :: 0 <= j < i.value ==> es[j].key != k
    decreases |es|
  {
    if |es| == 0 then None
    else
      var init := es[..|es| - 1];
      match FirstIndexOf(init, k)
      case Some(i) => Some(i)
      case None => if es[|es| - 1].key == k then Some(|es| - 1) else None
  }

  /** What the group of `k` should hold: the first measurement's metadata, and the count and sums of all. */
  function Expected(es: seq<Entry>, k: AggKey): Agg
    requires FirstIndexOf(es, k).Some?
  {
    var first := es[FirstIndexOf(es, k).value];
    Agg(first.startedAt, first.tag, first.gitHead, first.gitDirty, CountOf(es, k), OptSumOf(es, k), LegSumOf(es, k))
  }

  predicate DistinctKeys(t: Table) {
    forall i, j :: 0 <= i < j < |t| ==> t[i].0 != t[j].0
  }

  /** Every measured key has a group. */
  predicate Covers(t: Table, es: seq<Entry>) {
    forall j :: 0 <= j < |es| ==> KeyIndex(t, es[j].key).Some?
  }

  /** Every group is for a measured key and holds what `Expected` says. */
  predicate AsExpected(t: Table, es: seq<Entry>) {
    forall i :: 0 <= i < |t| ==> FirstIndexOf(es, t[i].0).Some? && t[i].1 == Expected(es, t[i].0)
  }

  /** Groups are listed in the order in which their keys first occur. */
  predicate FirstSeenOrder(t: Table, es: seq<Entry>)
    requires AsExpected(t, es)
  {
    forall i, j :: 0 <= i < j < |t| ==> FirstIndexOf(es, t[i].0).value < FirstIndexOf(es, t[j].0).value
  }

  /**
   * `t` summarizes `es`: one group per key that occurs, holding what `Expected` says, listed in the
   * order in which the keys first occur.
   */
  predicate Summarizes(t: Table, es: seq<Entry>) {
    DistinctKeys(t) && Covers(t, es) && AsExpected(t, es) && FirstSeenOrder(t, es)
  }

  /** For a key already seen, one more measurement adds to its expected group when it has that key. */
  lemma SnocExpected(es: seq<Entry>, e: Entry, k: AggKey)
    requires FirstIndexOf(es, k).Some?
    ensures FirstIndexOf(es + [e], k) == FirstIndexOf(es, k)
    ensures Expected(es + [e], k) == if e.key == k then Add(Expected(es, k), e.opt, e.leg) else Expected(es, k)
  {
    var es2 := es + [e];
    assert es2[..|es|] == es && es2[|es|] == e;
    LastIsOld(es2, k);
    assert es2[FirstIndexOf(es, k).value] == es[FirstIndexOf(es, k).value];
  }

  lemma LastIsOld(es: seq<Entry>, k: AggKey)
    requires |es| > 0 && FirstIndexOf(es[..|es| - 1], k).Some?
    ensures FirstIndexOf(es, k) == FirstIndexOf(es[..|es| - 1], k)
    ensures var init, last := es[..|es| - 1], es[|es| - 1];
      && CountOf(es, k) == CountOf(init, k) + (if last.key == k then 1 else 0)
      && OptSumOf(es, k) == OptSumOf(init, k) + (if last.key == k then last.opt else 0.0)
      && LegSumOf(es, k) == LegSumOf(init, k) + (if last.key == k then last.leg else 0.0)
  {
  }

  /** For a key seen for the first time, the expected group is the new measurement's. */
  lemma SnocExpectedNew(es: seq<Entry>, e: Entry)
    requires FirstIndexOf(es, e.key).None?
    ensures FirstIndexOf(es + [e], e.key) == Some(|es|)
    ensures Expected(es + [e], e.key) == Add(Fresh(e), e.opt, e.leg)
  {
    var es2 := es + [e];
    assert es2[..|es|] == es && es2[|es|] == e;
    LastIsNew(es2, e.key);
  }

  lemma LastIsNew(es: seq<Entry>, k: AggKey)
    requires |es| > 0 && es[|es| - 1].key == k
    requires FirstIndexOf(es[..|es| - 1], k).None?
    ensures FirstIndexOf(es, k) == Some(|es| - 1)
    ensures Expected(es, k) == Add(Fresh(es[|es| - 1]), es[|es| - 1].opt, es[|es| - 1].leg)
  {
    AbsentKeyIsZero(es[..|es| - 1], k);
  }

  /** A key that never occurs has count and sums 0. */
  lemma {:induction false} AbsentKeyIsZero(es: seq<Entry>, k: AggKey)
    requires FirstIndexOf(es, k).None?
    ensures CountOf(es, k) == 0 && OptSumOf(es, k) == 0.0 && LegSumOf(es, k) == 0.0
    decreases |es|
  {
    if |es| > 0 {
      AbsentKeyIsZero(es[..|es| - 1], k);
    }
  }

  /** A key that occurs has a positive count. */
  lemma {:induction false} PresentKeyCounts(es: seq<Entry>, k: AggKey)
    requires FirstIndexOf(es, k).Some?
    ensures CountOf(es, k) >= 1
    decreases |es|
  {
    var init := es[..|es| - 1];
    if FirstIndexOf(init, k).Some? {
      PresentKeyCounts(init, k);
    }
  }

  /** The table after adding to the group at `i`. */
  function AddAt(t: Table, i: nat, e: Entry): (t2: Table)
    requires i < |t|
    ensures |t2| == |t| && forall j :: 0 <= j < |t| ==> t2[j].0 == t[j].0
  {
    t[i := (t[i].0, Add(t[i].1, e.opt, e.leg))]
  }

  /** The table after opening a group for `e`. */
  function Open(t: Table, e: Entry): (t2: Table)
    ensures |t2| == |t| + 1 && t2[|t|] == (e.key, Add(Fresh(e), e.opt, e.leg))
    ensures forall j :: 0 <= j < |t| ==> t2[j] == t[j]
  {
    t + [(e.key, Add(Fresh(e), e.opt, e.leg))]
  }

  lemma ExistingAsExpected(t: Table, es: seq<Entry>, e: Entry, i: nat)
    requires DistinctKeys(t) && AsExpected(t, es)
    requires i < |t| && t[i].0 == e.key
    ensures AsExpected(AddAt(t, i, e), es + [e])
    ensures forall j :: 0 <= j < |t| ==> FirstIndexOf(es + [e], t[j].0) == FirstIndexOf(es, t[j].0)
  {
    var t2 := AddAt(t, i, e);
    forall j | 0 <= j < |t|
      ensures FirstIndexOf(es + [e], t[j].0) == FirstIndexOf(es, t[j].0)
      ensures FirstIndexOf(es + [e], t2[j].0).Some? && t2[j].1 == Expected(es + [e], t2[j].0)
    {
      SnocExpected(es, e, t[j].0);
    }
  }

  lemma ExistingCovers(t: Table, es: seq<Entry>, e: Entry, i: nat)
    requires Covers(t, es)
    requires i < |t| && t[i].0 == e.key
    ensures Covers(AddAt(t, i, e), es + [e])
  {
    var t2 := AddAt(t, i, e);
    var es2 := es + [e];
    forall j | 0 <= j < |es2|
      ensures KeyIndex(t2, es2[j].key).Some?
    {
      if j < |es| {
        var x := KeyIndex(t, es[j].key).value;
        assert t2[x].0 == es2[j].key;
      } else {
        assert t2[i].0 == es2[j].key;
      }
    }
  }

  /** A measurement for a key already in the table is added to that key's group. */
  lemma UpdateExisting(t: Table, es: seq<Entry>, e: Entry, i: nat)
    requires Summarizes(t, es)
    requires KeyIndex(t, e.key) == Some(i)
    ensures Summarizes(Update(t, e), es + [e])
  {
    var t2 := AddAt(t, i, e);
    assert Update(t, e) == t2;
    ExistingAsExpected(t, es, e, i);
    ExistingCovers(t, es, e, i);
  }

  lemma NewAsExpected(t: Table, es: seq<Entry>, e: Entry)
    requires AsExpected(t, es)
    requires FirstIndexOf(es, e.key).None?
    ensures AsExpected(Open(t, e), es + [e])
    ensures forall j :: 0 <= j < |t| ==> FirstIndexOf(es + [e], t[j].0) == FirstIndexOf(es, t[j].0)
    ensures FirstIndexOf(es + [e], e.key) == Some(|es|)
  {
    var t2 := Open(t, e);
    SnocExpectedNew(es, e);
    forall j | 0 <= j < |t|
      ensures FirstIndexOf(es + [e], t[j].0) == FirstIndexOf(es, t[j].0)
      ensures FirstIndexOf(es + [e], t2[j].0).Some? && t2[j].1 == Expected(es + [e], t2[j].0)
    {
      SnocExpected(es, e, t[j].0);
    }
  }

  lemma NewCovers(t: Table, es: seq<Entry>, e: Entry)
    requires Covers(t, es)
    ensures Covers(Open(t, e), es + [e])
  {
    var t2 := Open(t, e);
    var es2 := es + [e];
    forall j | 0 <= j < |es2|
      ensures KeyIndex(t2, es2[j].key).Some?
    {
      if j < |es| {
        var x := KeyIndex(t, es[j].key).value;
        assert t2[x].0 == es2[j].key;
      } else {
        assert t2[|t|].0 == es2[j].key;
      }
    }
  }

  lemma NewDistinct(t: Table, e: Entry)
    requires DistinctKeys(t) && KeyIndex(t, e.key).None?
    ensures DistinctKeys(Open(t, e))
  {
  }

  lemma NewOrder(t: Table, es: seq<Entry>, e: Entry)
    requires AsExpected(t, es) && FirstSeenOrder(t, es)
    requires AsExpected(Open(t, e), es + [e])
    requires forall j :: 0 <= j < |t| ==> FirstIndexOf(es + [e], t[j].0) == FirstIndexOf(es, t[j].0)
    requires FirstIndexOf(es + [e], e.key) == Some(|es|)
    ensures FirstSeenOrder(Open(t, e), es + [e])
  {
  }

  /** A measurement for a new key opens a group at the end of the table. */
  lemma UpdateNew(t: Table, es: seq<Entry>, e: Entry)
    requires Summarizes(t, es)
    requires KeyIndex(t, e.key).None?
    ensures Summarizes(Open(t, e), es + [e])
  {
    assert FirstIndexOf(es, e.key).None? by {
      forall j | 0 <= j < |es|
        ensures es[j].key != e.key
      {
        assert KeyIndex(t, es[j].key).Some?;
      }
    }
    NewAsExpected(t, es, e);
    NewCovers(t, es, e);
    NewDistinct(t, e);
    NewOrder(t, es, e);
  }

  /** One more measurement keeps the table a summary of everything read so far. */
  lemma UpdateSummarizes(t: Table, es: seq<Entry>)
    requires |es| > 0 && Summarizes(t, es[..|es| - 1])
    ensures Summarizes(Update(t, es[|es| - 1]), es)
  {
    var init, e := es[..|es| - 1], es[|es| - 1];
    assert init + [e] == es;
    match KeyIndex(t, e.key)
    case Some(i) => UpdateExisting(t, init, e, i);
    case None =>
      assert Update(t, e) == Open(t, e);
      UpdateNew(t, init, e);
  }

  /** The table the loop builds summarizes all the measurements it read. */
  lemma {:induction false} AggregateSummarizes(es: seq<Entry>)
    ensures Summarizes(Aggregate(es), es)
    decreases |es|
  {
    if |es| > 0 {
      AggregateSummarizes(es[..|es| - 1]);
      UpdateSummarizes(Aggregate(es[..|es| - 1]), es);
    }
  }

  /** Every group in the table has at least one measurement, so its means are real means. */
  lemma AggregateCountsPositive(es: seq<Entry>)
    ensures forall i :: 0 <= i < |Aggregate(es)| ==> Aggregate(es)[i].1.count >= 1
  {
    var t := Aggregate(es);
    AggregateSummarizes(es);
    forall i | 0 <= i < |t|
      ensures t[i].1.count >= 1
    {
      PresentKeyCounts(es, t[i].0);
    }
  }
}

=== FILE: bench_data.dfy ===
/**
 * The records of the benchmark log, as already-decoded JSON. A field that is missing or `null` is
 * `None`. Every field the report reads through `x.get(...) or default` treats a falsy value (an
 * empty string, 0) like a missing one, and the model gives both the same default. `git_dirty` is
 * read without `or`, so `false` stays `Some(false)`. Numbers are `real`.
 */
module BenchData {
  import opened Wrappers

  /** One scraped benchmark measurement: its scenario and the wall times of the two implementations. */
  datatype Bench = Bench(scenario: Option<string>, optimizedWall: Option<real>, legacyWall: Option<real>)

  /** The run metadata stored with every measurement. */
  datatype RunFields = RunFields(
    id: Option<string>,
    issue: Option<string>,
    tag: Option<string>,
    gitHead: Option<string>,
    gitBranch: Option<string>,
    gitDirty: Option<bool>,
    startedAt: Option<string>,
    endedAt: Option<string>,
    cmd: Option<string>)

  /** One line of the log: `{"run": ..., "bench": ...}`. */
  datatype Row = Row(run: RunFields, bench: Bench)

  /** A row whose `run` or `bench` object is missing reads as all fields missing. */
  const NoRun := RunFields(None, None, None, None, None, None, None, None, None)
  const NoBench := Bench(None, None, None)
}

=== FILE: bench_main.dfy ===
/**
 * The benchmark script's entry point: the subcommand chosen on the command line, and the process
 * exit status, which is the value `main` returns (the script raises `SystemExit` with it).
 */
module BenchMain {
  import opened Wrappers
  import opened BenchData
  import opened BenchAggregate
  import opened BenchRecord
  import opened BenchReport
  import SupervisorCli

  /** The parsed command line: `record` with its options and what followed `--`, `report`, or neither. */
  datatype Subcommand =
    | RecordSub(opts: RecordOptions, dashdash: Option<seq<string>>)
    | ReportSub(logExists: bool, filters: Filters, last: int)
    | NoSubcommand

  /** What `main` returns after printing the help text. */
  const HelpStatus := 2

  /** Everything the outside world supplies: the argument vector, the decoders, the command's run and the log. */
  datatype World = World(
    argv: seq<string>,
    decodeRecord: string -> Option<Bench>,
    decodeRow: string -> Option<Row>,
    host: RecordHost,
    logLines: seq<string>)

  /**
   * The value `main` returns. `record` resolves its command the way the timeout supervisor does:
   * what followed `--` in option parsing, or else everything after the first `--` of the vector.
   */
  function MainResult(sub: Subcommand, w: World): (rc: int)
    ensures sub.NoSubcommand? ==> rc == HelpStatus
    ensures sub.RecordSub? && |SupervisorCli.ResolveCommand(sub.dashdash, w.argv)| == 0 ==> rc == MissingCommandStatus
    ensures sub.RecordSub? && |SupervisorCli.ResolveCommand(sub.dashdash, w.argv)| > 0 ==> rc == w.host.rc
    ensures sub.ReportSub? ==> (rc == MissingFileStatus <==> !sub.logExists) && (sub.logExists ==> rc == 0)
  {
    match sub
    case RecordSub(opts, dashdash) =>
      Record(w.decodeRecord, SupervisorCli.ResolveCommand(dashdash, w.argv), opts, w.host).status
    case ReportSub(logExists, filters, last) =>
      Report(w.decodeRow, logExists, w.logLines, filters, last).status
    case NoSubcommand => HelpStatus
  }

  /** The process exit status: the low eight bits of what `main` returns. */
  function ExitStatus(sub: Subcommand, w: World): (status: int)
    ensures 0 <= status < 256
    ensures status == SupervisorCli.ExitByte(MainResult(sub, w))
  {
    SupervisorCli.ExitByte(MainResult(sub, w))
  }

  /** Unlike the timeout supervisor as written, `record` without a command ends the process with status 2. */
  lemma RecordWithoutCommandFails(opts: RecordOptions, w: World)
    requires "--" !in w.argv
    ensures ExitStatus(RecordSub(opts, None), w) == 2
  {
  }

  /**
   * A row written by `record`, read back by `report` without filters, contributes one measurement
   * to the group of its run id, issue and scenario, carrying the run's start time, tag, commit and
   * working-tree state, and the two wall times (0 where missing).
   */
  lemma RecordedRowReadBack(cmd: seq<string>, opts: RecordOptions, host: RecordHost, bench: Bench)
    ensures var run := RunMeta(cmd, opts, host);
      EntryOf(Row(run, bench), NoFilters) == Some(Entry(
        AggKey(RunId(opts.runId, host.idClock), opts.issue.GetOr(""), bench.scenario.GetOr("")),
        host.startedAt, opts.tag.GetOr(""), run.gitHead.GetOr(""), GitDirty(host.statusPorcelain),
        bench.optimizedWall.GetOr(0.0), bench.legacyWall.GetOr(0.0)))
  {
  }

  /** A row recorded under `--issue I` passes the report's `--issue I` filter, and no other non-empty one. */
  lemma RecordedRowIssueFilter(cmd: seq<string>, opts: RecordOptions, host: RecordHost, bench: Bench, issue: string)
    requires issue != "" && opts.issue.Some?
    ensures EntryOf(Row(RunMeta(cmd, opts, host), bench), Filters(Some(issue), None)).Some? <==> opts.issue.value == issue
  {
  }
}

=== FILE: bench_record.dfy ===
/**
 * The `record` subcommand: run the command once, echo its output, and turn every scraped record
 * into a log row carrying the same run metadata. The clock, `git` and the child process are inputs
 * (`RecordHost`); appending the rows to the log file is left to the caller of `Record`.
 */
module BenchRecord {
  import opened Wrappers
  import opened Text
  import opened BenchData
  import opened PerfScrape

  /** `--run-id`, `--issue`, `--tag` and `--git-head`. */
  datatype RecordOptions = RecordOptions(runId: Option<string>, issue: Option<string>, tag: Option<string>, gitHead: Option<string>)

  /**
   * What the outside world answers: the clock when the run id is made, before and after the command,
   * the output of the three `git` queries (`None` when `git` fails), and the command's output lines
   * and return code.
   */
  datatype RecordHost = RecordHost(
    idClock: string,
    startedAt: string,
    endedAt: string,
    revParseHead: Option<string>,
    revParseBranch: Option<string>,
    statusPorcelain: Option<string>,
    output: seq<string>,
    rc: int)

  /** What `record` returns without a command. */
  const MissingCommandStatus := 2

  datatype RecordResult = RecordResult(status: int, echoed: seq<string>, rows: seq<Row>)

  /** A `git rev-parse` answer: the stripped output, or nothing when it failed or printed only whitespace. */
  function GitAnswer(out: Option<string>): (a: Option<string>)
    ensures out.None? ==> a.None?
    ensures out.Some? ==> (a.None? <==> AllSpace(out.value))
    ensures a.Some? ==> a.value != "" && !IsSpace(a.value[0]) && !IsSpace(a.value[|a.value| - 1])
  {
    match out
    case None => None
    case Some(o) =>
      StripEmptyIffBlank(o);
      var s := Strip(o);
      if s == "" then None else Some(s)
  }

  /** The working tree is dirty when `git status --porcelain` lists anything; unknown when it failed. */
  function GitDirty(out: Option<string>): (d: Option<bool>)
    ensures out.None? <==> d.None?
    ensures out.Some? ==> (d.value <==> !AllSpace(out.value))
  {
    match out
    case None => None
    case Some(o) =>
      StripEmptyIffBlank(o);
      Some(Strip(o) != "")
  }

  /** A non-empty `--run-id`, or the clock's timestamp without colons and with `+` turned into `_`. */
  function RunId(given: Option<string>, clock: string): (id: string)
    ensures given.Some? && given.value != "" ==> id == given.value
    ensures !(given.Some? && given.value != "") ==> id == CompactTimestamp(clock)
  {
    if given.Some? && given.value != "" then given.value else CompactTimestamp(clock)
  }

  /** The `run` object shared by every row of one invocation. */
  function RunMeta(cmd: seq<string>, opts: RecordOptions, host: RecordHost): (run: RunFields)
    ensures run.id == Some(RunId(opts.runId, host.idClock))
    ensures run.issue == opts.issue && run.tag == opts.tag
    ensures opts.gitHead.Some? && opts.gitHead.value != "" ==> run.gitHead == opts.gitHead
    ensures !(opts.gitHead.Some? && opts.gitHead.value != "") ==> run.gitHead == GitAnswer(host.revParseHead)
    ensures run.gitBranch == GitAnswer(host.revParseBranch) && run.gitDirty == GitDirty(host.statusPorcelain)
    ensures run.startedAt == Some(host.startedAt) && run.endedAt == Some(host.endedAt)
    ensures run.cmd == Some(Join(cmd, " "))
  {
    var head := if opts.gitHead.Some? && opts.gitHead.value != "" then opts.gitHead else GitAnswer(host.revParseHead);
    RunFields(
      Some(RunId(opts.runId, host.idClock)), opts.issue, opts.tag, head,
      GitAnswer(host.revParseBranch), GitDirty(host.statusPorcelain),
      Some(host.startedAt), Some(host.endedAt), Some(Join(cmd, " ")))
  }

  /** One row per record, in order, each under `run`. */
  function RowsFor(run: RunFields, records: seq<Bench>): (rows: seq<Row>)
    ensures |rows| == |records|
    ensures forall i :: 0 <= i < |rows| ==> rows[i] == Row(run, records[i])
  {
    seq(|records|, i requires 0 <= i < |records| => Row(run, records[i]))
  }

  /**
   * The `record` subcommand. Without a command nothing runs and the status is 2; otherwise the
   * output is echoed unchanged, the rows carry the scraped records in order, and the status is the
   * command's return code.
   */
  function Record(decode: string -> Option<Bench>, cmd: seq<string>, opts: RecordOptions, host: RecordHost): (r: RecordResult)
    ensures |cmd| == 0 ==> r == RecordResult(MissingCommandStatus, [], [])
    ensures |cmd| > 0 ==>
      && r.status == host.rc
      && r.echoed == host.output
      && |r.rows| == |Scraped(decode, host.output)|
      && (forall i :: 0 <= i < |r.rows| ==>
            r.rows[i].run == RunMeta(cmd, opts, host) && r.rows[i].bench == Scraped(decode, host.output)[i])
  {
    if |cmd| == 0 then RecordResult(MissingCommandStatus, [], [])
    else
      var records := Scraped(decode, host.output);
      RecordResult(host.rc, host.output, RowsFor(RunMeta(cmd, opts, host), records))
  }

  /** Every row of one invocation carries the same run id. */
  lemma RowsShareRunId(decode: string -> Option<Bench>, cmd: seq<string>, opts: RecordOptions, host: RecordHost)
    requires |cmd| > 0
    ensures var rows := Record(decode, cmd, opts, host).rows;
      forall i, j :: 0 <= i < |rows| && 0 <= j < |rows| ==> rows[i].run.id == rows[j].run.id == Some(RunId(opts.runId, host.idClock))
  {
  }

  /** Output without a record line leaves nothing to append. */
  lemma QuietOutputRecordsNothing(decode: string -> Option<Bench>, cmd: seq<string>, opts: RecordOptions, host: RecordHost)
    requires forall i, k :: 0 <= i < |host.output| && 0 <= k < |host.output[i]| ==> host.output[i][k] != Marker[0]
    ensures Record(decode, cmd, opts, host).rows == []
  {
    forall i | 0 <= i < |host.output|
      ensures PerfJsonPayload(host.output[i]).None?
    {
      NoFireNoPayload(host.output[i]);
    }
    ScrapedNone(decode, host.output);
  }

  /** A generated run id has no colon or plus sign, so it survives being compacted again. */
  lemma GeneratedRunIdIsCompact(clock: string)
    ensures var id := RunId(None, clock);
      (forall i :: 0 <= i < |id| ==> id[i] != ':' && id[i] != '+') && RunId(None, id) == id
  {
    CompactTimestampIdempotent(clock);
  }
}

=== FILE: bench_report.dfy ===
/**
 * The `report` subcommand: read the log line by line, keep the measurements that pass the issue and
 * scenario filters, group them, drop groups without a run id or scenario, order the groups by
 * start time, apply `--last`, and print one line per group. `--last` is modelled twice: as the
 * script computes it (`ReportAsWritten`) and as its help text describes it (`Report`). JSON
 * decoding is an input; the printed numbers are not rounded here.
 */
module BenchReport {
  import opened Wrappers
  import opened Seqs
  import opened Text
  import opened BenchData
  import opened LexOrder
  import opened StableSort
  import opened BenchAggregate

  /** `--issue` and `--scenario`. */
  datatype Filters = Filters(issue: Option<string>, scenario: Option<string>)

  const NoFilters := Filters(None, None)

  /** The default of `--last`. */
  const DefaultLast := 10

  /** What `report` returns when the log file does not exist. */
  const MissingFileStatus := 2

  /** A filter applies only when it is given and non-empty. */
  predicate Passes(filter: Option<string>, value: string) {
    !(filter.Some? && filter.value != "") || value == filter.value
  }

  /** A log line: blank lines and lines that do not decode are skipped. */
  function ParseLogLine(decode: string -> Option<Row>, line: string): (row: Option<Row>)
    ensures AllSpace(line) ==> row.None?
    ensures !AllSpace(line) ==> row == decode(Strip(line))
  {
    StripEmptyIffBlank(line);
    var s := Strip(line);
    if s == "" then None else decode(s)
  }

  /** The measurement a row contributes, with every missing or falsy field read as `""` or `0.0`. */
  function EntryOf(row: Row, filters: Filters): (e: Option<Entry>)
    ensures e.Some? <==> Passes(filters.issue, row.run.issue.GetOr("")) && Passes(filters.scenario, row.bench.scenario.GetOr(""))
  {
    var issue := row.run.issue.GetOr("");
    var scenario := row.bench.scenario.GetOr("");
    if !Passes(filters.issue, issue) || !Passes(filters.scenario, scenario) then None
    else
      Some(Entry(
        AggKey(row.run.id.GetOr(""), issue, scenario),
        row.run.startedAt.GetOr(""), row.run.tag.GetOr(""), row.run.gitHead.GetOr(""), row.run.gitDirty,
        row.bench.optimizedWall.GetOr(0.0), row.bench.legacyWall.GetOr(0.0)))
  }

  function EntryOfLine(decode: string -> Option<Row>, filters: Filters, line: string): (es: seq<Entry>)
    ensures |es| <= 1
  {
    match ParseLogLine(decode, line)
    case None => []
    case Some(row) =>
      match EntryOf(row, filters)
      case None => []
      case Some(e) => [e]
  }

  /** The measurements of the whole log, in file order; each passes both filters. */
  function EntriesOf(decode: string -> Option<Row>, filters: Filters, lines: seq<string>): (es: seq<Entry>)
    ensures |es| <= |lines|
    ensures forall i :: 0 <= i < |es| ==> Passes(filters.issue, es[i].key.issue) && Passes(filters.scenario, es[i].key.scenario)
    decreases |lines|
  {
    if |lines| == 0 then []
    else EntriesOf(decode, filters, lines[..|lines| - 1]) + EntryOfLine(decode, filters, lines[|lines| - 1])
  }

  /** Blank lines anywhere in the log change nothing. */
  lemma {:induction false} BlankLinesIgnored(decode: string -> Option<Row>, filters: Filters, lines: seq<string>, blank: string)
    requires AllSpace(blank)
    ensures EntriesOf(decode, filters, lines + [blank]) == EntriesOf(decode, filters, lines)
  {
    assert (lines + [blank])[..|lines|] == lines;
  }

  /** A group is listed only when both its run id and its scenario are non-empty. */
  predicate Named(kv: (AggKey, Agg)) {
    kv.0.runId != "" && kv.0.scenario != ""
  }

  function StartedAt(kv: (AggKey, Agg)): string {
    kv.1.startedAt
  }

  function RunIds(rows: Table): (ids: seq<string>)
    ensures |ids| == |rows| && forall i :: 0 <= i < |rows| ==> ids[i] == rows[i].0.runId
  {
    seq(|rows|, i requires 0 <= i < |rows| => rows[i].0.runId)
  }

  /** Where the slice `xs[start:]` of a list of length `len` begins. */
  function SliceStart(start: int, len: nat): (i: nat)
    ensures i <= len
    ensures 0 <= start <= len ==> i == start
    ensures start < 0 && 0 <= len + start ==> i == len + start
    ensures len + start < 0 ==> i == 0
    ensures start > len ==> i == len
  {
    if start < 0 then (if len + start < 0 then 0 else len + start)
    else if start > len then len
    else start
  }

  /**
   * `--last` as the script has it: the run ids of the last `last` rows, not of the last `last` runs.
   * Zero keeps everything; a negative value keeps the rows whose run occurs at index `-last` or
   * later, so a run that reappears there keeps its earlier rows too.
   */
  function KeepLastAsWritten(rows: Table, last: int): (r: Table)
    ensures last == 0 ==> r == rows
  {
    if last == 0 then rows
    else
      var from := SliceStart(-last, |rows|);
      var keep := set i | from <= i < |rows| :: rows[i].0.runId;
      Filter((kv: (AggKey, Agg)) => kv.0.runId in keep, rows)
  }

  /**
   * As written, every one of the last `last` rows is shown, and the earlier rows that are shown
   * belong to runs among those last rows.
   */
  lemma KeepLastAsWrittenShowsTail(rows: Table, last: int)
    requires last > 0
    ensures var from := SliceStart(-last, |rows|);
      && (forall i :: 0 <= i < |rows| && rows[i] in KeepLastAsWritten(rows, last) ==> exists j :: from <= j < |rows| && rows[j].0.runId == rows[i].0.runId)
      && |KeepLastAsWritten(rows, last)| >= |rows| - from
      && KeepLastAsWritten(rows, last)[|KeepLastAsWritten(rows, last)| - (|rows| - from)..] == rows[from..]
  {
    var from := SliceStart(-last, |rows|);
    var keep := set i | from <= i < |rows| :: rows[i].0.runId;
    var p := (kv: (AggKey, Agg)) => kv.0.runId in keep;
    assert rows == rows[..from] + rows[from..];
    FilterAppend(p, rows[..from], rows[from..]);
    assert forall j :: 0 <= j < |rows[from..]| ==> p(rows[from..][j]) by {
      forall j | 0 <= j < |rows[from..]|
        ensures p(rows[from..][j])
      {
        assert rows[from..][j] == rows[from + j];
      }
    }
    FilterIdentity(p, rows[from..]);
    forall i | 0 <= i < |rows| && rows[i] in KeepLastAsWritten(rows, last)
      ensures exists j :: from <= j < |rows| && rows[j].0.runId == rows[i].0.runId
    {
      FilterMember(p, rows, rows[i]);
    }
  }

  /**
   * As written, a group is kept exactly when its run owns one of the last `last` groups, so at
   * most `last` runs survive.
   */
  lemma KeepLastAsWrittenRuns(rows: Table, last: int)
    requires last > 0
    ensures var from := SliceStart(-last, |rows|); var r := KeepLastAsWritten(rows, last);
      && (forall kv :: kv in r <==> kv in rows && exists j :: from <= j < |rows| && rows[j].0.runId == kv.0.runId)
      && |Distinct(RunIds(r))| <= last
  {
    var from := SliceStart(-last, |rows|);
    var keep := set i | from <= i < |rows| :: rows[i].0.runId;
    var p := (kv: (AggKey, Agg)) => kv.0.runId in keep;
    var r := KeepLastAsWritten(rows, last);
    assert r == Filter(p, rows);
    forall kv
      ensures kv in r <==> kv in rows && exists j :: from <= j < |rows| && rows[j].0.runId == kv.0.runId
    {
      FilterMember(p, rows, kv);
    }
    FilteredRunsWithin(rows, keep);
    TailRunsBound(rows, from);
    SubsetSize(Distinct(RunIds(r)), keep);
  }

  /** Keeping the rows whose run is in `keep` leaves only runs of `keep`. */
  lemma FilteredRunsWithin(rows: Table, keep: set<string>)
    ensures Distinct(RunIds(Filter((kv: (AggKey, Agg)) => kv.0.runId in keep, rows))) <= keep
  {
    var p := (kv: (AggKey, Agg)) => kv.0.runId in keep;
    var r := Filter(p, rows);
    forall y | y in Distinct(RunIds(r))
      ensures y in keep
    {
      var i :| 0 <= i < |RunIds(r)| && RunIds(r)[i] == y;
      assert p(r[i]);
    }
  }

  /** The rows from `from` on belong to at most `|rows| - from` runs. */
  lemma TailRunsBound(rows: Table, from: nat)
    requires from <= |rows|
    ensures |set i | from <= i < |rows| :: rows[i].0.runId| <= |rows| - from
  {
    var keep := set i | from <= i < |rows| :: rows[i].0.runId;
    var tail := RunIds(rows[from..]);
    forall y | y in keep
      ensures y in Distinct(tail)
    {
      var i :| from <= i < |rows| && rows[i].0.runId == y;
      assert tail[i - from] == y;
    }
    DistinctSize(tail);
    SubsetSize(keep, Distinct(tail));
  }

  /** The `last` most recent distinct run ids of `ids`, newest first. */
  function RecentRunIds(ids: seq<string>, last: nat): (r: seq<string>)
    ensures |r| <= last
    ensures forall y :: y in r ==> y in ids
    ensures forall i, j :: 0 <= i < j < |r| ==> r[i] != r[j]
    ensures last > 0 && |ids| > 0 ==> |r| > 0 && r[0] == ids[|ids| - 1]
    decreases |ids|
  {
    if last == 0 || |ids| == 0 then []
    else
      var newest := ids[|ids| - 1];
      var older := Filter((y: string) => y != newest, ids[..|ids| - 1]);
      var rest := RecentRunIds(older, last - 1);
      assert forall y :: y in rest ==> y in ids && y != newest by {
        forall y | y in rest
          ensures y in ids && y != newest
        {
          FilterMember((y: string) => y != newest, ids[..|ids| - 1], y);
        }
      }
      var r := [newest] + rest;
      assert forall j :: 0 < j < |r| ==> r[j] == rest[j - 1] && r[j] in rest;
      r
  }

  /** The run ids a list mentions. */
  function Distinct(ids: seq<string>): set<string> {
    set y | y in ids
  }

  /** A list mentions at most as many ids as it has entries. */
  lemma {:induction false} DistinctSize(ids: seq<string>)
    ensures |Distinct(ids)| <= |ids|
    decreases |ids|
  {
    if |ids| > 0 {
      var init := ids[..|ids| - 1];
      DistinctSize(init);
      assert ids == init + [ids[|ids| - 1]];
      assert Distinct(ids) == Distinct(init) + {ids[|ids| - 1]};
    }
  }

  lemma {:induction false} SubsetSize<T>(a: set<T>, b: set<T>)
    requires a <= b
    ensures |a| <= |b|
    decreases a
  {
    if a != {} {
      var x :| x in a;
      SubsetSize(a - {x}, b - {x});
    }
  }

  /** The ids after the last occurrence of `y`, oldest first; all of `ids` when `y` does not occur. */
  function Newer(ids: seq<string>, y: string): seq<string>
    decreases |ids|
  {
    if |ids| == 0 || ids[|ids| - 1] == y then []
    else Newer(ids[..|ids| - 1], y) + [ids[|ids| - 1]]
  }

  /** Dropping ids other than `y` commutes with taking the ids after `y`. */
  lemma {:induction false} NewerFilter(p: string -> bool, ids: seq<string>, y: string)
    requires p(y)
    ensures Newer(Filter(p, ids), y) == Filter(p, Newer(ids, y))
    decreases |ids|
  {
    if |ids| > 0 {
      var init, x := ids[..|ids| - 1], ids[|ids| - 1];
      assert ids == init + [x];
      FilterAppend(p, init, [x]);
      NewerFilter(p, init, y);
      var f := Filter(p, init);
      if p(x) {
        assert Filter(p, [x]) == [x];
        assert (f + [x])[..|f|] == f;
        if x != y {
          FilterAppend(p, Newer(init, y), [x]);
        }
      } else {
        assert Filter(p, [x]) == [];
        assert f + [] == f;
        FilterAppend(p, Newer(init, y), [x]);
        assert Filter(p, Newer(init, y)) + [] == Filter(p, Newer(init, y));
      }
    }
  }

  /** Dropping one id from a list drops it from the ids the list mentions, and nothing else. */
  lemma DistinctWithout(xs: seq<string>, z: string)
    ensures Distinct(Filter((y: string) => y != z, xs)) == Distinct(xs) - {z}
  {
    var p := (y: string) => y != z;
    forall y
      ensures y in Distinct(Filter(p, xs)) <==> y in Distinct(xs) - {z}
    {
      FilterMember(p, xs, y);
    }
  }

  /** How the ids after `y` grow when one more id other than `y` is appended. */
  lemma NewerSnoc(ids: seq<string>, y: string)
    requires |ids| > 0 && ids[|ids| - 1] != y
    ensures var newest := ids[|ids| - 1]; var older := Filter((z: string) => z != newest, ids[..|ids| - 1]);
      && Newer(ids, y) == Newer(ids[..|ids| - 1], y) + [newest]
      && Distinct(Newer(ids, y)) == Distinct(Newer(older, y)) + {newest}
      && newest !in Distinct(Newer(older, y))
  {
    var newest := ids[|ids| - 1];
    var init := ids[..|ids| - 1];
    var p := (z: string) => z != newest;
    var older := Filter(p, init);
    NewerFilter(p, init, y);
    DistinctWithout(Newer(init, y), newest);
    assert Distinct(Newer(ids, y)) == Distinct(Newer(init, y)) + {newest};
  }

  /**
   * The kept ids are exactly those with fewer than `last` distinct ids after their last
   * occurrence.
   */
  lemma {:induction false} RecentRunIdsAreNewest(ids: seq<string>, last: nat)
    ensures forall y :: y in RecentRunIds(ids, last) <==> y in ids && |Distinct(Newer(ids, y))| < last
    decreases |ids|
  {
    if last > 0 && |ids| > 0 {
      var newest := ids[|ids| - 1];
      var older := Filter((z: string) => z != newest, ids[..|ids| - 1]);
      RecentRunIdsAreNewest(older, last - 1);
      forall y
        ensures y in RecentRunIds(ids, last) <==> y in ids && |Distinct(Newer(ids, y))| < last
      {
        RecentStep(ids, last, y);
      }
    }
  }

  /** One step of the recursion of `RecentRunIds`, seen from an id `y`. */
  lemma RecentStep(ids: seq<string>, last: nat, y: string)
    requires last > 0 && |ids| > 0
    requires var newest := ids[|ids| - 1]; var older := Filter((z: string) => z != newest, ids[..|ids| - 1]);
      y != newest ==> (y in RecentRunIds(older, last - 1) <==> y in older && |Distinct(Newer(older, y))| < last - 1)
    ensures y in RecentRunIds(ids, last) <==> y in ids && |Distinct(Newer(ids, y))| < last
  {
    var newest := ids[|ids| - 1];
    var init := ids[..|ids| - 1];
    var p := (z: string) => z != newest;
    var older := Filter(p, init);
    assert RecentRunIds(ids, last) == [newest] + RecentRunIds(older, last - 1);
    assert ids == init + [newest];
    if y != newest {
      FilterMember(p, init, y);
      NewerSnoc(ids, y);
    } else {
      assert Distinct(Newer(ids, y)) == {};
    }
  }

  /** The kept ids come newest first: each occurs after the last occurrence of every id kept behind it. */
  lemma {:induction false} RecentRunIdsNewestFirst(ids: seq<string>, last: nat)
    ensures forall i, j :: 0 <= i < j < |RecentRunIds(ids, last)| ==>
      RecentRunIds(ids, last)[i] in Newer(ids, RecentRunIds(ids, last)[j])
    decreases |ids|
  {
    if last > 0 && |ids| > 0 {
      var newest := ids[|ids| - 1];
      var init := ids[..|ids| - 1];
      var p := (z: string) => z != newest;
      var older := Filter(p, init);
      var rest := RecentRunIds(older, last - 1);
      var r := RecentRunIds(ids, last);
      RecentRunIdsNewestFirst(older, last - 1);
      assert r == [newest] + rest;
      forall i, j | 0 <= i < j < |r|
        ensures r[i] in Newer(ids, r[j])
      {
        var y := r[j];
        assert y == rest[j - 1] && y in older;
        FilterMember(p, init, y);
        NewerSnoc(ids, y);
        if i > 0 {
          assert 0 <= i - 1 < j - 1 < |rest|;
          assert r[i] == rest[i - 1] && rest[i - 1] in Newer(older, rest[j - 1]);
          NewerFilter(p, init, y);
          FilterMember(p, Newer(init, y), r[i]);
        }
      }
    }
  }


  /**
   * Exactly `last` runs are kept when the log has that many, and every run when it has fewer.
   */
  lemma {:induction false} RecentRunIdsCount(ids: seq<string>, last: nat)
    ensures |RecentRunIds(ids, last)| == if last < |Distinct(ids)| then last else |Distinct(ids)|
    ensures last >= |Distinct(ids)| ==> forall y :: y in ids ==> y in RecentRunIds(ids, last)
    decreases |ids|
  {
    if last == 0 || |ids| == 0 {
      if |ids| == 0 {
        assert Distinct(ids) == {};
      } else {
        assert ids[0] in Distinct(ids);
      }
    } else {
      var newest := ids[|ids| - 1];
      var p := (y: string) => y != newest;
      var older := Filter(p, ids[..|ids| - 1]);
      assert Distinct(older) == Distinct(ids) - {newest} by {
        forall y
          ensures y in Distinct(older) <==> y in Distinct(ids) - {newest}
        {
          FilterMember(p, ids[..|ids| - 1], y);
          if y in ids && y != newest {
            var k :| 0 <= k < |ids| && ids[k] == y;
            assert ids[..|ids| - 1][k] == y;
          }
        }
      }
      assert newest in Distinct(ids);
      RecentRunIdsCount(older, last - 1);
      if last >= |Distinct(ids)| {
        forall y | y in ids
          ensures y in RecentRunIds(ids, last)
        {
          if y != newest {
            var k :| 0 <= k < |ids| && ids[k] == y;
            assert ids[..|ids| - 1][k] == y;
            FilterMember(p, ids[..|ids| - 1], y);
          }
        }
      }
    }
  }

  /**
   * `--last` as its help text describes it: the rows of the `last` most recent runs. A negative
   * value keeps its slice meaning.
   */
  function KeepLastRuns(rows: Table, last: int): (r: Table)
    ensures last == 0 ==> r == rows
    ensures last > 0 ==> forall i :: 0 <= i < |r| ==> r[i].0.runId in RecentRunIds(RunIds(rows), last)
    ensures last < 0 ==> r == KeepLastAsWritten(rows, last)
  {
    if last == 0 then rows
    else if last < 0 then KeepLastAsWritten(rows, last)
    else
      var recent := RecentRunIds(RunIds(rows), last);
      Filter((kv: (AggKey, Agg)) => kv.0.runId in recent, rows)
  }

  /** The runs shown are exactly the `last` most recent ones: every row of those runs is kept. */
  lemma KeepLastRunsShowsRuns(rows: Table, last: int)
    requires last > 0
    ensures var r := KeepLastRuns(rows, last);
      && (forall kv :: kv in rows ==> (kv in r <==> kv.0.runId in RecentRunIds(RunIds(rows), last)))
      && |RecentRunIds(RunIds(rows), last)| == (if last < |Distinct(RunIds(rows))| then last else |Distinct(RunIds(rows))|)
      && IsSubsequence(r, rows)
  {
    var recent := RecentRunIds(RunIds(rows), last);
    var p := (kv: (AggKey, Agg)) => kv.0.runId in recent;
    assert KeepLastRuns(rows, last) == Filter(p, rows);
    forall kv | kv in rows
      ensures kv in KeepLastRuns(rows, last) <==> kv.0.runId in recent
    {
      FilterMember(p, rows, kv);
    }
    RecentRunIdsCount(RunIds(rows), last);
    FilterIsSubsequence(p, rows);
  }

  /** Three groups from two runs, oldest first: run A with one scenario, then run B with two. */
  function TwoRuns(a: Agg, b1: Agg, b2: Agg): Table {
    [(AggKey("A", "", "s1"), a), (AggKey("B", "", "s1"), b1), (AggKey("B", "", "s2"), b2)]
  }

  /** As written, `--last 2` shows only run B, because the last two rows both belong to it. */
  lemma LastTwoRowsAreOneRun(a: Agg, b1: Agg, b2: Agg)
    ensures KeepLastAsWritten(TwoRuns(a, b1, b2), 2) == TwoRuns(a, b1, b2)[1..]
  {
    var rows := TwoRuns(a, b1, b2);
    assert SliceStart(-2, 3) == 1;
    var keep := set i | 1 <= i < 3 :: rows[i].0.runId;
    assert keep == {"B"} by {
      assert rows[1].0.runId == "B" && rows[2].0.runId == "B";
    }
    var inKeep := (kv: (AggKey, Agg)) => kv.0.runId in keep;
    assert KeepLastAsWritten(rows, 2) == Filter(inKeep, rows);
    assert !inKeep(rows[0]) by {
      assert "A" != "B";
    }
    FilterIdentity(inKeep, rows[1..]);
  }

  /** Asking for the last two runs shows both. */
  lemma LastTwoRunsAreBoth(a: Agg, b1: Agg, b2: Agg)
    ensures KeepLastRuns(TwoRuns(a, b1, b2), 2) == TwoRuns(a, b1, b2)
  {
    var rows := TwoRuns(a, b1, b2);
    var ids := RunIds(rows);
    assert ids == ["A", "B", "B"];
    assert ids[..2] == ["A", "B"];
    var older := Filter((y: string) => y != "B", ids[..2]);
    assert older == ["A"] by {
      assert "A" != "B";
      assert ["A", "B"][1..] == ["B"] && ["B"][1..] == [];
    }
    assert RecentRunIds(ids, 2) == ["B", "A"] by {
      assert RecentRunIds(older, 1) == ["A"] by {
        assert Filter((y: string) => y != "A", older[..0]) == [];
      }
    }
    var recent := RecentRunIds(ids, 2);
    var inRecent := (kv: (AggKey, Agg)) => kv.0.runId in recent;
    assert KeepLastRuns(rows, 2) == Filter(inRecent, rows);
    FilterIdentity(inRecent, rows);
  }

  /** What the report prints for a group; `git` is the first eight characters of the commit. */
  datatype ReportLine = ReportLine(
    runId: string, issue: string, tag: string, git: string, dirty: string, scenario: string,
    count: nat, optAvg: real, legAvg: real, optOverLeg: real)

  function GitShort(head: string): (s: string)
    ensures |s| == if |head| < 8 then |head| else 8
    ensures s == head[..|s|]
  {
    if |head| <= 8 then head else head[..8]
  }

  /** The working-tree column: `dirty`, `clean`, or empty when the state is unknown. */
  function DirtyLabel(dirty: Option<bool>): (word: string)
    ensures word == "dirty" <==> dirty == Some(true)
    ensures word == "clean" <==> dirty == Some(false)
    ensures word == "" <==> dirty.None?
  {
    match dirty
    case Some(true) => "dirty"
    case Some(false) => "clean"
    case None => ""
  }

  /** The printed line of a group: its key, its metadata, its size and its two means and their ratio. */
  function LineOf(kv: (AggKey, Agg)): (line: ReportLine)
    ensures line.runId == kv.0.runId && line.issue == kv.0.issue && line.scenario == kv.0.scenario
    ensures line.tag == kv.1.tag && line.count == kv.1.count
    ensures line.git == GitShort(kv.1.gitHead)
    ensures |kv.1.gitHead| <= 8 ==> line.git == kv.1.gitHead
    ensures line.dirty == DirtyLabel(kv.1.gitDirty)
    ensures line.optAvg == OptAvg(kv.1) && line.legAvg == LegAvg(kv.1) && line.optOverLeg == OptOverLeg(kv.1)
  {
    var (k, agg) := kv;
    ReportLine(k.runId, k.issue, agg.tag, GitShort(agg.gitHead), DirtyLabel(agg.gitDirty), k.scenario,
      agg.count, OptAvg(agg), LegAvg(agg), OptOverLeg(agg))
  }

  /** The groups `--last` selects from: those with a run id and a scenario, in order of start time. */
  function Ranked(decode: string -> Option<Row>, filters: Filters, lines: seq<string>): Table {
    SortBy(StartedAt, Filter(Named, Aggregate(EntriesOf(decode, filters, lines))))
  }

  /** The groups the script prints, in order, with `--last` as written. */
  function ShownAsWritten(decode: string -> Option<Row>, filters: Filters, last: int, lines: seq<string>): Table {
    KeepLastAsWritten(Ranked(decode, filters, lines), last)
  }

  /** The groups printed when `--last` keeps the most recent runs. */
  function Shown(decode: string -> Option<Row>, filters: Filters, last: int, lines: seq<string>): Table {
    KeepLastRuns(Ranked(decode, filters, lines), last)
  }

  datatype ReportResult = ReportResult(status: int, lines: seq<ReportLine>)

  function LinesOf(shown: Table): (ls: seq<ReportLine>)
    ensures |ls| == |shown| && forall i :: 0 <= i < |shown| ==> ls[i] == LineOf(shown[i])
  {
    seq(|shown|, i requires 0 <= i < |shown| => LineOf(shown[i]))
  }

  /**
   * The `report` subcommand as written: status 2 and no output for a missing log, otherwise
   * status 0 and one line per shown group (none means "No benchmark records matched.").
   */
  function ReportAsWritten(decode: string -> Option<Row>, logExists: bool, lines: seq<string>, filters: Filters, last: int): (r: ReportResult)
    ensures !logExists ==> r == ReportResult(MissingFileStatus, [])
    ensures logExists ==> r.status == 0 && |r.lines| == |ShownAsWritten(decode, filters, last, lines)|
    ensures logExists ==> forall i :: 0 <= i < |r.lines| ==> r.lines[i] == LineOf(ShownAsWritten(decode, filters, last, lines)[i])
  {
    if !logExists then ReportResult(MissingFileStatus, [])
    else ReportResult(0, LinesOf(ShownAsWritten(decode, filters, last, lines)))
  }

  /** The `report` subcommand with `--last` keeping the most recent runs, as its help text says. */
  function Report(decode: string -> Option<Row>, logExists: bool, lines: seq<string>, filters: Filters, last: int): (r: ReportResult)
    ensures !logExists ==> r == ReportResult(MissingFileStatus, [])
    ensures logExists ==> r.status == 0 && |r.lines| == |Shown(decode, filters, last, lines)|
    ensures logExists ==> forall i :: 0 <= i < |r.lines| ==> r.lines[i] == LineOf(Shown(decode, filters, last, lines)[i])
  {
    if !logExists then ReportResult(MissingFileStatus, [])
    else ReportResult(0, LinesOf(Shown(decode, filters, last, lines)))
  }

  /** The two readings of `--last` agree when it is zero or negative. */
  lemma ReportsAgreeWithoutPositiveLast(decode: string -> Option<Row>, logExists: bool, lines: seq<string>, filters: Filters, last: int)
    requires last <= 0
    ensures Report(decode, logExists, lines, filters, last) == ReportAsWritten(decode, logExists, lines, filters, last)
  {
  }

  /** Either reading of `--last` keeps some of the groups, in their order. */
  lemma SelectionIsFilter(rows: Table, last: int, asWritten: bool) returns (p: ((AggKey, Agg)) -> bool)
    ensures (if asWritten then KeepLastAsWritten(rows, last) else KeepLastRuns(rows, last)) == Filter(p, rows)
  {
    if last == 0 {
      p := (kv: (AggKey, Agg)) => true;
      FilterIdentity(p, rows);
    } else if last > 0 && !asWritten {
      var recent := RecentRunIds(RunIds(rows), last);
      p := (kv: (AggKey, Agg)) => kv.0.runId in recent;
    } else {
      var from := SliceStart(-last, |rows|);
      var keep := set i | from <= i < |rows| :: rows[i].0.runId;
      p := (kv: (AggKey, Agg)) => kv.0.runId in keep;
    }
  }

  /** The groups `--last` selects from are exactly the named groups of the table, so `--last 0` shows them all. */
  lemma RankedIsNamedTable(decode: string -> Option<Row>, filters: Filters, lines: seq<string>, kv: (AggKey, Agg))
    ensures kv in Ranked(decode, filters, lines) <==> kv in Aggregate(EntriesOf(decode, filters, lines)) && Named(kv)
  {
    var named := Filter(Named, Aggregate(EntriesOf(decode, filters, lines)));
    SortByPermutes(StartedAt, named);
    assert kv in Ranked(decode, filters, lines) <==> kv in multiset(named);
    FilterMember(Named, Aggregate(EntriesOf(decode, filters, lines)), kv);
  }

  /** Every shown group, under either reading of `--last`, comes from the table of groups. */
  lemma ShownFromTable(decode: string -> Option<Row>, filters: Filters, last: int, lines: seq<string>, kv: (AggKey, Agg))
    requires kv in Shown(decode, filters, last, lines) || kv in ShownAsWritten(decode, filters, last, lines)
    ensures kv in Aggregate(EntriesOf(decode, filters, lines)) && Named(kv)
  {
    var table := Aggregate(EntriesOf(decode, filters, lines));
    var named := Filter(Named, table);
    var ranked := Ranked(decode, filters, lines);
    var p := SelectionIsFilter(ranked, last, kv !in Shown(decode, filters, last, lines));
    FilterMember(p, ranked, kv);
    SortByPermutes(StartedAt, named);
    assert kv in multiset(named);
    FilterMember(Named, table, kv);
  }

  /**
   * Every printed group has a run id and a scenario, passes the filters, and has at least one
   * measurement, so its means are true means.
   */
  lemma ShownGroupsAreMeasured(decode: string -> Option<Row>, filters: Filters, last: int, lines: seq<string>)
    ensures forall kv :: kv in Shown(decode, filters, last, lines) || kv in ShownAsWritten(decode, filters, last, lines) ==>
      && Named(kv) && kv.1.count >= 1
      && Passes(filters.issue, kv.0.issue) && Passes(filters.scenario, kv.0.scenario)
  {
    var es := EntriesOf(decode, filters, lines);
    var table := Aggregate(es);
    AggregateSummarizes(es);
    forall kv | kv in Shown(decode, filters, last, lines) || kv in ShownAsWritten(decode, filters, last, lines)
      ensures Named(kv) && kv.1.count >= 1
      ensures Passes(filters.issue, kv.0.issue) && Passes(filters.scenario, kv.0.scenario)
    {
      ShownFromTable(decode, filters, last, lines, kv);
      var i :| 0 <= i < |table| && table[i] == kv;
      assert FirstIndexOf(es, kv.0).Some?;
      PresentKeyCounts(es, kv.0);
      var j := FirstIndexOf(es, kv.0).value;
      assert es[j].key == kv.0;
    }
  }

  /** The printed groups are in ascending order of their start time, under either reading of `--last`. */
  lemma ShownInStartOrder(decode: string -> Option<Row>, filters: Filters, last: int, lines: seq<string>)
    ensures SortedBy(StartedAt, Shown(decode, filters, last, lines))
    ensures SortedBy(StartedAt, ShownAsWritten(decode, filters, last, lines))
  {
    var ranked := Ranked(decode, filters, lines);
    SortBySorted(StartedAt, Filter(Named, Aggregate(EntriesOf(decode, filters, lines))));
    var p := SelectionIsFilter(ranked, last, false);
    FilterKeepsSorted(StartedAt, p, ranked);
    var q := SelectionIsFilter(ranked, last, true);
    FilterKeepsSorted(StartedAt, q, ranked);
  }
}

=== FILE: escalation.dfy ===
/**
 * What the timeout supervisor does after its loop: optionally sample a process, signal the child's
 * process group with SIGTERM, give it a grace period, fall back to SIGKILL, and choose the exit
 * status. Signal delivery, liveness checks and the grace-period polls are inputs; the actions the
 * supervisor takes are recorded as a trace.
 */
module Escalation {
  import opened Wrappers
  import opened Seqs
  import opened Supervisor

  datatype Signal = Term | Kill

  /** What `os.killpg` does: the group gets the signal, it no longer exists (`ProcessLookupError`), or the call fails otherwise. */
  datatype SignalResult = Delivered | NoSuchGroup | Refused

  /** An effect of the escalation: running `sample` on a process, signalling the child's group, or one grace-period sleep. */
  datatype Action = Sample(pid: int, seconds: int) | SignalGroup(signal: Signal) | GraceSleep

  /**
   * The answers of the operating system during escalation: which process ids are alive, what the
   * SIGTERM does, the index of the first poll after it that finds the child exited (None when none
   * does), and what the first and any second SIGKILL do.
   */
  datatype Host = Host(alive: int -> bool, termResult: SignalResult, firstExitPoll: Option<nat>, killResult: nat -> SignalResult)

  /** The actions taken, and whether an exception escaped the supervisor. */
  datatype Escalation = Escalation(actions: seq<Action>, escaped: bool)

  /** Polls of the child during the grace period after SIGTERM, one sleep after each unsuccessful one. */
  const GracePolls: nat := 10

  /**
   * The process to sample on timeout: the last reported XCTest process if it is known, non-zero and
   * alive; otherwise the child itself if it is alive; otherwise none. Nothing is sampled unless
   * sampling is enabled.
   */
  function ChooseSampleTarget(sampleOn: bool, xctestPid: Option<int>, childPid: int, alive: int -> bool): (t: Option<int>)
    ensures t.Some? ==> sampleOn && t.value != 0 && alive(t.value)
    ensures t.Some? ==> xctestPid == Some(t.value) || t.value == childPid
    ensures sampleOn && xctestPid.Some? && xctestPid.value != 0 && alive(xctestPid.value) ==> t == xctestPid
    ensures t.None? && sampleOn ==> !alive(childPid) || childPid == 0
  {
    if !sampleOn then None
    else if xctestPid.Some? && xctestPid.value != 0 && alive(xctestPid.value) then xctestPid
    else if alive(childPid) && childPid != 0 then Some(childPid)
    else None
  }

  /**
   * Whether `os.kill(pid, 0)` accepts the id at all: it takes a C `pid_t` (32 bits on macOS), and a
   * larger id raises `OverflowError`, which `pid_exists` does not catch.
   */
  predicate PidFits(pid: int) {
    -0x8000_0000 <= pid <= 0x7FFF_FFFF
  }

  /**
   * Whether choosing the sample target raises: the XCTest id is probed first when it is known and
   * non-zero, and the child is probed only when that probe does not find the XCTest process alive.
   */
  predicate ProbeRaises(sampleOn: bool, xctestPid: Option<int>, childPid: int, alive: int -> bool) {
    var tried := xctestPid.Some? && xctestPid.value != 0;
    sampleOn && ((tried && !PidFits(xctestPid.value)) || (!(tried && alive(xctestPid.value)) && !PidFits(childPid)))
  }

  /** The sleeps of the grace period: one per poll that still finds the child running, at most `GracePolls`. */
  function GraceSleeps(firstExitPoll: Option<nat>): (n: nat)
    ensures n <= GracePolls
    ensures firstExitPoll.Some? && firstExitPoll.value < GracePolls ==> n == firstExitPoll.value
    ensures firstExitPoll.None? || firstExitPoll.value >= GracePolls ==> n == GracePolls
  {
    match firstExitPoll
    case Some(k) => if k < GracePolls then k else GracePolls
    case None => GracePolls
  }

  /** The check after the grace period (the eleventh poll) still finds the child running. */
  predicate RunningAfterGrace(firstExitPoll: Option<nat>) {
    firstExitPoll.None? || firstExitPoll.value > GracePolls
  }

  function Repeat(a: Action, n: nat): (r: seq<Action>)
    ensures |r| == n && forall i :: 0 <= i < n ==> r[i] == a
  {
    seq(n, _ => a)
  }

  /** How often `a` occurs in `actions`. */
  function Occurrences(actions: seq<Action>, a: Action): nat
    decreases |actions|
  {
    if |actions| == 0 then 0
    else Occurrences(actions[..|actions| - 1], a) + (if actions[|actions| - 1] == a then 1 else 0)
  }

  lemma {:induction false} OccurrencesAppend(xs: seq<Action>, ys: seq<Action>, a: Action)
    ensures Occurrences(xs + ys, a) == Occurrences(xs, a) + Occurrences(ys, a)
    decreases |ys|
  {
    if |ys| > 0 {
      var init := ys[..|ys| - 1];
      assert (xs + ys)[..|xs + ys| - 1] == xs + init;
      OccurrencesAppend(xs, init, a);
    } else {
      assert xs + ys == xs;
    }
  }

  /** An action occurs in a sequence exactly when it is counted there. */
  lemma {:induction false} OccurrencesIn(xs: seq<Action>, a: Action)
    ensures Occurrences(xs, a) > 0 <==> a in xs
    decreases |xs|
  {
    if |xs| > 0 {
      var init := xs[..|xs| - 1];
      OccurrencesIn(init, a);
      assert xs == init + [xs[|xs| - 1]];
    }
  }

  lemma {:induction false} OccurrencesRepeat(a: Action, n: nat, b: Action)
    ensures Occurrences(Repeat(a, n), b) == if a == b then n else 0
  {
    if n > 0 {
      assert Repeat(a, n)[..n - 1] == Repeat(a, n - 1);
      OccurrencesRepeat(a, n - 1, b);
    }
  }

  /** The `sample` run before signalling, if there is a target. */
  function SampleActions(target: Option<int>, seconds: int): (r: seq<Action>)
    ensures |r| == if target.Some? then 1 else 0
    ensures target.Some? ==> r[0] == Sample(target.value, seconds)
    ensures Occurrences(r, SignalGroup(Term)) == 0 && Occurrences(r, SignalGroup(Kill)) == 0 && Occurrences(r, GraceSleep) == 0
  {
    if target.Some? then [Sample(target.value, seconds)] else []
  }

  /**
   * What follows the SIGTERM. A SIGTERM that fails for any reason falls back to SIGKILL at once;
   * after a delivered SIGTERM the child is polled for a grace period and killed only if it is still
   * running. A SIGKILL to a vanished group is ignored; one that fails otherwise inside the `try` is
   * retried by its handler, and a failure there escapes.
   */
  function AfterTerm(host: Host): (e: Escalation)
    ensures Occurrences(e.actions, SignalGroup(Term)) == 0
    ensures Occurrences(e.actions, GraceSleep) <= GracePolls
    ensures host.termResult != Delivered ==> Occurrences(e.actions, GraceSleep) == 0
    ensures host.termResult == Delivered ==> Occurrences(e.actions, GraceSleep) == GraceSleeps(host.firstExitPoll)
    ensures Occurrences(e.actions, SignalGroup(Kill)) > 0 <==>
      host.termResult != Delivered || RunningAfterGrace(host.firstExitPoll)
    ensures Occurrences(e.actions, SignalGroup(Kill)) <= 2
    ensures e.escaped ==> |e.actions| > 0 && e.actions[|e.actions| - 1] == SignalGroup(Kill)
    ensures e.escaped ==> host.killResult(0) == Refused || host.killResult(1) == Refused
  {
    if host.termResult == Delivered then
      var sleeps := Repeat(GraceSleep, GraceSleeps(host.firstExitPoll));
      OccurrencesRepeat(GraceSleep, |sleeps|, SignalGroup(Term));
      OccurrencesRepeat(GraceSleep, |sleeps|, SignalGroup(Kill));
      OccurrencesRepeat(GraceSleep, |sleeps|, GraceSleep);
      if !RunningAfterGrace(host.firstExitPoll) then Escalation(sleeps, false)
      else
        var kills := if host.killResult(0) != Refused then [SignalGroup(Kill)] else [SignalGroup(Kill), SignalGroup(Kill)];
        OccurrencesAppend(sleeps, kills, SignalGroup(Term));
        OccurrencesAppend(sleeps, kills, SignalGroup(Kill));
        OccurrencesAppend(sleeps, kills, GraceSleep);
        Escalation(sleeps + kills, host.killResult(0) == Refused && host.killResult(1) == Refused)
    else
      Escalation([SignalGroup(Kill)], host.killResult(0) == Refused)
  }

  /** After the SIGTERM, nothing follows a SIGKILL but a second SIGKILL: every grace-period sleep comes first. */
  lemma AfterTermKillsLast(host: Host)
    ensures var e := AfterTerm(host);
      forall i, j :: 0 <= i < j < |e.actions| && e.actions[i] == SignalGroup(Kill) ==> e.actions[j] == SignalGroup(Kill)
  {
  }

  /**
   * Putting a SIGTERM between a sample part without signals or sleeps and a tail adds one SIGTERM
   * and nothing else to the tail's counts, and keeps both parts in place.
   */
  lemma JoinCounts(sample: seq<Action>, tail: seq<Action>)
    requires Occurrences(sample, SignalGroup(Term)) == 0 && Occurrences(sample, SignalGroup(Kill)) == 0
    requires Occurrences(sample, GraceSleep) == 0
    ensures var all := sample + [SignalGroup(Term)] + tail;
      && |all| > |sample| && all[|sample|] == SignalGroup(Term) && all[..|sample|] == sample
      && (|tail| > 0 ==> all[|all| - 1] == tail[|tail| - 1])
      && Occurrences(all, SignalGroup(Term)) == 1 + Occurrences(tail, SignalGroup(Term))
      && Occurrences(all, SignalGroup(Kill)) == Occurrences(tail, SignalGroup(Kill))
      && Occurrences(all, GraceSleep) == Occurrences(tail, GraceSleep)
  {
    var head := sample + [SignalGroup(Term)];
    var all := head + tail;
    assert head[..|sample|] == sample;
    assert all[..|sample|] == sample;
    OccurrencesAppend(head, tail, SignalGroup(Term));
    OccurrencesAppend(head, tail, SignalGroup(Kill));
    OccurrencesAppend(head, tail, GraceSleep);
  }

  /** The escalation of a timed-out, running child: the optional sample, SIGTERM to its group, then what `AfterTerm` says. */
  function EscalateRunning(target: Option<int>, sampleSeconds: int, host: Host): (e: Escalation)
    ensures |e.actions| > |SampleActions(target, sampleSeconds)|
    ensures target.Some? ==> e.actions[0] == Sample(target.value, sampleSeconds)
    ensures e.actions[|SampleActions(target, sampleSeconds)|] == SignalGroup(Term)
    ensures Occurrences(e.actions, SignalGroup(Term)) == 1
    ensures Occurrences(e.actions, GraceSleep) <= GracePolls
    ensures Occurrences(e.actions, SignalGroup(Kill)) > 0 <==>
      host.termResult != Delivered || RunningAfterGrace(host.firstExitPoll)
    ensures Occurrences(e.actions, SignalGroup(Kill)) <= 2
    ensures e.escaped ==> e.actions[|e.actions| - 1] == SignalGroup(Kill)
    ensures e.escaped ==> host.killResult(0) == Refused || host.killResult(1) == Refused
  {
    var sample := SampleActions(target, sampleSeconds);
    var tail := AfterTerm(host);
    JoinCounts(sample, tail.actions);
    assert target.Some? ==> (sample + [SignalGroup(Term)] + tail.actions)[..|sample|][0] == sample[0];
    Escalation(sample + [SignalGroup(Term)] + tail.actions, tail.escaped)
  }

  /**
   * The escalation after the loop, which only happens when a limit fired and the child is still
   * running; the sample target is chosen by `ChooseSampleTarget`. A liveness probe that raises
   * skips the sample, the SIGTERM and the grace period: the handler sends SIGKILL at once.
   */
  function Escalate(timedOut: bool, running: bool, sampleOn: bool, sampleSeconds: int,
                    xctestPid: Option<int>, childPid: int, host: Host): (e: Escalation)
    ensures !(timedOut && running) ==> e == Escalation([], false)
    ensures timedOut && running && ProbeRaises(sampleOn, xctestPid, childPid, host.alive) ==>
      e == Escalation([SignalGroup(Kill)], host.killResult(0) == Refused)
    ensures timedOut && running && !ProbeRaises(sampleOn, xctestPid, childPid, host.alive) ==>
      e == EscalateRunning(ChooseSampleTarget(sampleOn, xctestPid, childPid, host.alive), sampleSeconds, host)
  {
    if !(timedOut && running) then Escalation([], false)
    else if ProbeRaises(sampleOn, xctestPid, childPid, host.alive) then Escalation([SignalGroup(Kill)], host.killResult(0) == Refused)
    else EscalateRunning(ChooseSampleTarget(sampleOn, xctestPid, childPid, host.alive), sampleSeconds, host)
  }

  /**
   * The grace period in order: the sleeps come after the SIGTERM and before any SIGKILL, and a
   * child that never exits gets all ten of them before it is killed.
   */
  lemma GracePeriodOrder(target: Option<int>, sampleSeconds: int, host: Host)
    ensures var e := EscalateRunning(target, sampleSeconds, host);
      && (forall i :: 0 <= i < |e.actions| && e.actions[i] == GraceSleep ==> i > |SampleActions(target, sampleSeconds)|)
      && (forall i, j :: 0 <= i < j < |e.actions| && e.actions[i] == SignalGroup(Kill) ==> e.actions[j] == SignalGroup(Kill))
      && (host.termResult == Delivered && host.firstExitPoll.None? ==>
            Occurrences(e.actions, GraceSleep) == GracePolls && SignalGroup(Kill) in e.actions)
  {
    var sample := SampleActions(target, sampleSeconds);
    var tail := AfterTerm(host);
    var head := sample + [SignalGroup(Term)];
    var e := EscalateRunning(target, sampleSeconds, host);
    assert e.actions == head + tail.actions;
    AfterTermKillsLast(host);
    forall i | 0 <= i < |e.actions| && e.actions[i] == GraceSleep
      ensures i > |sample|
    {
    }
    forall i, j | 0 <= i < j < |e.actions| && e.actions[i] == SignalGroup(Kill)
      ensures e.actions[j] == SignalGroup(Kill)
    {
      assert e.actions[i] == tail.actions[i - |head|] && e.actions[j] == tail.actions[j - |head|];
    }
    if host.termResult == Delivered && host.firstExitPoll.None? {
      JoinCounts(sample, tail.actions);
      OccurrencesIn(e.actions, SignalGroup(Kill));
    }
  }

  /** `kill_tree` ignores a vanished group: when no SIGKILL is refused, nothing escapes. */
  lemma VanishedGroupIsIgnored(timedOut: bool, running: bool, sampleOn: bool, sampleSeconds: int,
                               xctestPid: Option<int>, childPid: int, host: Host)
    requires host.killResult(0) != Refused && host.killResult(1) != Refused
    ensures !Escalate(timedOut, running, sampleOn, sampleSeconds, xctestPid, childPid, host).escaped
  {
  }

  /** A child that exits within the grace period after a delivered SIGTERM is never sent SIGKILL. */
  lemma GracefulExitIsNotKilled(sampleOn: bool, sampleSeconds: int, xctestPid: Option<int>, childPid: int, host: Host)
    requires host.termResult == Delivered && host.firstExitPoll.Some? && host.firstExitPoll.value <= GracePolls
    requires !ProbeRaises(sampleOn, xctestPid, childPid, host.alive)
    ensures var e := Escalate(true, true, sampleOn, sampleSeconds, xctestPid, childPid, host);
      !e.escaped && SignalGroup(Kill) !in e.actions
  {
    var e := Escalate(true, true, sampleOn, sampleSeconds, xctestPid, childPid, host);
    OccurrencesIn(e.actions, SignalGroup(Kill));
  }

  /** The exit-status rule: 124 whenever a limit fired, even if the child had already exited; otherwise the child's status, 0 when unknown. */
  function ExitCode(timedOut: bool, returncode: Option<int>): (code: int)
    ensures timedOut ==> code == 124
    ensures !timedOut && returncode.Some? ==> code == returncode.value
    ensures !timedOut && returncode.None? ==> code == 0
  {
    if timedOut then 124 else returncode.GetOr(0)
  }

  /** Python exits with status 1 when an exception escapes. */
  const UncaughtExceptionStatus := 1

  /** Everything the supervisor wrote and did, and the status `run_with_timeouts` returns (or 1 if it raised). */
  datatype Outcome = Outcome(emitted: seq<Emitted>, actions: seq<Action>, code: int)

  /**
   * One supervised run, from the first tick to the returned status. `runningAfterLoop` is the poll
   * after the loop, which can only find the child running when a limit fired; `returncode` is what
   * draining the child's output leaves in `returncode`.
   */
  function RunWithTimeouts(extract: string -> Option<int>, limits: Limits, sampleOn: bool, sampleSeconds: int,
                           start: int, ticks: seq<Tick>, childPid: int, host: Host,
                           runningAfterLoop: bool, returncode: Option<int>): (o: Outcome)
    requires Run(extract, limits, Initial(start), ticks).finished
    ensures var st := Run(extract, limits, Initial(start), ticks);
      && o.emitted == st.emitted
      && (!st.timedOut ==> o.actions == [] && o.code == returncode.GetOr(0))
      && (st.timedOut && !runningAfterLoop ==> o.actions == [] && o.code == 124)
    ensures var st := Run(extract, limits, Initial(start), ticks);
      st.timedOut && runningAfterLoop && !ProbeRaises(sampleOn, st.xctestPid, childPid, host.alive) ==>
        var e := EscalateRunning(ChooseSampleTarget(sampleOn, st.xctestPid, childPid, host.alive), sampleSeconds, host);
        o.actions == e.actions && o.code == (if e.escaped then UncaughtExceptionStatus else 124)
    ensures var st := Run(extract, limits, Initial(start), ticks);
      st.timedOut && runningAfterLoop && ProbeRaises(sampleOn, st.xctestPid, childPid, host.alive) ==>
        o.actions == [SignalGroup(Kill)] && o.code == (if host.killResult(0) == Refused then UncaughtExceptionStatus else 124)
  {
    var st := Run(extract, limits, Initial(start), ticks);
    var e := Escalate(st.timedOut, st.timedOut && runningAfterLoop, sampleOn, sampleSeconds, st.xctestPid, childPid, host);
    Outcome(st.emitted, e.actions, if e.escaped then UncaughtExceptionStatus else ExitCode(st.timedOut, returncode))
  }

  /**
   * With both limits 0 the supervisor is transparent: it forwards output, never signals or samples,
   * and returns the child's own status.
   */
  lemma NoLimitsIsTransparent(extract: string -> Option<int>, sampleOn: bool, sampleSeconds: int, start: int,
                              ticks: seq<Tick>, childPid: int, host: Host, running: bool, returncode: Option<int>)
    requires Run(extract, Limits(0, 0), Initial(start), ticks).finished
    ensures var o := RunWithTimeouts(extract, Limits(0, 0), sampleOn, sampleSeconds, start, ticks, childPid, host, running, returncode);
      && o.actions == [] && o.code == returncode.GetOr(0)
      && forall i :: 0 <= i < |o.emitted| ==> o.emitted[i].Forward?
  {
    NoLimitsNeverTimeOut(extract, Initial(start), ticks);
  }

  /** A timeout that escalates cleanly ends with status 124 after SIGTERM. */
  lemma TimeoutReturns124(extract: string -> Option<int>, limits: Limits, sampleOn: bool, sampleSeconds: int, start: int,
                          ticks: seq<Tick>, childPid: int, host: Host, running: bool, returncode: Option<int>)
    requires Run(extract, limits, Initial(start), ticks).finished && Run(extract, limits, Initial(start), ticks).timedOut
    requires host.killResult(0) != Refused && host.killResult(1) != Refused
    ensures var o := RunWithTimeouts(extract, limits, sampleOn, sampleSeconds, start, ticks, childPid, host, running, returncode);
      && o.code == 124
      && (running && !ProbeRaises(sampleOn, Run(extract, limits, Initial(start), ticks).xctestPid, childPid, host.alive) ==>
            SignalGroup(Term) in o.actions)
  {
    var st := Run(extract, limits, Initial(start), ticks);
    var e := Escalate(st.timedOut, st.timedOut && running, sampleOn, sampleSeconds, st.xctestPid, childPid, host);
    if running && !ProbeRaises(sampleOn, st.xctestPid, childPid, host.alive) {
      var target := ChooseSampleTarget(sampleOn, st.xctestPid, childPid, host.alive);
      assert e.actions[|SampleActions(target, sampleSeconds)|] == SignalGroup(Term);
    }
  }

  /**
   * A SIGTERM that fails, followed by a refused SIGKILL in the handler, lets the exception escape:
   * the status is 1, not 124.
   */
  lemma RefusedKillExitsOne(extract: string -> Option<int>, limits: Limits, sampleOn: bool, sampleSeconds: int, start: int,
                            ticks: seq<Tick>, childPid: int, host: Host, returncode: Option<int>)
    requires Run(extract, limits, Initial(start), ticks).finished && Run(extract, limits, Initial(start), ticks).timedOut
    requires host.termResult == Refused && host.killResult(0) == Refused
    ensures var o := RunWithTimeouts(extract, limits, sampleOn, sampleSeconds, start, ticks, childPid, host, true, returncode);
      o.code == UncaughtExceptionStatus && o.actions[|o.actions| - 1] == SignalGroup(Kill)
  {
  }

  /**
   * An XCTest id beyond the C `pid_t` range makes the liveness probe raise: with sampling on, the
   * child is sent SIGKILL at once, with no sample, no SIGTERM and no grace period.
   */
  lemma OversizedPidKillsAtOnce(sampleSeconds: int, childPid: int, host: Host)
    requires host.killResult(0) != Refused
    ensures Escalate(true, true, true, sampleSeconds, Some(99999999999), childPid, host) == Escalation([SignalGroup(Kill)], false)
  {
  }
}

=== FILE: lex_order.dfy ===
/** Python's ordering of strings: code point by code point, a proper prefix before its extensions. */
module LexOrder {

  predicate Less(a: string, b: string)
    decreases |a|
  {
    if |b| == 0 then false
    else if |a| == 0 then true
    else if a[0] != b[0] then a[0] < b[0]
    else Less(a[1..], b[1..])
  }

  predicate LessEq(a: string, b: string) {
    a == b || Less(a, b)
  }

  /** Equal strings are never less than each other. */
  lemma {:induction false} LessIrreflexive(a: string)
    ensures !Less(a, a)
    decreases |a|
  {
    if |a| > 0 {
      LessIrreflexive(a[1..]);
    }
  }

  /** Any two strings are ordered one way or the other, and never both ways. */
  lemma {:induction false} LessTrichotomy(a: string, b: string)
    ensures a == b || Less(a, b) || Less(b, a)
    ensures !(Less(a, b) && Less(b, a))
    decreases |a|
  {
    if |a| > 0 && |b| > 0 && a[0] == b[0] {
      LessTrichotomy(a[1..], b[1..]);
      if a[1..] == b[1..] {
        assert a == [a[0]] + a[1..] && b == [b[0]] + b[1..];
      }
    }
  }

  lemma {:induction false} LessTransitive(a: string, b: string, c: string)
    requires Less(a, b) && Less(b, c)
    ensures Less(a, c)
    decreases |a|
  {
    if |a| > 0 && a[0] == b[0] && b[0] == c[0] {
      LessTransitive(a[1..], b[1..], c[1..]);
    }
  }

  /** A string is ordered before anything it is a proper prefix of. */
  lemma {:induction false} PrefixIsLess(a: string, b: string)
    requires |a| < |b| && a == b[..|a|]
    ensures Less(a, b)
    decreases |a|
  {
    if |a| > 0 {
      assert a[0] == b[0];
      assert a[1..] == b[1..][..|a| - 1];
      PrefixIsLess(a[1..], b[1..]);
    }
  }

  /** Not less means greater or equal. */
  lemma NotLessIsGreaterEq(a: string, b: string)
    requires !Less(a, b)
    ensures LessEq(b, a)
  {
    LessTrichotomy(a, b);
  }

  lemma LessEqTransitive(a: string, b: string, c: string)
    requires LessEq(a, b) && LessEq(b, c)
    ensures LessEq(a, c)
  {
    if Less(a, b) && Less(b, c) {
      LessTransitive(a, b, c);
    }
  }
}

=== FILE: perf_scrape.dfy ===
/**
 * Scraping benchmark records from the test output: every output line is passed through, and each
 * line ending in `🔥 PERF_JSON {...}` contributes the decoded payload. The pattern
 * `🔥 PERF_JSON (\{.*\})\s*$` is matched by hand: `.` is any character but a line feed, the group
 * is as long as possible, and only whitespace may follow it.
 */
module PerfScrape {
  import opened Wrappers
  import opened Text

  /** The text that announces a record; the fire emoji is a single code point. */
  const Marker: string := "\U{1F525} PERF_JSON "

  predicate NoLineFeed(s: string) {
    forall i :: 0 <= i < |s| ==> s[i] != '\n'
  }

  /**
   * The group when the pattern matches at position `p`. The group must end where the trailing
   * whitespace of the line begins: a longer group would leave non-whitespace after it, and a
   * shorter one would end in whitespace instead of `}`.
   */
  function PerfJsonMatchAt(line: string, p: nat): (g: Option<string>)
    requires p <= |line|
    ensures g.Some? ==>
      var start := p + |Marker|;
      && start + |g.value| <= |line|
      && line[p..start] == Marker
      && line[start..start + |g.value|] == g.value
      && AllSpace(line[start + |g.value|..])
    ensures g.Some? ==> |g.value| >= 2 && g.value[0] == '{' && g.value[|g.value| - 1] == '}' && NoLineFeed(g.value)
  {
    if !StartsWith(line[p..], Marker) then None
    else
      var start := p + |Marker|;
      var end := TrimmedEnd(line, |line|, StrBlank);
      if start + 2 <= end && line[start] == '{' && line[end - 1] == '}' && NoLineFeed(line[start..end]) then
        assert line[p..][..|Marker|] == line[p..start];
        Some(line[start..end])
      else None
  }

  /** The leftmost match at or after `from` (Python's `re.search`). */
  function SearchPerfJson(line: string, from: nat): (g: Option<string>)
    requires from <= |line|
    ensures g.Some? ==> |g.value| >= 2 && g.value[0] == '{' && g.value[|g.value| - 1] == '}' && NoLineFeed(g.value)
    decreases |line| - from
  {
    match PerfJsonMatchAt(line, from)
    case Some(group) => Some(group)
    case None => if from == |line| then None else SearchPerfJson(line, from + 1)
  }

  /** The payload of a line, if it carries one. */
  function PerfJsonPayload(line: string): Option<string> {
    SearchPerfJson(line, 0)
  }

  /** The search only reports a match that is really there. */
  lemma {:induction false} SearchPerfJsonSound(line: string, from: nat) returns (p: nat)
    requires from <= |line| && SearchPerfJson(line, from).Some?
    ensures from <= p <= |line| && PerfJsonMatchAt(line, p) == SearchPerfJson(line, from)
    decreases |line| - from
  {
    if PerfJsonMatchAt(line, from).Some? {
      p := from;
    } else {
      p := SearchPerfJsonSound(line, from + 1);
    }
  }

  /** No match can start where the line has no fire emoji, so the search passes over such a prefix. */
  lemma {:induction false} SearchSkipsNoFire(line: string, p: nat)
    requires p <= |line|
    requires forall i :: 0 <= i < p ==> line[i] != Marker[0]
    ensures SearchPerfJson(line, 0) == SearchPerfJson(line, p)
  {
    var q := 0;
    while q < p
      invariant q <= p
      invariant SearchPerfJson(line, 0) == SearchPerfJson(line, q)
    {
      assert line[q..][0] == line[q];
      assert PerfJsonMatchAt(line, q) == None;
      q := q + 1;
    }
  }

  /** A line without the fire emoji carries no payload. */
  lemma NoFireNoPayload(line: string)
    requires forall i :: 0 <= i < |line| ==> line[i] != Marker[0]
    ensures PerfJsonPayload(line) == None
  {
    SearchSkipsNoFire(line, |line|);
  }

  /**
   * The printed form of a record is recovered: a line with the marker at `p` and no emoji before it,
   * then a one-line JSON object, then only whitespace (such as the line feed), carries that object.
   */
  lemma PayloadAt(line: string, p: nat, json: string)
    requires p + |Marker| + |json| <= |line|
    requires line[p..p + |Marker|] == Marker
    requires forall i :: 0 <= i < p ==> line[i] != Marker[0]
    requires line[p + |Marker|..p + |Marker| + |json|] == json
    requires |json| >= 2 && json[0] == '{' && json[|json| - 1] == '}' && NoLineFeed(json)
    requires forall i :: p + |Marker| + |json| <= i < |line| ==> IsSpace(line[i])
    ensures PerfJsonPayload(line) == Some(json)
  {
    var start := p + |Marker|;
    var end := start + |json|;
    assert StartsWith(line[p..], Marker) by {
      assert line[p..][..|Marker|] == line[p..p + |Marker|];
    }
    assert TrimmedEnd(line, |line|, StrBlank) == end by {
      TrimmedEndAfter(line, end);
    }
    assert line[start] == json[0];
    assert line[end - 1] == json[|json| - 1];
    assert PerfJsonMatchAt(line, p) == Some(json);
    SearchSkipsNoFire(line, p);
  }

  /** The trailing whitespace of `s` starts right after its last non-whitespace character. */
  lemma TrimmedEndAfter(s: string, end: nat)
    requires 0 < end <= |s| && !IsSpace(s[end - 1])
    requires forall i :: end <= i < |s| ==> IsSpace(s[i])
    ensures TrimmedEnd(s, |s|, StrBlank) == end
  {
  }

  /** What scraping one line contributes: the decoded payload, or nothing if there is none or it does not decode. */
  function RecordOf<R>(decode: string -> Option<R>, line: string): (rs: seq<R>)
    ensures |rs| <= 1
    ensures |rs| == 1 <==> PerfJsonPayload(line).Some? && decode(PerfJsonPayload(line).value).Some?
  {
    match PerfJsonPayload(line)
    case None => []
    case Some(json) =>
      match decode(json)
      case None => []
      case Some(r) => [r]
  }

  /** The records of all `lines`, in order. */
  function Scraped<R>(decode: string -> Option<R>, lines: seq<string>): (rs: seq<R>)
    ensures |rs| <= |lines|
    decreases |lines|
  {
    if |lines| == 0 then []
    else Scraped(decode, lines[..|lines| - 1]) + RecordOf(decode, lines[|lines| - 1])
  }

  /** Scraping two chunks of output one after the other gives the records of both, in order. */
  lemma {:induction false} ScrapedAppend<R>(decode: string -> Option<R>, a: seq<string>, b: seq<string>)
    ensures Scraped(decode, a + b) == Scraped(decode, a) + Scraped(decode, b)
    decreases |b|
  {
    if |b| == 0 {
      assert a + b == a;
    } else {
      var init := b[..|b| - 1];
      assert (a + b)[..|a + b| - 1] == a + init;
      ScrapedAppend(decode, a, init);
    }
  }

  /** Output without any payload line yields no records. */
  lemma {:induction false} ScrapedNone<R>(decode: string -> Option<R>, lines: seq<string>)
    requires forall i :: 0 <= i < |lines| ==> PerfJsonPayload(lines[i]).None?
    ensures Scraped(decode, lines) == []
    decreases |lines|
  {
    if |lines| > 0 {
      ScrapedNone(decode, lines[..|lines| - 1]);
    }
  }

  /**
   * The capture loop: every line is echoed as it arrives, and each decodable payload is appended to
   * the records.
   */
  method CaptureRecords<R>(decode: string -> Option<R>, lines: seq<string>) returns (echoed: seq<string>, records: seq<R>)
    ensures echoed == lines
    ensures records == Scraped(decode, lines)
  {
    echoed := [];
    records := [];
    var i := 0;
    while i < |lines|
      invariant i <= |lines|
      invariant echoed == lines[..i]
      invariant records == Scraped(decode, lines[..i])
      decreases |lines| - i
    {
      var line := lines[i];
      echoed := echoed + [line];
      assert lines[..i + 1][..i] == lines[..i];
      var payload := PerfJsonPayload(line);
      if payload.Some? {
        var decoded := decode(payload.value);
        if decoded.Some? {
          records := records + [decoded.value];
        }
      }
      i := i + 1;
    }
    assert lines[..i] == lines;
  }
}

=== FILE: pid_pattern.dfy ===
/**
 * Discovery of the XCTest runner's process id in the supervised command's output: the
 * supervisor searches every line for a pattern and converts its group to an int. The pattern
 * the source writes and the pattern its comment describes are both modelled here.
 */
module PidPattern {
  import opened Wrappers
  import opened Text

  /** The number of consecutive characters satisfying `isRunChar` in `s` from position `i` on. */
  function RunLength(s: string, i: nat, isRunChar: char -> bool): (k: nat)
    requires i <= |s|
    ensures i + k <= |s|
    ensures forall j :: i <= j < i + k ==> isRunChar(s[j])
    ensures i + k == |s| || !isRunChar(s[i + k])
    decreases |s| - i
  {
    if i < |s| && isRunChar(s[i]) then 1 + RunLength(s, i + 1, isRunChar) else 0
  }

  /** The literal text before the parenthesised process id, as in `xctest (81823)`. */
  const PidPrefix: string := "xctest ("

  /**
   * The group of `xctest \((\d+)\)` when it matches at position `p`: the literal prefix, then
   * the longest run of digits, which must be non-empty and followed by `)`. A shorter run of
   * digits would be followed by a digit, not `)`, so backtracking finds no other match.
   */
  function MatchPidAt(line: string, p: nat): (g: Option<string>)
    requires p <= |line|
    ensures g.Some? ==> |g.value| > 0 && AllDigits(g.value)
    ensures g.Some? ==>
      && p + |PidPrefix| + |g.value| < |line|
      && line[p..p + |PidPrefix|] == PidPrefix
      && line[p + |PidPrefix|..p + |PidPrefix| + |g.value|] == g.value
      && line[p + |PidPrefix| + |g.value|] == ')'
  {
    if !StartsWith(line[p..], PidPrefix) then None
    else
      var start := p + |PidPrefix|;
      var k := RunLength(line, start, IsDigit);
      if k > 0 && start + k < |line| && line[start + k] == ')' then Some(line[start..start + k]) else None
  }

  /** The leftmost match at or after `from` (Python's `re.search`). */
  function SearchPid(line: string, from: nat): (g: Option<string>)
    requires from <= |line|
    ensures g.Some? ==> |g.value| > 0 && AllDigits(g.value)
    decreases |line| - from
  {
    match MatchPidAt(line, from)
    case Some(group) => Some(group)
    case None => if from == |line| then None else SearchPid(line, from + 1)
  }

  /** The process id a line reveals: the first match's group converted with `int()`, or None. */
  function ExtractPid(line: string): (pid: Option<int>)
    ensures pid.Some? ==> pid.value >= 0
  {
    match SearchPid(line, 0)
    case None => None
    case Some(group) =>
      ParseDigits(group);
      ParseInt(group)
  }

  /**
   * The search returns the leftmost match: when a match starts at `p` and none starts between
   * `from` and `p`, the search from `from` returns the group at `p`.
   */
  lemma {:induction false} SearchFindsFirst(line: string, from: nat, p: nat)
    requires from <= p <= |line| && MatchPidAt(line, p).Some?
    requires forall q :: from <= q < p ==> MatchPidAt(line, q).None?
    ensures SearchPid(line, from) == MatchPidAt(line, p)
    decreases p - from
  {
    if from < p {
      SearchFindsFirst(line, from + 1, p);
    }
  }

  /**
   * A line with `xctest (` at position `p`, no earlier match, and a non-empty run of digits
   * closed by `)` after it reveals the value of those digits.
   */
  lemma ExtractPidAt(line: string, p: nat, digits: string)
    requires p + |PidPrefix| + |digits| < |line| && line[p..p + |PidPrefix|] == PidPrefix
    requires forall q :: 0 <= q < p ==> MatchPidAt(line, q).None?
    requires |digits| > 0 && AllDigits(digits)
    requires line[p + |PidPrefix|..p + |PidPrefix| + |digits|] == digits
    requires line[p + |PidPrefix| + |digits|] == ')'
    ensures ExtractPid(line) == Some(DigitsValue(digits))
  {
    MatchPidAtDigits(line, p, digits);
    SearchFindsFirst(line, 0, p);
    ExtractPidOfGroup(line, digits);
  }

  /** The match at `p` of `xctest (` followed by digits and `)` has exactly those digits as its group. */
  lemma MatchPidAtDigits(line: string, p: nat, digits: string)
    requires p + |PidPrefix| + |digits| < |line| && line[p..p + |PidPrefix|] == PidPrefix
    requires |digits| > 0 && AllDigits(digits)
    requires line[p + |PidPrefix|..p + |PidPrefix| + |digits|] == digits
    requires line[p + |PidPrefix| + |digits|] == ')'
    ensures MatchPidAt(line, p) == Some(digits)
  {
    assert StartsWith(line[p..], PidPrefix) by {
      assert line[p..][..|PidPrefix|] == line[p..p + |PidPrefix|];
    }
    RunOfDigits(line, p + |PidPrefix|, digits);
  }

  /** Once the search has found a group of digits, the process id is the value of those digits. */
  lemma ExtractPidOfGroup(line: string, digits: string)
    requires SearchPid(line, 0) == Some(digits)
    ensures ExtractPid(line) == Some(DigitsValue(digits))
  {
    ParseDigits(digits);
  }

  /** A line whose first announcement is `xctest (<n>)`, `n` in its shortest decimal form, reveals `n`. */
  lemma ExtractPidFinds(line: string, p: nat, n: nat)
    requires p + |PidPrefix| + |NatToString(n)| < |line| && line[p..p + |PidPrefix|] == PidPrefix
    requires forall q :: 0 <= q < p ==> MatchPidAt(line, q).None?
    requires line[p + |PidPrefix|..p + |PidPrefix| + |NatToString(n)|] == NatToString(n)
    requires line[p + |PidPrefix| + |NatToString(n)|] == ')'
    ensures ExtractPid(line) == Some(n)
  {
    var digits := NatToString(n);
    assert AnnouncedAt(line, p, digits);
    ExtractPidOfValue(line, p, digits, n) by {
      NatToStringRoundTrip(n);
    }
  }

  /** At `p`, the line holds `xctest (`, then `digits`, then `)`. */
  predicate AnnouncedAt(line: string, p: nat, digits: string) {
    && p + |PidPrefix| + |digits| < |line| && line[p..p + |PidPrefix|] == PidPrefix
    && line[p + |PidPrefix|..p + |PidPrefix| + |digits|] == digits
    && line[p + |PidPrefix| + |digits|] == ')'
  }

  /** `ExtractPidAt` for digits known to be worth `n`. */
  lemma ExtractPidOfValue(line: string, p: nat, digits: string, n: nat)
    requires AnnouncedAt(line, p, digits)
    requires forall q :: 0 <= q < p ==> MatchPidAt(line, q).None?
    requires |digits| > 0 && AllDigits(digits) && DigitsValue(digits) == n
    ensures ExtractPid(line) == Some(n)
  {
    ExtractPidAt(line, p, digits);
  }

  /** The search only reports a match that is really there: the position it was found at is returned. */
  lemma {:induction false} SearchPidSound(line: string, from: nat) returns (p: nat)
    requires from <= |line| && SearchPid(line, from).Some?
    ensures from <= p <= |line| && MatchPidAt(line, p) == SearchPid(line, from)
    decreases |line| - from
  {
    if MatchPidAt(line, from).Some? {
      p := from;
    } else {
      p := SearchPidSound(line, from + 1);
    }
  }

  /**
   * Whenever a line yields a process id, the line holds `xctest (`, a run of digits and `)`, and the
   * id is the value of those digits.
   */
  lemma ExtractPidSound(line: string) returns (p: nat, digits: string)
    requires ExtractPid(line).Some?
    ensures p + |PidPrefix| + |digits| < |line| && line[p..p + |PidPrefix|] == PidPrefix
    ensures |digits| > 0 && AllDigits(digits)
    ensures line[p + |PidPrefix|..p + |PidPrefix| + |digits|] == digits
    ensures line[p + |PidPrefix| + |digits|] == ')'
    ensures ExtractPid(line) == Some(DigitsValue(digits))
  {
    assert SearchPid(line, 0).Some?;
    digits := SearchPid(line, 0).value;
    ExtractPidOfGroup(line, digits);
    p := SearchPidSound(line, 0);
    MatchPidAtShape(line, p, digits);
  }

  lemma MatchPidAtShape(line: string, p: nat, digits: string)
    requires p <= |line| && MatchPidAt(line, p) == Some(digits)
    ensures p + |PidPrefix| + |digits| < |line| && line[p..p + |PidPrefix|] == PidPrefix
    ensures line[p + |PidPrefix|..p + |PidPrefix| + |digits|] == digits
    ensures line[p + |PidPrefix| + |digits|] == ')'
  {
  }

  /** A line without the letter `x` never yields a process id. */
  lemma ExtractPidNeedsX(line: string)
    requires forall i :: 0 <= i < |line| ==> line[i] != 'x'
    ensures ExtractPid(line) == None
  {
    SearchSkipsNoX(line, |line|);
  }

  /** The digit run at `start` is exactly `digits` when `digits` is followed by a non-digit. */
  lemma RunOfDigits(line: string, start: nat, digits: string)
    requires start + |digits| < |line| && line[start..start + |digits|] == digits
    requires AllDigits(digits) && !IsDigit(line[start + |digits|])
    ensures RunLength(line, start, IsDigit) == |digits|
  {
  }

  /** No match can start at a position that is not an `x`, so the search passes over such a prefix. */
  lemma {:induction false} SearchSkipsNoX(line: string, p: nat)
    requires p <= |line|
    requires forall i :: 0 <= i < p ==> line[i] != 'x'
    ensures SearchPid(line, 0) == SearchPid(line, p)
  {
    var q := 0;
    while q < p
      invariant q <= p
      invariant SearchPid(line, 0) == SearchPid(line, q)
    {
      assert line[q..][0] == line[q];
      assert MatchPidAt(line, q) == None;
      q := q + 1;
    }
  }

  /** The example from the source's comment. */
  lemma ExtractPidExample()
    ensures ExtractPid("xctest (81823)") == Some(81823)
  {
    assert "81823"[..4] == "8182" && "8182"[..3] == "818" && "818"[..2] == "81" && "81"[..1] == "8";
    assert DigitsValue("81823") == 81823;
    var line := "xctest (81823)";
    assert line[0..8] == PidPrefix && line[8..13] == "81823";
    ExtractPidAt(line, 0, "81823");
  }

  /** A later line revealing a different id. */
  lemma ExtractPidLaterExample()
    ensures ExtractPid("xctest (99)") == Some(99)
  {
    assert "99"[..1] == "9";
    assert DigitsValue("99") == 99;
    var line := "xctest (99)";
    assert line[0..8] == PidPrefix && line[8..10] == "99";
    ExtractPidAt(line, 0, "99");
  }

  /** No match starts where the line departs from `xctest (`. */
  lemma MismatchIsNoMatch(line: string, q: nat, k: nat)
    requires k < |PidPrefix| && q + k < |line| && line[q + k] != PidPrefix[k]
    ensures MatchPidAt(line, q).None?
  {
    assert line[q..][k] == line[q + k];
  }

  /** A line with an unrelated `x` before the announcement still reveals the id. */
  lemma ExtractPidAfterOtherX()
    ensures ExtractPid("Lexical xctest (5)") == Some(5)
  {
    var line := "Lexical xctest (5)";
    forall q | 0 <= q < 8
      ensures MatchPidAt(line, q).None?
    {
      if q == 2 {
        MismatchIsNoMatch(line, q, 1);
      } else {
        MismatchIsNoMatch(line, q, 0);
      }
    }
    assert DigitsValue("5") == 5;
    assert line[8..16] == PidPrefix && line[16..17] == "5";
    ExtractPidAt(line, 8, "5");
  }

  // ---------------------------------------------------------------------------
  // The pattern as the source writes it: the raw string r"xctest \\((\\d+)\\)".
  // In a raw string each `\\` reaches the regex engine as `\\`, a literal backslash,
  // so the pattern reads: `xctest `, a backslash, then group 1 = a backslash, one or
  // more letters `d`, a backslash. Group 1 therefore always begins with a backslash.
  // ---------------------------------------------------------------------------

  predicate IsLetterD(c: char) {
    c == 'd'
  }

  const AsWrittenPrefix: string := "xctest \\"

  /** The group of the as-written pattern when it matches at position `p`. */
  function MatchPidAsWrittenAt(line: string, p: nat): (g: Option<string>)
    requires p <= |line|
    ensures g.Some? ==> |g.value| >= 3 && g.value[0] == '\\'
  {
    if !StartsWith(line[p..], AsWrittenPrefix) then None
    else
      var q := p + |AsWrittenPrefix|;
      if q < |line| && line[q] == '\\' then
        var k := RunLength(line, q + 1, IsLetterD);
        if k > 0 && q + 1 + k < |line| && line[q + 1 + k] == '\\' then Some(line[q..q + 2 + k]) else None
      else None
  }

  function SearchPidAsWritten(line: string, from: nat): (g: Option<string>)
    requires from <= |line|
    ensures g.Some? ==> |g.value| >= 3 && g.value[0] == '\\'
    decreases |line| - from
  {
    match MatchPidAsWrittenAt(line, from)
    case Some(group) => Some(group)
    case None => if from == |line| then None else SearchPidAsWritten(line, from + 1)
  }

  /** What the source computes for a line: the group of the as-written pattern converted with `int()`. */
  function ExtractPidAsWritten(line: string): Option<int> {
    match SearchPidAsWritten(line, 0)
    case None => None
    case Some(group) => ParseInt(group)
  }

  /** As written, no line ever yields a process id: the group starts with a backslash, which `int()` rejects. */
  lemma ExtractPidAsWrittenNeverFinds(line: string)
    ensures ExtractPidAsWritten(line) == None
  {
    match SearchPidAsWritten(line, 0)
    case None =>
    case Some(group) => ParseIntRejectsLead(group);
  }
}

=== FILE: seqs.dfy ===
/** Order-preserving sub-sequences and filtering of sequences. */
module Seqs {

  /** `a` can be obtained from `b` by deleting elements, keeping the order of the rest. */
  predicate IsSubsequence<T(==)>(a: seq<T>, b: seq<T>)
    decreases |b|
  {
    if |a| == 0 then true
    else if |b| == 0 then false
    else (a[0] == b[0] && IsSubsequence(a[1..], b[1..])) || IsSubsequence(a, b[1..])
  }

  /** Prepending the same element to both sides keeps the sub-sequence relation. */
  lemma SubsequenceCons<T>(x: T, a: seq<T>, b: seq<T>)
    requires IsSubsequence(a, b)
    ensures IsSubsequence([x] + a, [x] + b)
  {
    assert ([x] + a)[1..] == a;
    assert ([x] + b)[1..] == b;
  }

  /** Prepending an element to the larger side only keeps the sub-sequence relation. */
  lemma SubsequenceSkip<T>(x: T, a: seq<T>, b: seq<T>)
    requires IsSubsequence(a, b)
    ensures IsSubsequence(a, [x] + b)
  {
    assert ([x] + b)[1..] == b;
  }

  /** Every sequence is a sub-sequence of itself. */
  lemma {:induction false} SubsequenceRefl<T>(a: seq<T>)
    ensures IsSubsequence(a, a)
    decreases |a|
  {
    if |a| > 0 {
      SubsequenceRefl(a[1..]);
      SubsequenceCons(a[0], a[1..], a[1..]);
      assert [a[0]] + a[1..] == a;
    }
  }

  /** Every element of a sub-sequence occurs in the larger sequence. */
  lemma {:induction false} SubsequenceMember<T>(a: seq<T>, b: seq<T>, i: int)
    requires IsSubsequence(a, b) && 0 <= i < |a|
    ensures a[i] in b
    decreases |b|
  {
    if a[0] == b[0] && IsSubsequence(a[1..], b[1..]) {
      if i > 0 {
        SubsequenceMember(a[1..], b[1..], i - 1);
      }
    } else {
      SubsequenceMember(a, b[1..], i);
    }
  }

  /** The sub-sequence relation is transitive. */
  lemma {:induction false} SubsequenceTrans<T>(a: seq<T>, b: seq<T>, c: seq<T>)
    requires IsSubsequence(a, b) && IsSubsequence(b, c)
    ensures IsSubsequence(a, c)
    decreases |c|
  {
    if |a| > 0 {
      if b[0] == c[0] && IsSubsequence(b[1..], c[1..]) {
        if a[0] == b[0] && IsSubsequence(a[1..], b[1..]) {
          SubsequenceTrans(a[1..], b[1..], c[1..]);
        } else {
          SubsequenceTrans(a, b[1..], c[1..]);
        }
      } else {
        SubsequenceTrans(a, b, c[1..]);
      }
    }
  }

  /** The elements of `xs` that satisfy `p`, in their original order (a Python list comprehension with an `if`). */
  function Filter<T>(p: T -> bool, xs: seq<T>): (r: seq<T>)
    ensures |r| <= |xs|
    ensures forall i :: 0 <= i < |r| ==> p(r[i])
    decreases |xs|
  {
    if |xs| == 0 then []
    else if p(xs[0]) then [xs[0]] + Filter(p, xs[1..])
    else Filter(p, xs[1..])
  }

  /** Filtering deletes elements and keeps the order of the rest. */
  lemma {:induction false} FilterIsSubsequence<T>(p: T -> bool, xs: seq<T>)
    ensures IsSubsequence(Filter(p, xs), xs)
    decreases |xs|
  {
    if |xs| > 0 {
      var rest := Filter(p, xs[1..]);
      FilterIsSubsequence(p, xs[1..]);
      assert xs == [xs[0]] + xs[1..];
      if p(xs[0]) {
        SubsequenceCons(xs[0], rest, xs[1..]);
      } else {
        SubsequenceSkip(xs[0], rest, xs[1..]);
      }
    }
  }

  /** Every element satisfying `p` is kept as often as it occurs, and every other element is gone. */
  lemma {:induction false} FilterCounts<T(!new)>(p: T -> bool, xs: seq<T>)
    ensures forall x :: p(x) ==> multiset(Filter(p, xs))[x] == multiset(xs)[x]
    ensures forall x :: !p(x) ==> multiset(Filter(p, xs))[x] == 0
    decreases |xs|
  {
    if |xs| > 0 {
      FilterCounts(p, xs[1..]);
      assert xs == [xs[0]] + xs[1..];
    }
  }

  /** Filtering distributes over concatenation. */
  lemma {:induction false} FilterAppend<T>(p: T -> bool, a: seq<T>, b: seq<T>)
    ensures Filter(p, a + b) == Filter(p, a) + Filter(p, b)
    decreases |a|
  {
    if |a| > 0 {
      assert (a + b)[1..] == a[1..] + b;
      FilterAppend(p, a[1..], b);
    } else {
      assert a + b == b;
    }
  }

  /** When every element already satisfies `p`, filtering changes nothing. */
  lemma {:induction false} FilterIdentity<T>(p: T -> bool, xs: seq<T>)
    requires forall i :: 0 <= i < |xs| ==> p(xs[i])
    ensures Filter(p, xs) == xs
    decreases |xs|
  {
    if |xs| > 0 {
      FilterIdentity(p, xs[1..]);
      assert xs == [xs[0]] + xs[1..];
    }
  }

  /** Filtering twice with the same predicate is the same as filtering once. */
  lemma FilterIdempotent<T>(p: T -> bool, xs: seq<T>)
    ensures Filter(p, Filter(p, xs)) == Filter(p, xs)
  {
    FilterIdentity(p, Filter(p, xs));
  }

  /** An element survives filtering exactly when it occurs and satisfies `p`. */
  lemma {:induction false} FilterMember<T>(p: T -> bool, xs: seq<T>, x: T)
    ensures x in Filter(p, xs) <==> x in xs && p(x)
    decreases |xs|
  {
    if |xs| > 0 {
      FilterMember(p, xs[1..], x);
      assert xs == [xs[0]] + xs[1..];
    }
  }
}

=== FILE: stable_sort.dfy ===
/**
 * Sorting a list by a string key the way Python's `list.sort(key=...)` does: ascending, and stable,
 * so elements with equal keys keep their relative order. Modelled as an insertion sort.
 */
module StableSort {
  import opened Seqs
  import opened LexOrder

  /** Adjacent elements are in key order. */
  predicate SortedBy<T>(key: T -> string, xs: seq<T>) {
    forall i :: 0 < i < |xs| ==> LessEq(key(xs[i - 1]), key(xs[i]))
  }

  /**
   * Puts `x` in front of the first element whose key is not smaller, so that `x` comes before the
   * elements with an equal key.
   */
  function InsertBy<T>(key: T -> string, x: T, s: seq<T>): (r: seq<T>)
    ensures |r| == |s| + 1
    decreases |s|
  {
    if |s| == 0 then [x]
    else if Less(key(s[0]), key(x)) then [s[0]] + InsertBy(key, x, s[1..])
    else [x] + s
  }

  function SortBy<T>(key: T -> string, xs: seq<T>): (r: seq<T>)
    ensures |r| == |xs|
    decreases |xs|
  {
    if |xs| == 0 then [] else InsertBy(key, xs[0], SortBy(key, xs[1..]))
  }

  /** The first element after inserting is either `x` or the old first element. */
  lemma InsertByHead<T>(key: T -> string, x: T, s: seq<T>)
    requires |s| > 0
    ensures InsertBy(key, x, s)[0] == x || InsertBy(key, x, s)[0] == s[0]
  {
  }

  lemma {:induction false} InsertBySorted<T>(key: T -> string, x: T, s: seq<T>)
    requires SortedBy(key, s)
    ensures SortedBy(key, InsertBy(key, x, s))
    decreases |s|
  {
    if |s| == 0 {
    } else if Less(key(s[0]), key(x)) {
      var rest := InsertBy(key, x, s[1..]);
      InsertBySorted(key, x, s[1..]);
      if |s| > 1 {
        InsertByHead(key, x, s[1..]);
      }
      var r := [s[0]] + rest;
      forall i | 0 < i < |r|
        ensures LessEq(key(r[i - 1]), key(r[i]))
      {
        if i > 1 {
          assert r[i - 1] == rest[i - 2] && r[i] == rest[i - 1];
        }
      }
    } else {
      NotLessIsGreaterEq(key(s[0]), key(x));
    }
  }

  /** The result is in ascending key order. */
  lemma {:induction false} SortBySorted<T>(key: T -> string, xs: seq<T>)
    ensures SortedBy(key, SortBy(key, xs))
    decreases |xs|
  {
    if |xs| > 0 {
      SortBySorted(key, xs[1..]);
      InsertBySorted(key, xs[0], SortBy(key, xs[1..]));
    }
  }

  lemma {:induction false} InsertByPermutes<T>(key: T -> string, x: T, s: seq<T>)
    ensures multiset(InsertBy(key, x, s)) == multiset(s) + multiset{x}
    decreases |s|
  {
    if |s| > 0 && Less(key(s[0]), key(x)) {
      InsertByPermutes(key, x, s[1..]);
      assert s == [s[0]] + s[1..];
    }
  }

  /** The result holds the same elements, each as often. */
  lemma {:induction false} SortByPermutes<T>(key: T -> string, xs: seq<T>)
    ensures multiset(SortBy(key, xs)) == multiset(xs)
    decreases |xs|
  {
    if |xs| > 0 {
      SortByPermutes(key, xs[1..]);
      InsertByPermutes(key, xs[0], SortBy(key, xs[1..]));
      assert xs == [xs[0]] + xs[1..];
    }
  }

  /** The elements whose key is `k`. */
  function WithKey<T>(key: T -> string, k: string, xs: seq<T>): seq<T> {
    Filter(x => key(x) == k, xs)
  }

  lemma {:induction false} InsertByStable<T>(key: T -> string, x: T, s: seq<T>, k: string)
    ensures WithKey(key, k, InsertBy(key, x, s)) == if key(x) == k then [x] + WithKey(key, k, s) else WithKey(key, k, s)
    decreases |s|
  {
    var p := (y: T) => key(y) == k;
    if |s| == 0 {
    } else if Less(key(s[0]), key(x)) {
      InsertByStable(key, x, s[1..], k);
      if key(x) == k {
        LessIrreflexive(k);
        assert !p(s[0]);
      }
    }
  }

  /** Elements with equal keys come out in the order they went in. */
  lemma {:induction false} SortByStable<T>(key: T -> string, xs: seq<T>, k: string)
    ensures WithKey(key, k, SortBy(key, xs)) == WithKey(key, k, xs)
    decreases |xs|
  {
    if |xs| > 0 {
      SortByStable(key, xs[1..], k);
      InsertByStable(key, xs[0], SortBy(key, xs[1..]), k);
    }
  }

  /** A list already in order is left as it is. */
  lemma {:induction false} SortBySortedIdentity<T>(key: T -> string, xs: seq<T>)
    requires SortedBy(key, xs)
    ensures SortBy(key, xs) == xs
    decreases |xs|
  {
    if |xs| > 0 {
      SortBySortedIdentity(key, xs[1..]);
      if |xs| > 1 {
        LessTrichotomy(key(xs[0]), key(xs[1]));
      }
    }
  }

  /** In a sorted list the first key is at most every later key. */
  lemma {:induction false} SortedByHead<T>(key: T -> string, xs: seq<T>, k: int)
    requires SortedBy(key, xs) && 0 <= k < |xs|
    ensures LessEq(key(xs[0]), key(xs[k]))
    decreases k
  {
    if k > 1 {
      SortedByHead(key, xs, k - 1);
      LessEqTransitive(key(xs[0]), key(xs[k - 1]), key(xs[k]));
    }
  }

  /** Dropping elements from a sorted list leaves it sorted. */
  lemma {:induction false} FilterKeepsSorted<T>(key: T -> string, p: T -> bool, xs: seq<T>)
    requires SortedBy(key, xs)
    ensures SortedBy(key, Filter(p, xs))
    decreases |xs|
  {
    if |xs| > 0 {
      var rest := Filter(p, xs[1..]);
      assert SortedBy(key, xs[1..]) by {
        forall i | 0 < i < |xs[1..]|
          ensures LessEq(key(xs[1..][i - 1]), key(xs[1..][i]))
        {
          assert xs[1..][i - 1] == xs[i] && xs[1..][i] == xs[i + 1];
        }
      }
      FilterKeepsSorted(key, p, xs[1..]);
      if p(xs[0]) && |rest| > 0 {
        FilterMember(p, xs[1..], rest[0]);
        var k :| 0 <= k < |xs[1..]| && xs[1..][k] == rest[0];
        SortedByHead(key, xs, k + 1);
        var r := [xs[0]] + rest;
        forall i | 0 < i < |r|
          ensures LessEq(key(r[i - 1]), key(r[i]))
        {
          if i > 1 {
            assert r[i - 1] == rest[i - 2] && r[i] == rest[i - 1];
          }
        }
      }
    }
  }
}

=== FILE: supervisor.dfy ===
/**
 * The monitoring loop of the timeout supervisor as a step function. Each iteration of the loop is
 * one `Tick`: the time it observed, the lines the two pipes delivered, and whether the child had
 * exited when it was polled at the end of the iteration. Waiting, reading and the clock are
 * therefore inputs; what the loop decides from them is modelled exactly.
 */
module Supervisor {
  import opened Wrappers
  import opened Seqs

  datatype Stream = Stdout | Stderr

  /** One readable pipe and the line read from it; the empty line is end of file. */
  datatype Ready = Ready(stream: Stream, line: string)

  /** One loop iteration: the time, the pipes reported readable (in order), and the result of `poll()`. */
  datatype Tick = Tick(now: int, ready: seq<Ready>, exited: bool)

  datatype Notice = HardLimitExceeded | IdleLimitExceeded

  /** What the supervisor writes: a forwarded line on its stream of origin, or a timeout notice on stderr. */
  datatype Emitted = Forward(stream: Stream, line: string) | Announce(notice: Notice)

  /** The idle and hard limits in seconds; 0 disables a limit. */
  datatype Limits = Limits(idleSec: int, hardSec: int)

  /**
   * The loop's variables: when it started, when output was last seen, the last process id found,
   * whether a limit fired, whether the loop has ended, and everything written so far.
   */
  datatype State = State(start: int, last: int, xctestPid: Option<int>, timedOut: bool, finished: bool, emitted: seq<Emitted>)

  /** The state before the first iteration. */
  function Initial(start: int): (st: State)
    ensures !st.timedOut && !st.finished && st.xctestPid.None? && |st.emitted| == 0
    ensures st.last == st.start == start
  {
    State(start, start, None, false, false, [])
  }

  /** A limit only fires once set and only when strictly exceeded (`hard_sec and elapsed > hard_sec`). */
  predicate HardExpired(limits: Limits, st: State, now: int) {
    limits.hardSec != 0 && now - st.start > limits.hardSec
  }

  predicate IdleExpired(limits: Limits, st: State, now: int) {
    limits.idleSec != 0 && now - st.last > limits.idleSec
  }

  /** A line counts as output unless it is the empty end-of-file marker. */
  predicate IsLine(r: Ready) {
    r.line != ""
  }

  /** Forwarding `rs` to their streams of origin, in order. */
  function ToEmitted(rs: seq<Ready>): (out: seq<Emitted>)
    ensures |out| == |rs|
    ensures forall i :: 0 <= i < |rs| ==> out[i] == Forward(rs[i].stream, rs[i].line)
  {
    seq(|rs|, i requires 0 <= i < |rs| => Forward(rs[i].stream, rs[i].line))
  }

  /**
   * Reference definition of the id known after reading `rs`: the id of the LAST line for which
   * `extract` succeeds, or `prev` when there is none.
   */
  function LastPid(extract: string -> Option<int>, rs: seq<Ready>, prev: Option<int>): Option<int>
    decreases |rs|
  {
    if |rs| == 0 then prev
    else
      var r := rs[|rs| - 1];
      if IsLine(r) && extract(r.line).Some? then extract(r.line) else LastPid(extract, rs[..|rs| - 1], prev)
  }

  /** Reading the ready pipes in order: every non-empty line refreshes `last`, may set the id, and is forwarded. */
  function ReadLines(extract: string -> Option<int>, now: int, st: State, rs: seq<Ready>): (r: State)
    ensures r.start == st.start && r.timedOut == st.timedOut && r.finished == st.finished
    ensures r.emitted == st.emitted + ToEmitted(Filter(IsLine, rs))
    ensures r.last == if |Filter(IsLine, rs)| > 0 then now else st.last
    decreases |rs|
  {
    if |rs| == 0 then st
    else
      var head := rs[0];
      var st1 :=
        if !IsLine(head) then st
        else st.(last := now,
                 xctestPid := match extract(head.line) case Some(pid) => Some(pid) case None => st.xctestPid,
                 emitted := st.emitted + [Forward(head.stream, head.line)]);
      ToEmittedCons(head, Filter(IsLine, rs[1..]));
      ReadLines(extract, now, st1, rs[1..])
  }

  lemma ToEmittedCons(r: Ready, rs: seq<Ready>)
    ensures ToEmitted([r] + rs) == [Forward(r.stream, r.line)] + ToEmitted(rs)
  {
  }

  /** Looking at the lines from the back: the id after `rs + [r]` is that of `r` if it has one. */
  lemma LastPidSnoc(extract: string -> Option<int>, rs: seq<Ready>, r: Ready, prev: Option<int>)
    ensures LastPid(extract, rs + [r], prev) ==
      if IsLine(r) && extract(r.line).Some? then extract(r.line) else LastPid(extract, rs, prev)
  {
    assert (rs + [r])[..|rs|] == rs;
  }

  /** The id after `[r] + rs` is the id after `rs`, starting from the id after `[r]`. */
  lemma {:induction false} LastPidCons(extract: string -> Option<int>, r: Ready, rs: seq<Ready>, prev: Option<int>)
    ensures LastPid(extract, [r] + rs, prev) == LastPid(extract, rs, LastPid(extract, [r], prev))
    decreases |rs|
  {
    if |rs| > 0 {
      var init := rs[..|rs| - 1];
      var tail := rs[|rs| - 1];
      assert [r] + rs == ([r] + init) + [tail];
      assert rs == init + [tail];
      LastPidSnoc(extract, [r] + init, tail, prev);
      LastPidSnoc(extract, init, tail, LastPid(extract, [r], prev));
      LastPidCons(extract, r, init, prev);
    } else {
      assert [r] + rs == [r];
    }
  }

  /** The id after reading is the last one found, the earlier ones being overwritten; failures change nothing. */
  lemma {:induction false} ReadLinesPid(extract: string -> Option<int>, now: int, st: State, rs: seq<Ready>)
    ensures ReadLines(extract, now, st, rs).xctestPid == LastPid(extract, rs, st.xctestPid)
    decreases |rs|
  {
    if |rs| > 0 {
      var head := rs[0];
      assert rs == [head] + rs[1..];
      LastPidCons(extract, head, rs[1..], st.xctestPid);
      assert LastPid(extract, [head], st.xctestPid) ==
        if IsLine(head) && extract(head.line).Some? then extract(head.line) else st.xctestPid
      by {
        LastPidSnoc(extract, [], head, st.xctestPid);
        assert [] + [head] == [head];
      }
      var st1 :=
        if !IsLine(head) then st
        else st.(last := now,
                 xctestPid := match extract(head.line) case Some(pid) => Some(pid) case None => st.xctestPid,
                 emitted := st.emitted + [Forward(head.stream, head.line)]);
      ReadLinesPid(extract, now, st1, rs[1..]);
    }
  }

  /** Lines that no pattern recognises leave the known id as it was. */
  lemma {:induction false} LastPidUnchanged(extract: string -> Option<int>, rs: seq<Ready>, prev: Option<int>)
    requires forall i :: 0 <= i < |rs| ==> extract(rs[i].line).None?
    ensures LastPid(extract, rs, prev) == prev
    decreases |rs|
  {
    if |rs| > 0 {
      LastPidUnchanged(extract, rs[..|rs| - 1], prev);
    }
  }

  /**
   * One iteration of the loop. The hard limit is checked first, whatever output is pending. When
   * output is ready it is read and forwarded and the loop ends if the child has exited; only on an
   * iteration without output is the idle limit checked, and before the child's exit.
   */
  function Step(extract: string -> Option<int>, limits: Limits, st: State, tick: Tick): (r: State)
    requires !st.finished && !st.timedOut
    ensures r.start == st.start
    ensures r.timedOut ==> r.finished
    ensures r.timedOut <==>
      HardExpired(limits, st, tick.now) || (|tick.ready| == 0 && IdleExpired(limits, st, tick.now))
    ensures HardExpired(limits, st, tick.now) ==>
      r == st.(timedOut := true, finished := true, emitted := st.emitted + [Announce(HardLimitExceeded)])
    ensures !HardExpired(limits, st, tick.now) && |tick.ready| > 0 ==>
      && r.finished == tick.exited
      && r.emitted == st.emitted + ToEmitted(Filter(IsLine, tick.ready))
      && r.xctestPid == LastPid(extract, tick.ready, st.xctestPid)
      && r.last == (if |Filter(IsLine, tick.ready)| > 0 then tick.now else st.last)
    ensures !HardExpired(limits, st, tick.now) && |tick.ready| == 0 && IdleExpired(limits, st, tick.now) ==>
      r == st.(timedOut := true, finished := true, emitted := st.emitted + [Announce(IdleLimitExceeded)])
    ensures !HardExpired(limits, st, tick.now) && |tick.ready| == 0 && !IdleExpired(limits, st, tick.now) ==>
      r == st.(finished := tick.exited)
  {
    if HardExpired(limits, st, tick.now) then
      st.(timedOut := true, finished := true, emitted := st.emitted + [Announce(HardLimitExceeded)])
    else if |tick.ready| > 0 then
      ReadLinesPid(extract, tick.now, st, tick.ready);
      ReadLines(extract, tick.now, st, tick.ready).(finished := tick.exited)
    else if IdleExpired(limits, st, tick.now) then
      st.(timedOut := true, finished := true, emitted := st.emitted + [Announce(IdleLimitExceeded)])
    else
      st.(finished := tick.exited)
  }

  /** A state the loop can be in: a timeout always ends the loop. */
  predicate Consistent(st: State) {
    st.timedOut ==> st.finished
  }

  /** The loop over the ticks the environment supplies, stopping when it ends or the ticks run out. */
  function Run(extract: string -> Option<int>, limits: Limits, st: State, ticks: seq<Tick>): (r: State)
    requires Consistent(st)
    ensures Consistent(r)
    ensures r.start == st.start
    ensures st.finished ==> r == st
    ensures |st.emitted| <= |r.emitted| && r.emitted[..|st.emitted|] == st.emitted
    decreases |ticks|
  {
    if st.finished || |ticks| == 0 then st
    else
      var next := Step(extract, limits, st, ticks[0]);
      var r := Run(extract, limits, next, ticks[1..]);
      assert r.emitted[..|st.emitted|] == r.emitted[..|next.emitted|][..|st.emitted|];
      r
  }

  /** The loop as the source writes it: `while True`, one iteration per tick, leaving at a `break`. */
  method Supervise(extract: string -> Option<int>, limits: Limits, start: int, ticks: seq<Tick>) returns (st: State, used: nat)
    ensures st == Run(extract, limits, Initial(start), ticks)
    ensures used <= |ticks|
    ensures used < |ticks| ==> st.finished
  {
    st := Initial(start);
    used := 0;
    while used < |ticks| && !st.finished
      invariant used <= |ticks| && Consistent(st)
      invariant Run(extract, limits, st, ticks[used..]) == Run(extract, limits, Initial(start), ticks)
    {
      assert ticks[used..][1..] == ticks[used + 1..];
      st := Step(extract, limits, st, ticks[used]);
      used := used + 1;
    }
  }

  /** Whatever follows position `from` in `s` being forwarded output. */
  predicate ForwardedFrom(s: seq<Emitted>, from: nat) {
    forall i :: from <= i < |s| ==> s[i].Forward?
  }

  /** Without limits one iteration never times out and adds only forwarded lines. */
  lemma StepWithoutLimits(extract: string -> Option<int>, st: State, tick: Tick)
    requires !st.finished && !st.timedOut
    ensures var next := Step(extract, Limits(0, 0), st, tick);
      !next.timedOut && |st.emitted| <= |next.emitted| && next.emitted[..|st.emitted|] == st.emitted &&
      ForwardedFrom(next.emitted, |st.emitted|)
  {
    var next := Step(extract, Limits(0, 0), st, tick);
    if |tick.ready| > 0 {
      var added := ToEmitted(Filter(IsLine, tick.ready));
      assert next.emitted == st.emitted + added;
      forall i | |st.emitted| <= i < |next.emitted| ensures next.emitted[i].Forward? {
        assert next.emitted[i] == added[i - |st.emitted|];
      }
    }
  }

  /** Forwarded output after `from` stays forwarded output once more is appended that is forwarded too. */
  lemma ForwardedFromTrans(a: seq<Emitted>, b: seq<Emitted>, c: seq<Emitted>)
    requires |a| <= |b| <= |c| && c[..|b|] == b
    requires ForwardedFrom(b, |a|) && ForwardedFrom(c, |b|)
    ensures ForwardedFrom(c, |a|)
  {
    forall i | |a| <= i < |c| ensures c[i].Forward? {
      if i < |b| {
        assert c[..|b|][i] == c[i];
      }
    }
  }

  /** With both limits 0 the supervisor never times out and writes nothing but forwarded output. */
  lemma {:induction false} NoLimitsNeverTimeOut(extract: string -> Option<int>, st: State, ticks: seq<Tick>)
    requires !st.timedOut
    ensures !Run(extract, Limits(0, 0), st, ticks).timedOut
    ensures ForwardedFrom(Run(extract, Limits(0, 0), st, ticks).emitted, |st.emitted|)
    decreases |ticks|
  {
    if !st.finished && |ticks| > 0 {
      var next := Step(extract, Limits(0, 0), st, ticks[0]);
      StepWithoutLimits(extract, st, ticks[0]);
      NoLimitsNeverTimeOut(extract, next, ticks[1..]);
      var r := Run(extract, Limits(0, 0), next, ticks[1..]);
      ForwardedFromTrans(st.emitted, next.emitted, r.emitted);
    }
  }

  /**
   * The hard limit is hard: once a tick lies past the deadline, the loop has ended by that tick, if
   * not earlier because the child exited or the idle limit fired.
   */
  lemma {:induction false} RunEndsByHardDeadline(extract: string -> Option<int>, limits: Limits, st: State, ticks: seq<Tick>, k: nat)
    requires Consistent(st)
    requires limits.hardSec != 0 && k < |ticks| && ticks[k].now - st.start > limits.hardSec
    ensures Run(extract, limits, st, ticks).finished
    decreases k
  {
    if !st.finished {
      var next := Step(extract, limits, st, ticks[0]);
      if k > 0 {
        RunEndsByHardDeadline(extract, limits, next, ticks[1..], k - 1);
      }
    }
  }
}

=== FILE: supervisor_cli.dfy ===
/**
 * The command line of the timeout supervisor: finding the command after `--`, the environment
 * variables that switch on sampling and override its duration, and the process exit status.
 * Option parsing itself is an input (`Options`).
 */
module SupervisorCli {
  import opened Wrappers
  import opened Text
  import opened XcodebuildArgs
  import opened Supervisor

  /** The parsed options: `--idle`, `--hard`, `--sample`, `--sample-seconds`, and what was captured after `--`. */
  datatype Options = Options(idle: int, hard: int, sample: bool, sampleSeconds: int, dashdash: Option<seq<string>>)

  /** The default of `--sample-seconds`. */
  const DefaultSampleSeconds := 8

  const SampleOnTimeoutVar := "WITH_TIMEOUT_SAMPLE_ON_TIMEOUT"
  const SampleSecondsVar := "WITH_TIMEOUT_SAMPLE_SECONDS"

  /** What `main` returns when there is no command. */
  const UsageStatus := 2

  /** The captured arguments without a leading `--`. */
  function DropLeadingDashDash(dd: seq<string>): (r: seq<string>)
    ensures |dd| > 0 && dd[0] == "--" ==> r == dd[1..]
    ensures |dd| == 0 || dd[0] != "--" ==> r == dd
  {
    if |dd| > 0 && dd[0] == "--" then dd[1..] else dd
  }

  /**
   * The command to run; empty when there is none. What option parsing captured after `--` is used
   * when it is non-empty once a leading `--` is dropped; otherwise everything after the first `--`
   * of the raw argument vector.
   */
  function ResolveCommand(dashdash: Option<seq<string>>, argv: seq<string>): (cmd: seq<string>)
    ensures dashdash.Some? && |DropLeadingDashDash(dashdash.value)| > 0 ==> cmd == DropLeadingDashDash(dashdash.value)
    ensures !(dashdash.Some? && |DropLeadingDashDash(dashdash.value)| > 0) ==>
      && ("--" !in argv ==> cmd == [])
      && ("--" in argv ==> exists i :: 0 <= i < |argv| && argv[i] == "--" && "--" !in argv[..i] && cmd == argv[i + 1..])
  {
    var captured := if dashdash.Some? then DropLeadingDashDash(dashdash.value) else [];
    if |captured| > 0 then captured
    else
      match IndexOf(argv, "--")
      case None => []
      case Some(i) => argv[i + 1..]
  }

  /**
   * Without anything captured by option parsing, the supervisor finds the same command as the
   * xcodebuild wrapper does when the vector has a `--`.
   */
  lemma ResolveCommandAgreesWithWrapper(argv: seq<string>)
    requires "--" in argv
    ensures ResolveCommand(None, argv) == SplitAfterDashDash(argv)
  {
    var cmd := ResolveCommand(None, argv);
    var i :| 0 <= i < |argv| && argv[i] == "--" && "--" !in argv[..i] && cmd == argv[i + 1..];
    var r := SplitAfterDashDash(argv);
    var j := |argv| - |r| - 1;
    assert argv[j] == "--" by { assert argv == argv[..j] + ["--"] + r; assert (argv[..j] + ["--"] + r)[j] == "--"; }
    assert i == j;
    assert r == argv[j + 1..] by { assert argv == argv[..j] + ["--"] + r; }
  }

  /** Sampling is on with `--sample` or when the variable is set to anything non-empty, `"0"` included. */
  function SamplingEnabled(flag: bool, environ: map<string, string>): (on: bool)
    ensures on <==> flag || (SampleOnTimeoutVar in environ && environ[SampleOnTimeoutVar] != "")
  {
    flag || (SampleOnTimeoutVar in environ && |environ[SampleOnTimeoutVar]| > 0)
  }

  /** The sampling duration: the variable's value when it is non-empty and an integer, otherwise `--sample-seconds`. */
  function EffectiveSampleSeconds(flagSeconds: int, environ: map<string, string>): (seconds: int)
    ensures SampleSecondsVar !in environ || environ[SampleSecondsVar] == "" ==> seconds == flagSeconds
    ensures SampleSecondsVar in environ && ParseInt(environ[SampleSecondsVar]).None? ==> seconds == flagSeconds
    ensures SampleSecondsVar in environ && environ[SampleSecondsVar] != "" && ParseInt(environ[SampleSecondsVar]).Some? ==>
      seconds == ParseInt(environ[SampleSecondsVar]).value
  {
    if SampleSecondsVar in environ && environ[SampleSecondsVar] != "" then
      match ParseInt(environ[SampleSecondsVar])
      case Some(n) => n
      case None => flagSeconds
    else flagSeconds
  }

  /** A variable holding any integer, as Python prints it, overrides `--sample-seconds`. */
  lemma SampleSecondsOverride(flagSeconds: int, environ: map<string, string>, n: int)
    requires SampleSecondsVar in environ && environ[SampleSecondsVar] == IntToString(n)
    ensures EffectiveSampleSeconds(flagSeconds, environ) == n
  {
    ParseIntRoundTrip(n);
  }

  /** A variable that is not an integer, such as `"eight"`, is ignored. */
  lemma SampleSecondsIgnoresWords(flagSeconds: int, environ: map<string, string>)
    requires SampleSecondsVar in environ && environ[SampleSecondsVar] == "eight"
    ensures EffectiveSampleSeconds(flagSeconds, environ) == flagSeconds
  {
    ParseIntRejectsLead("eight");
  }

  /** A value with a leading separator U+001C is no integer to `int()`, so the flag's value stays. */
  lemma SampleSecondsIgnoresSeparator(flagSeconds: int, environ: map<string, string>)
    requires SampleSecondsVar in environ && environ[SampleSecondsVar] == "\U{001C}8"
    ensures EffectiveSampleSeconds(flagSeconds, environ) == flagSeconds
  {
    ParseIntRejectsSeparator();
  }

  /** What `main` decides before supervising: no command, or the command with its limits and sampling settings. */
  datatype Plan = MissingCommand | Supervise(cmd: seq<string>, limits: Limits, sampleOn: bool, sampleSeconds: int)

  function PlanRun(opts: Options, argv: seq<string>, environ: map<string, string>): (p: Plan)
    ensures p.MissingCommand? <==> |ResolveCommand(opts.dashdash, argv)| == 0
    ensures p.Supervise? ==>
      && |p.cmd| > 0 && p.cmd == ResolveCommand(opts.dashdash, argv)
      && p.limits == Limits(opts.idle, opts.hard)
      && (p.sampleOn <==> opts.sample || (SampleOnTimeoutVar in environ && environ[SampleOnTimeoutVar] != ""))
      && p.sampleSeconds == EffectiveSampleSeconds(opts.sampleSeconds, environ)
  {
    var cmd := ResolveCommand(opts.dashdash, argv);
    if |cmd| == 0 then MissingCommand
    else Supervise(cmd, Limits(opts.idle, opts.hard), SamplingEnabled(opts.sample, environ), EffectiveSampleSeconds(opts.sampleSeconds, environ))
  }

  /** The status `main` returns: 2 without a command, otherwise the supervisor's status `rc`. */
  function MainResult(plan: Plan, rc: int): (r: int)
    ensures plan.MissingCommand? ==> r == UsageStatus
    ensures plan.Supervise? ==> r == rc
  {
    if plan.MissingCommand? then UsageStatus else rc
  }

  /**
   * The status the operating system reports for `sys.exit(n)`: the low eight bits of `n`, so a
   * child killed by signal `k` (return code `-k`) is reported as `256 - k`.
   */
  function ExitByte(n: int): (b: int)
    ensures 0 <= b < 256
    ensures 0 <= n < 256 ==> b == n
    ensures -256 < n < 0 ==> b == n + 256
  {
    n % 256
  }

  /**
   * The process exit status as the script is written: `main` calls `sys.exit(rc)` after supervising,
   * but returns 2 without a command, and the caller of `main` drops the returned value, so the
   * process ends with status 0.
   */
  function ProcessStatusAsWritten(plan: Plan, rc: int): (status: int)
    ensures 0 <= status < 256
    ensures plan.MissingCommand? ==> status == 0
  {
    if plan.MissingCommand? then 0 else ExitByte(rc)
  }

  /** The process exit status when the value `main` returns becomes the exit status, as the usage path intends. */
  function ProcessStatus(plan: Plan, rc: int): (status: int)
    ensures status == ExitByte(MainResult(plan, rc))
    ensures plan.MissingCommand? ==> status == UsageStatus
  {
    if plan.MissingCommand? then UsageStatus else ExitByte(rc)
  }

  /** As written, a run without a command reports success. */
  lemma MissingCommandExitsZeroAsWritten(opts: Options, environ: map<string, string>, rc: int)
    requires opts.dashdash.None?
    ensures ProcessStatusAsWritten(PlanRun(opts, [], environ), rc) == 0
    ensures ProcessStatus(PlanRun(opts, [], environ), rc) == UsageStatus
  {
  }

  /** The two agree whenever there is a command: the supervisor's status, reduced to a byte, is the exit status. */
  lemma StatusesAgreeWithCommand(plan: Plan, rc: int)
    requires plan.Supervise?
    ensures ProcessStatusAsWritten(plan, rc) == ProcessStatus(plan, rc) == ExitByte(rc)
  {
  }
}

=== FILE: text.dfy ===
/** Character classes, prefixes, stripping and decimal integers on `string` (a `seq<char>`). */
module Text {
  import opened Wrappers
  import opened Seqs

  predicate StartsWith(s: string, prefix: string) {
    |prefix| <= |s| && s[..|prefix|] == prefix
  }

  /** True when `s` starts with at least one of `prefixes` (Python's `any(s.startswith(p) for p in prefixes)`). */
  predicate StartsWithAny(s: string, prefixes: seq<string>) {
    exists i :: 0 <= i < |prefixes| && StartsWith(s, prefixes[i])
  }

  predicate IsDigit(c: char) {
    '0' <= c <= '9'
  }

  predicate AllDigits(s: string) {
    forall i :: 0 <= i < |s| ==> IsDigit(s[i])
  }

  /**
   * The whitespace of Python's `str.isspace` below U+0080: space, tab, line feed, vertical tab,
   * form feed, carriage return, and the four separators U+001C to U+001F.
   */
  predicate IsSpace(c: char) {
    c == ' ' || ('\t' <= c <= '\r') || ('\U{001C}' <= c <= '\U{001F}')
  }

  predicate AllSpace(s: string) {
    forall i :: 0 <= i < |s| ==> IsSpace(s[i])
  }

  /**
   * The whitespace `int()` skips around a number: space and `\t` to `\r`. Unlike `str.isspace`, the
   * separators U+001C to U+001F are not among them.
   */
  predicate IsIntSpace(c: char) {
    c == ' ' || ('\t' <= c <= '\r')
  }

  /** The two whitespace classes: that of `str.strip` and that of `int()`. */
  datatype Blank = StrBlank | IntBlank

  predicate IsBlank(ws: Blank, c: char) {
    match ws
    case StrBlank => IsSpace(c)
    case IntBlank => IsIntSpace(c)
  }

  /** The end of `s[..n]` once its trailing characters of class `ws` are dropped. */
  function TrimmedEnd(s: string, n: nat, ws: Blank): (k: nat)
    requires n <= |s|
    ensures k <= n
    ensures forall j :: k <= j < n ==> IsBlank(ws, s[j])
    ensures k == 0 || !IsBlank(ws, s[k - 1])
    decreases n
  {
    if n > 0 && IsBlank(ws, s[n - 1]) then TrimmedEnd(s, n - 1, ws) else n
  }

  /** The start of `s[i..]` once its leading characters of class `ws` are dropped. */
  function TrimmedStart(s: string, i: nat, ws: Blank): (k: nat)
    requires i <= |s|
    ensures i <= k <= |s|
    ensures forall j :: i <= j < k ==> IsBlank(ws, s[j])
    ensures k == |s| || !IsBlank(ws, s[k])
    decreases |s| - i
  {
    if i < |s| && IsBlank(ws, s[i]) then TrimmedStart(s, i + 1, ws) else i
  }

  /** `s` without its trailing whitespace (Python's `rstrip()`). */
  function RStrip(s: string): (r: string)
    ensures |r| <= |s| && r == s[..|r|]
    ensures forall j :: |r| <= j < |s| ==> IsSpace(s[j])
    ensures |r| == 0 || !IsSpace(r[|r| - 1])
  {
    s[..TrimmedEnd(s, |s|, StrBlank)]
  }

  /** `s` without its leading whitespace (Python's `lstrip()`). */
  function LStrip(s: string): (r: string)
    ensures |r| <= |s| && r == s[|s| - |r|..]
    ensures forall j :: 0 <= j < |s| - |r| ==> IsSpace(s[j])
    ensures |r| == 0 || !IsSpace(r[0])
  {
    s[TrimmedStart(s, 0, StrBlank)..]
  }

  /** `s` without leading and trailing whitespace (Python's `strip()`). */
  function Strip(s: string): string {
    RStrip(LStrip(s))
  }

  /**
   * Where the text `int()` reads starts and ends in `s`: the bounds `(i, j)` such that `s[..i]` and
   * `s[j..]` are all `int()` whitespace and `s[i..j]`, if non-empty, neither starts nor ends with it.
   */
  function IntStripBounds(s: string): (b: (nat, nat))
    ensures b.0 <= b.1 <= |s|
    ensures forall k :: 0 <= k < b.0 || b.1 <= k < |s| ==> IsIntSpace(s[k])
    ensures b.0 < b.1 ==> !IsIntSpace(s[b.0]) && !IsIntSpace(s[b.1 - 1])
  {
    var i := TrimmedStart(s, 0, IntBlank);
    var j := TrimmedEnd(s, |s|, IntBlank);
    if j <= i then
      assert i == |s|;
      (i, i)
    else
      (i, j)
  }

  /** `s` without the whitespace `int()` skips at either end. */
  function IntStrip(s: string): string {
    s[IntStripBounds(s).0..IntStripBounds(s).1]
  }

  /** A string with no `int()` whitespace at either end is its own stripped form. */
  lemma IntStripNoSpace(s: string)
    requires |s| == 0 || (!IsIntSpace(s[0]) && !IsIntSpace(s[|s| - 1]))
    ensures IntStrip(s) == s
  {
    var b := IntStripBounds(s);
    if |s| > 0 {
      assert b.0 == 0 && b.1 == |s|;
    }
    assert s[b.0..b.1] == s;
  }

  /** Removing whitespace from a string that has none at either end changes nothing. */
  lemma StripNoSpace(s: string)
    requires |s| == 0 || (!IsSpace(s[0]) && !IsSpace(s[|s| - 1]))
    ensures Strip(s) == s
  {
    assert TrimmedStart(s, 0, StrBlank) == 0;
    assert LStrip(s) == s;
    assert TrimmedEnd(s, |s|, StrBlank) == |s|;
  }

  /** Strip yields the empty string exactly for all-whitespace input (a blank line). */
  lemma StripEmptyIffBlank(s: string)
    ensures Strip(s) == "" <==> AllSpace(s)
  {
    var l := LStrip(s);
    assert s == s[..|s| - |l|] + l;
    if AllSpace(s) {
      assert AllSpace(l);
    }
  }

  function DigitValue(c: char): nat
    requires IsDigit(c)
  {
    (c as int - '0' as int) as nat
  }

  function DigitChar(d: nat): (c: char)
    requires d < 10
    ensures IsDigit(c) && DigitValue(c) == d
  {
    ('0' as int + d) as char
  }

  /** The value of a string of decimal digits, most significant first. */
  function DigitsValue(s: string): nat
    requires AllDigits(s)
    decreases |s|
  {
    if |s| == 0 then 0 else DigitsValue(s[..|s| - 1]) * 10 + DigitValue(s[|s| - 1])
  }

  /** The shortest decimal rendering of `n` (Python's `str(n)` for a non-negative int). */
  function NatToString(n: nat): (s: string)
    ensures |s| > 0 && AllDigits(s)
    decreases n
  {
    if n < 10 then [DigitChar(n)] else NatToString(n / 10) + [DigitChar(n % 10)]
  }

  /** Reading back a rendered number gives the number. */
  lemma {:induction false} NatToStringRoundTrip(n: nat)
    ensures DigitsValue(NatToString(n)) == n
    decreases n
  {
    var s := NatToString(n);
    if n >= 10 {
      NatToStringRoundTrip(n / 10);
      assert s[..|s| - 1] == NatToString(n / 10);
    }
  }

  /** Python's `str(n)` for any int. */
  function IntToString(n: int): string {
    if n < 0 then "-" + NatToString(-n) else NatToString(n)
  }

  /** The body of a Python integer literal: digits, with single underscores allowed between two digits. */
  predicate IsDigitGroups(s: string) {
    && |s| > 0
    && IsDigit(s[0])
    && IsDigit(s[|s| - 1])
    && (forall i :: 0 <= i < |s| ==> IsDigit(s[i]) || s[i] == '_')
    && (forall i :: 0 < i < |s| - 1 && s[i] == '_' ==> IsDigit(s[i - 1]) && IsDigit(s[i + 1]))
  }

  function RemoveUnderscores(s: string): (r: string)
    ensures (forall i :: 0 <= i < |s| ==> IsDigit(s[i]) || s[i] == '_') ==> AllDigits(r)
    ensures AllDigits(s) ==> r == s
    decreases |s|
  {
    if |s| == 0 then ""
    else if s[0] == '_' then RemoveUnderscores(s[1..])
    else [s[0]] + RemoveUnderscores(s[1..])
  }

  /** The value of an already-stripped Python integer literal: optional sign, then digit groups. */
  function ParseStripped(t: string): Option<int> {
    var body := if |t| > 0 && (t[0] == '-' || t[0] == '+') then t[1..] else t;
    if !IsDigitGroups(body) then None
    else
      var v: int := DigitsValue(RemoveUnderscores(body));
      Some(if |t| > 0 && t[0] == '-' then -v else v)
  }

  /**
   * Python's `int(s)` for a string: surrounding space and `\t` to `\r` are ignored, an optional sign
   * is allowed, and the digits may be grouped by underscores. `None` where Python raises ValueError.
   */
  function ParseInt(s: string): (r: Option<int>)
    ensures (forall k :: 0 <= k < |s| ==> IsIntSpace(s[k])) ==> r.None?
  {
    ParseIntRejectsBlank(s);
    ParseStripped(IntStrip(s))
  }

  /** Nothing but whitespace, the empty string included, is no integer. */
  lemma ParseIntRejectsBlank(s: string)
    ensures (forall k :: 0 <= k < |s| ==> IsIntSpace(s[k])) ==> ParseStripped(IntStrip(s)).None?
  {
    if forall k :: 0 <= k < |s| ==> IsIntSpace(s[k]) {
      var b := IntStripBounds(s);
      assert b.0 == b.1;
      assert IntStrip(s) == [];
    }
  }

  /** The characters of an integer literal other than whitespace: digits, underscores and signs. */
  predicate IsNumeralChar(c: char) {
    IsDigit(c) || c == '_' || c == '+' || c == '-'
  }

  /** A value `ParseInt` accepts holds a digit. */
  lemma ParseIntHasDigit(s: string)
    ensures ParseInt(s).Some? ==> exists k :: 0 <= k < |s| && IsDigit(s[k])
  {
    var t := IntStrip(s);
    ParseStrippedHasDigit(t);
    if ParseStripped(t).Some? {
      var k :| 0 <= k < |t| && IsDigit(t[k]);
      StrippedIndex(s, k);
    }
  }

  /** A value `ParseInt` accepts holds nothing but `int()` whitespace and numeral characters. */
  lemma ParseIntChars(s: string)
    ensures ParseInt(s).Some? ==> forall k :: 0 <= k < |s| ==> IsIntSpace(s[k]) || IsNumeralChar(s[k])
  {
    var t := IntStrip(s);
    ParseStrippedChars(t);
    if ParseStripped(t).Some? {
      StrippedCharsLift(s, t);
    }
  }

  /** A value ending in something other than `int()` whitespace or a digit is not an integer. */
  lemma ParseIntRejectsTail(s: string)
    ensures |s| > 0 && !IsIntSpace(s[|s| - 1]) && !IsDigit(s[|s| - 1]) ==> ParseInt(s).None?
  {
    if |s| > 0 && !IsIntSpace(s[|s| - 1]) && !IsDigit(s[|s| - 1]) {
      var b := IntStripBounds(s);
      var t := IntStrip(s);
      assert b.1 == |s| && b.0 < b.1;
      assert t[|t| - 1] == s[|s| - 1];
      var body := if |t| > 0 && (t[0] == '-' || t[0] == '+') then t[1..] else t;
      assert |body| > 0 ==> body[|body| - 1] == t[|t| - 1];
      assert !IsDigitGroups(body);
    }
  }

  /** Index `k` of the stripped value is a character of `s` itself. */
  lemma StrippedIndex(s: string, k: nat)
    requires k < |IntStrip(s)|
    ensures IntStripBounds(s).0 + k < |s| && IntStrip(s)[k] == s[IntStripBounds(s).0 + k]
  {
  }

  /** If the stripped value holds only numeral characters, `s` holds only those and whitespace. */
  lemma StrippedCharsLift(s: string, t: string)
    requires t == IntStrip(s)
    requires forall k :: 0 <= k < |t| ==> IsNumeralChar(t[k])
    ensures forall k :: 0 <= k < |s| ==> IsIntSpace(s[k]) || IsNumeralChar(s[k])
  {
    var b := IntStripBounds(s);
    forall k | 0 <= k < |s|
      ensures IsIntSpace(s[k]) || IsNumeralChar(s[k])
    {
      if b.0 <= k < b.1 {
        assert s[k] == t[k - b.0];
      }
    }
  }

  /** A stripped value `int()` accepts holds a digit. */
  lemma ParseStrippedHasDigit(t: string)
    ensures ParseStripped(t).Some? ==> exists k :: 0 <= k < |t| && IsDigit(t[k])
  {
    if ParseStripped(t).Some? {
      var off := if |t| > 0 && (t[0] == '-' || t[0] == '+') then 1 else 0;
      assert IsDigitGroups(t[off..]);
      assert t[off..][0] == t[off];
    }
  }

  /** A stripped value `int()` accepts holds only numeral characters. */
  lemma ParseStrippedChars(t: string)
    ensures ParseStripped(t).Some? ==> forall k :: 0 <= k < |t| ==> IsNumeralChar(t[k])
  {
    if ParseStripped(t).Some? {
      var off := if |t| > 0 && (t[0] == '-' || t[0] == '+') then 1 else 0;
      GroupsAreNumeral(t[off..]);
      forall k | 0 <= k < |t|
        ensures IsNumeralChar(t[k])
      {
        if k >= off {
          assert t[k] == t[off..][k - off];
        }
      }
    }
  }

  lemma GroupsAreNumeral(s: string)
    requires IsDigitGroups(s)
    ensures forall k :: 0 <= k < |s| ==> IsNumeralChar(s[k])
  {
  }

  /** A non-empty run of decimal digits is a valid integer-literal body. */
  lemma DigitsAreGroups(s: string)
    requires |s| > 0 && AllDigits(s)
    ensures IsDigitGroups(s)
  {
  }

  /** A non-empty run of decimal digits parses to its value. */
  lemma ParseDigits(s: string)
    requires |s| > 0 && AllDigits(s)
    ensures ParseInt(s) == Some(DigitsValue(s))
  {
    IntStripNoSpace(s);
    DigitsAreGroups(s);
    assert s[0] != '-' && s[0] != '+';
  }

  /** A minus sign followed by a non-empty run of digits parses to the negated value. */
  lemma ParseNegativeDigits(s: string)
    requires |s| > 1 && s[0] == '-' && AllDigits(s[1..])
    ensures ParseInt(s) == Some(-(DigitsValue(s[1..]) as int))
  {
    assert s[|s| - 1] == s[1..][|s| - 2];
    IntStripNoSpace(s);
    DigitsAreGroups(s[1..]);
  }

  /** A minus sign followed by the rendering of `m` parses to `-m`. */
  lemma ParseNegativeRendering(s: string, m: nat)
    requires |s| > 1 && s[0] == '-' && s[1..] == NatToString(m)
    ensures ParseInt(s) == Some(-(m as int))
  {
    NegativeOfValue(s, m) by {
      NatToStringRoundTrip(m);
    }
  }

  /** A minus sign followed by digits worth `m` parses to `-m`. */
  lemma NegativeOfValue(s: string, m: nat)
    requires |s| > 1 && s[0] == '-' && AllDigits(s[1..]) && DigitsValue(s[1..]) == m
    ensures ParseInt(s) == Some(-(m as int))
  {
    assert s[|s| - 1] == s[1..][|s| - 2];
    IntStripNoSpace(s);
    DigitsAreGroups(s[1..]);
    assert RemoveUnderscores(s[1..]) == s[1..];
    assert ParseStripped(s) == Some(-(m as int));
  }

  /** The rendering of `m` parses to `m`. */
  lemma ParseRendering(s: string, m: nat)
    requires s == NatToString(m)
    ensures ParseInt(s) == Some(m)
  {
    ParseOfValue(s, m) by {
      NatToStringRoundTrip(m);
    }
  }

  /** Digits worth `m` parse to `m`. */
  lemma ParseOfValue(s: string, m: nat)
    requires |s| > 0 && AllDigits(s) && DigitsValue(s) == m
    ensures ParseInt(s) == Some(m)
  {
    ParseDigits(s);
  }

  /**
   * A string that starts with something other than `int()` whitespace, a sign or a digit is not an
   * integer; this includes a leading separator U+001C to U+001F.
   */
  lemma ParseIntRejectsLead(s: string)
    requires |s| > 0 && !IsIntSpace(s[0]) && !IsDigit(s[0]) && s[0] != '-' && s[0] != '+'
    ensures ParseInt(s) == None
  {
    var b := IntStripBounds(s);
    if b.0 < b.1 {
      assert b.0 == 0;
      assert IntStrip(s)[0] == s[0];
    }
  }

  /** `int()` does not skip the separator U+001C, although `str.strip` does. */
  lemma ParseIntRejectsSeparator()
    ensures ParseInt("\U{001C}8") == None
    ensures Strip("\U{001C}8") == "8"
  {
    ParseIntRejectsLead("\U{001C}8");
    var s := "\U{001C}8";
    assert TrimmedStart(s, 0, StrBlank) == 1;
    assert LStrip(s) == "8";
    StripNoSpace("8");
  }

  /** Parsing the rendering of any integer gives it back. */
  lemma ParseIntRoundTrip(n: int)
    ensures ParseInt(IntToString(n)) == Some(n)
  {
    if n < 0 {
      ParseNegativeRendering(IntToString(n), -n);
    } else {
      ParseRendering(IntToString(n), n);
    }
  }

  /** Python's `sep.join(parts)`. */
  function Join(parts: seq<string>, sep: string): (r: string)
    ensures |parts| == 1 ==> r == parts[0]
    decreases |parts|
  {
    if |parts| == 0 then ""
    else if |parts| == 1 then parts[0]
    else parts[0] + sep + Join(parts[1..], sep)
  }

  predicate IsNotColon(c: char) {
    c != ':'
  }

  /** `s` with every `from` replaced by `to` (Python's `str.replace` for one character). */
  function ReplaceChar(s: string, from: char, to: char): (r: string)
    ensures |r| == |s|
    ensures forall i :: 0 <= i < |s| ==> r[i] == if s[i] == from then to else s[i]
  {
    seq(|s|, i requires 0 <= i < |s| => if s[i] == from then to else s[i])
  }

  /**
   * A timestamp made safe for identifiers and file names: `:` removed and `+` replaced by `_`
   * (Python's `ts.replace(":", "").replace("+", "_")`).
   */
  function CompactTimestamp(ts: string): (r: string)
    ensures forall i :: 0 <= i < |r| ==> r[i] != ':' && r[i] != '+'
    ensures |r| == |ts| - multiset(ts)[':']
    ensures forall c :: c != ':' && c != '+' && c != '_' ==> multiset(r)[c] == multiset(ts)[c]
    ensures multiset(r)['_'] == multiset(ts)['_'] + multiset(ts)['+']
    ensures IsSubsequence(r, ReplaceChar(ts, '+', '_'))
  {
    var r := ReplaceChar(Filter(IsNotColon, ts), '+', '_');
    CompactLength(ts, r);
    CompactCounts(ts, r);
    CompactOrder(ts, r);
    r
  }

  /** The compact id is shorter by exactly the number of colons. */
  lemma CompactLength(ts: string, r: string)
    requires r == ReplaceChar(Filter(IsNotColon, ts), '+', '_')
    ensures |r| == |ts| - multiset(ts)[':']
  {
    var noColon := Filter(IsNotColon, ts);
    FilterCounts(IsNotColon, ts);
    assert |r| == |multiset(noColon)|;
    MultisetSizeWithout(ts, ':', multiset(noColon));
  }

  /** How many of each character the compact id holds. */
  lemma CompactCounts(ts: string, r: string)
    requires r == ReplaceChar(Filter(IsNotColon, ts), '+', '_')
    ensures forall c :: c != ':' && c != '+' && c != '_' ==> multiset(r)[c] == multiset(ts)[c]
    ensures multiset(r)['_'] == multiset(ts)['_'] + multiset(ts)['+']
  {
    var noColon := Filter(IsNotColon, ts);
    FilterCounts(IsNotColon, ts);
    ReplaceCharCounts(noColon, '+', '_');
    ComposeCounts(multiset(ts), multiset(noColon), multiset(r));
  }

  /** The counts after dropping `:` and then replacing `+` by `_`, over the multisets alone. */
  lemma ComposeCounts(mt: multiset<char>, mn: multiset<char>, mr: multiset<char>)
    requires forall x :: x != ':' ==> mn[x] == mt[x]
    requires mn[':'] == 0
    requires forall c :: c != '+' && c != '_' ==> mr[c] == mn[c]
    requires mr['_'] == mn['_'] + mn['+']
    ensures forall c :: c != ':' && c != '+' && c != '_' ==> mr[c] == mt[c]
    ensures mr['_'] == mt['_'] + mt['+']
  {
  }

  /** The compact id keeps the order of the characters it keeps. */
  lemma CompactOrder(ts: string, r: string)
    requires r == ReplaceChar(Filter(IsNotColon, ts), '+', '_')
    ensures IsSubsequence(r, ReplaceChar(ts, '+', '_'))
  {
    ReplaceThenFilter(ts);
    FilterIsSubsequence(IsNotColon, ReplaceChar(ts, '+', '_'));
  }

  /** Dropping colons commutes with replacing `+` by `_`, as neither character is a colon. */
  lemma {:induction false} ReplaceThenFilter(s: string)
    ensures ReplaceChar(Filter(IsNotColon, s), '+', '_') == Filter(IsNotColon, ReplaceChar(s, '+', '_'))
    decreases |s|
  {
    if |s| > 0 {
      ReplaceThenFilter(s[1..]);
      ReplaceCharHead(s, '+', '_');
      if IsNotColon(s[0]) {
        ReplaceCharHead([s[0]] + Filter(IsNotColon, s[1..]), '+', '_');
        assert ([s[0]] + Filter(IsNotColon, s[1..]))[1..] == Filter(IsNotColon, s[1..]);
      }
    }
  }

  /** Replacing in a non-empty string replaces in its first character and then in the rest. */
  lemma ReplaceCharHead(s: string, from: char, to: char)
    requires |s| > 0
    ensures ReplaceChar(s, from, to) == [if s[0] == from then to else s[0]] + ReplaceChar(s[1..], from, to)
  {
  }

  /** Counting characters of a string after replacing one character by another. */
  lemma {:induction false} ReplaceCharCounts(s: string, from: char, to: char)
    requires from != to
    ensures forall c :: c != from && c != to ==> multiset(ReplaceChar(s, from, to))[c] == multiset(s)[c]
    ensures multiset(ReplaceChar(s, from, to))[to] == multiset(s)[to] + multiset(s)[from]
    ensures multiset(ReplaceChar(s, from, to))[from] == 0
    decreases |s|
  {
    if |s| > 0 {
      ReplaceCharCounts(s[1..], from, to);
      ReplaceCharHead(s, from, to);
      assert s == [s[0]] + s[1..];
      ReplaceCountsStep(multiset(s), multiset(s[1..]), multiset(ReplaceChar(s, from, to)),
        multiset(ReplaceChar(s[1..], from, to)), s[0], from, to);
    }
  }

  /** One step of `ReplaceCharCounts`, over the multisets alone. */
  lemma ReplaceCountsStep(ms: multiset<char>, mt: multiset<char>, mr: multiset<char>, mu: multiset<char>,
                          c: char, from: char, to: char)
    requires from != to
    requires ms == multiset{c} + mt
    requires mr == multiset{if c == from then to else c} + mu
    requires forall x :: x != from && x != to ==> mu[x] == mt[x]
    requires mu[to] == mt[to] + mt[from] && mu[from] == 0
    ensures forall x :: x != from && x != to ==> mr[x] == ms[x]
    ensures mr[to] == ms[to] + ms[from] && mr[from] == 0
  {
  }

  /** A multiset that agrees with `multiset(s)` except that it has no `c` is smaller by the count of `c`. */
  lemma MultisetSizeWithout(s: string, c: char, m: multiset<char>)
    requires forall x :: x != c ==> m[x] == multiset(s)[x]
    requires m[c] == 0
    ensures |m| == |s| - multiset(s)[c]
  {
    var full := multiset(s);
    var cs := multiset{}[c := full[c]];
    assert full == m + cs;
    assert |full| == |s|;
  }

  /** A compacted timestamp has nothing left to compact. */
  lemma CompactTimestampIdempotent(ts: string)
    ensures CompactTimestamp(CompactTimestamp(ts)) == CompactTimestamp(ts)
  {
    var r := CompactTimestamp(ts);
    FilterIdentity(IsNotColon, r);
    assert ReplaceChar(r, '+', '_') == r;
  }
}

=== FILE: timeout_scenario.dfy ===
/**
 * A hang during a test run, followed through the supervisor with both process-id matchers: XCTest
 * reports its process, the output then stops, the idle limit fires and sampling is on. With the
 * pattern as written the XCTest process is never recognised and the child is sampled instead.
 */
module TimeoutScenario {
  import opened Wrappers
  import opened Seqs
  import opened Text
  import opened PidPattern
  import opened Supervisor
  import opened Escalation

  const ReportLine: string := "xctest (4242)\n"

  /** Output at second 5 with the process id, then nothing until second 70; idle limit 60, no hard limit. */
  function HangTicks(): seq<Tick> {
    [Tick(5, [Ready(Stdout, ReportLine)], false), Tick(70, [], false)]
  }

  const HangLimits := Limits(60, 0)

  /** Every process is alive, SIGTERM is delivered and the child exits at the first poll. */
  function CalmHost(): Host {
    Host(_ => true, Delivered, Some(0), _ => Delivered)
  }

  const ChildPid := 100

  lemma ReportLineHasPid()
    ensures ExtractPid(ReportLine) == Some(4242)
    ensures ExtractPidAsWritten(ReportLine) == None
  {
    assert "4242"[..3] == "424" && "424"[..2] == "42" && "42"[..1] == "4";
    assert DigitsValue("4242") == 4242;
    var line := ReportLine;
    assert line[0..8] == PidPrefix && line[8..12] == "4242";
    ExtractPidAt(line, 0, "4242");
    ExtractPidAsWrittenNeverFinds(line);
  }

  /** The loop's end state for the hang, with the given matcher. */
  lemma HangRun(extract: string -> Option<int>)
    ensures var st := Run(extract, HangLimits, Initial(0), HangTicks());
      st.finished && st.timedOut && st.xctestPid == extract(ReportLine)
      && st.emitted == [Forward(Stdout, ReportLine), Announce(IdleLimitExceeded)]
  {
    var ticks := HangTicks();
    var s0 := Initial(0);
    var rs := ticks[0].ready;
    assert Filter(IsLine, rs) == rs by {
      assert IsLine(rs[0]);
      assert rs[1..] == [];
    }
    assert LastPid(extract, rs, None) == extract(ReportLine) by {
      assert rs[..0] == [];
    }
    var s1 := Step(extract, HangLimits, s0, ticks[0]);
    assert s1.last == 5 && !s1.finished && s1.xctestPid == extract(ReportLine);
    assert s1.emitted == [Forward(Stdout, ReportLine)];
    var s2 := Step(extract, HangLimits, s1, ticks[1]);
    assert s2.timedOut && s2.xctestPid == s1.xctestPid;
    assert ticks[1..][1..] == [];
  }

  /** With a calm host, escalating samples the target once and sends SIGTERM, nothing else. */
  lemma CalmEscalation(target: int)
    ensures EscalateRunning(Some(target), 8, CalmHost()) == Escalation([Sample(target, 8), SignalGroup(Term)], false)
  {
    var host := CalmHost();
    assert GraceSleeps(host.firstExitPoll) == 0;
    assert Repeat(GraceSleep, 0) == [];
    assert AfterTerm(host) == Escalation([], false);
    assert SampleActions(Some(target), 8) == [Sample(target, 8)];
  }

  /** Once the hang's loop has chosen `target` to sample, the run samples it, sends SIGTERM and returns 124. */
  lemma HangOutcome(extract: string -> Option<int>, target: int)
    requires var st := Run(extract, HangLimits, Initial(0), HangTicks());
      && st.finished && st.timedOut
      && ChooseSampleTarget(true, st.xctestPid, ChildPid, CalmHost().alive) == Some(target)
      && !ProbeRaises(true, st.xctestPid, ChildPid, CalmHost().alive)
    ensures var o := RunWithTimeouts(extract, HangLimits, true, 8, 0, HangTicks(), ChildPid, CalmHost(), true, None);
      o.code == 124 && o.actions == [Sample(target, 8), SignalGroup(Term)]
  {
    CalmEscalation(target);
  }

  /** With the intended pattern the XCTest process is sampled before the group is signalled. */
  lemma HangSamplesXcTest()
    ensures var o := RunWithTimeouts(ExtractPid, HangLimits, true, 8, 0, HangTicks(), ChildPid, CalmHost(), true, None);
      o.code == 124 && o.actions == [Sample(4242, 8), SignalGroup(Term)]
  {
    ReportLineHasPid();
    HangRun(ExtractPid);
    var st := Run(ExtractPid, HangLimits, Initial(0), HangTicks());
    assert st.xctestPid == Some(4242);
    assert ChooseSampleTarget(true, Some(4242), ChildPid, CalmHost().alive) == Some(4242);
    assert PidFits(4242);
    assert !ProbeRaises(true, Some(4242), ChildPid, CalmHost().alive);
    HangOutcome(ExtractPid, 4242);
  }

  /** With the pattern as written the process id is never found, and the child is sampled instead. */
  lemma HangSamplesChildAsWritten()
    ensures var o := RunWithTimeouts(ExtractPidAsWritten, HangLimits, true, 8, 0, HangTicks(), ChildPid, CalmHost(), true, None);
      o.code == 124 && o.actions == [Sample(ChildPid, 8), SignalGroup(Term)]
  {
    ReportLineHasPid();
    HangRun(ExtractPidAsWritten);
    var st := Run(ExtractPidAsWritten, HangLimits, Initial(0), HangTicks());
    assert st.xctestPid == None;
    assert ChooseSampleTarget(true, st.xctestPid, ChildPid, CalmHost().alive) == Some(ChildPid);
    assert PidFits(ChildPid);
    assert !ProbeRaises(true, None, ChildPid, CalmHost().alive);
    HangOutcome(ExtractPidAsWritten, ChildPid);
  }
}

=== FILE: wrappers.dfy ===
/** Failure-carrying datatypes shared by every module of the model. */
module Wrappers {

  /** A value that may be absent: Python's `None` versus a present value. */
  datatype Option<+T> = None | Some(value: T) {

    /** The present value, or `default` when absent (Python's `x or default` for non-falsy values). */
    function GetOr(default: T): T {
      match this
      case Some(v) => v
      case None => default
    }
  }

  /** The outcome of an operation that can fail with an error value. */
  datatype Result<+R, +E> = Ok(value: R) | Err(error: E)
}

=== FILE: xcodebuild_args.dfy ===
/**
 * The argument-vector rewriting of the xcodebuild wrapper: taking the command after `--`,
 * reading a flag's value, and the two filters that turn one `xcodebuild ... test`
 * invocation into a `build-for-testing` and a `test-without-building` invocation.
 */
module XcodebuildArgs {
  import opened Wrappers
  import opened Seqs
  import opened Text

  /** Index of the first occurrence of `x` in `xs` (Python's `list.index`), or None when absent. */
  function IndexOf(xs: seq<string>, x: string): (r: Option<nat>)
    ensures r.None? <==> x !in xs
    ensures r.Some? ==> r.value < |xs| && xs[r.value] == x && x !in xs[..r.value]
    decreases |xs|
  {
    if |xs| == 0 then None
    else if xs[0] == x then Some(0)
    else
      match IndexOf(xs[1..], x)
      case None => None
      case Some(i) =>
        assert xs[..i + 1] == [xs[0]] + xs[1..][..i];
        Some(i + 1)
  }

  /** The command following the first `--`, or the whole vector when there is none. */
  function SplitAfterDashDash(argv: seq<string>): (r: seq<string>)
    ensures "--" !in argv ==> r == argv
    ensures "--" in argv ==>
      && |r| < |argv|
      && argv == argv[..|argv| - |r| - 1] + ["--"] + r
      && "--" !in argv[..|argv| - |r| - 1]
  {
    match IndexOf(argv, "--")
    case None => argv
    case Some(i) =>
      assert argv == argv[..i] + ["--"] + argv[i + 1..];
      argv[i + 1..]
  }

  /** Why a required flag's value could not be read; the wrapper exits with this message. */
  datatype ArgError = MissingKey(key: string) | MissingValue(key: string)

  /** The token right after the first occurrence of `key`. */
  function RequireArgValue(args: seq<string>, key: string): (r: Result<string, ArgError>)
    ensures r.Err? ==> r.error.key == key
    ensures r == Err(MissingKey(key)) <==> key !in args
    ensures r == Err(MissingValue(key)) <==> |args| > 0 && args[|args| - 1] == key && key !in args[..|args| - 1]
    ensures r.Ok? ==>
      exists i :: 0 <= i < |args| - 1 && args[i] == key && key !in args[..i] && r.value == args[i + 1]
  {
    match IndexOf(args, key)
    case None => Err(MissingKey(key))
    case Some(i) =>
      if i + 1 >= |args| then
        assert args[..|args| - 1] == args[..i];
        Err(MissingValue(key))
      else
        assert key in args[..|args| - 1] by { assert args[..|args| - 1][i] == key; }
        Ok(args[i + 1])
  }

  /** The xcodebuild action words removed before re-issuing the command with an action of its own. */
  const BuildActions: set<string> :=
    {"build", "test", "analyze", "archive", "build-for-testing", "test-without-building"}

  predicate IsNotBuildAction(a: string) {
    a !in BuildActions
  }

  /** The arguments with every action word removed and everything else kept in order. */
  function StripBuildActions(args: seq<string>): (r: seq<string>)
    ensures forall i :: 0 <= i < |r| ==> r[i] !in BuildActions
    ensures IsSubsequence(r, args)
    ensures forall x :: x !in BuildActions ==> multiset(r)[x] == multiset(args)[x]
  {
    FilterIsSubsequence(IsNotBuildAction, args);
    FilterCounts(IsNotBuildAction, args);
    Filter(IsNotBuildAction, args)
  }

  /** Stripping the action words twice is the same as stripping them once. */
  lemma StripBuildActionsIdempotent(args: seq<string>)
    ensures StripBuildActions(StripBuildActions(args)) == StripBuildActions(args)
  {
    FilterIdempotent(IsNotBuildAction, args);
  }

  /** An argument vector without action words is left as it is. */
  lemma StripBuildActionsIdentity(args: seq<string>)
    requires forall i :: 0 <= i < |args| ==> args[i] !in BuildActions
    ensures StripBuildActions(args) == args
  {
    FilterIdentity(IsNotBuildAction, args);
  }

  /** Options that only matter when tests are executed, not when they are built. */
  const TestOnlyFlags: set<string> := {
    "-only-testing", "-skip-testing", "-only-test-configuration", "-skip-test-configuration",
    "-test-iterations", "-testPlan", "-test-repetition-relaunch-enabled",
    "-retry-tests-on-failure", "-run-tests-until-failure", "-enumerate-tests"
  }

  /** Prefixes of the `-only-testing:<id>` and `-skip-testing:<id>` spellings of test selection. */
  const TestSelectorPrefixes: seq<string> := ["-only-testing:", "-skip-testing:"]

  /** Tokens the build-for-testing filter drops by themselves (as opposed to values it swallows). */
  predicate IsTestOnlyToken(a: string) {
    a in TestOnlyFlags || StartsWithAny(a, TestSelectorPrefixes)
  }

  /** Every test-only flag looks like a flag, so it is never taken for another flag's value. */
  lemma TestOnlyFlagsAreDashed(f: string)
    requires f in TestOnlyFlags
    ensures StartsWith(f, "-")
  {
  }

  /**
   * The arguments for `build-for-testing`: test-only flags and `-only-testing:`/`-skip-testing:`
   * tokens are dropped, and a test-only flag also drops the next token when there is one and it
   * does not start with `-` (it is taken to be the flag's value).
   */
  function FilterForBuildForTesting(args: seq<string>): (r: seq<string>)
    ensures IsSubsequence(r, args)
    ensures forall i :: 0 <= i < |r| ==> !IsTestOnlyToken(r[i])
    decreases |args|
  {
    if |args| == 0 then []
    else if args[0] in TestOnlyFlags then
      if |args| > 1 && !StartsWith(args[1], "-") then
        var rest := FilterForBuildForTesting(args[2..]);
        assert args == [args[0]] + ([args[1]] + args[2..]);
        SubsequenceSkip(args[1], rest, args[2..]);
        SubsequenceSkip(args[0], rest, [args[1]] + args[2..]);
        rest
      else
        var rest := FilterForBuildForTesting(args[1..]);
        assert args == [args[0]] + args[1..];
        SubsequenceSkip(args[0], rest, args[1..]);
        rest
    else
      var rest := FilterForBuildForTesting(args[1..]);
      assert args == [args[0]] + args[1..];
      if StartsWithAny(args[0], TestSelectorPrefixes) then
        SubsequenceSkip(args[0], rest, args[1..]);
        rest
      else
        SubsequenceCons(args[0], rest, args[1..]);
        [args[0]] + rest
  }

  /** An invocation without test-only tokens passes through the build filter unchanged. */
  lemma {:induction false} FilterForBuildForTestingIdentity(args: seq<string>)
    requires forall i :: 0 <= i < |args| ==> !IsTestOnlyToken(args[i])
    ensures FilterForBuildForTesting(args) == args
    decreases |args|
  {
    if |args| > 0 {
      FilterForBuildForTestingIdentity(args[1..]);
      assert args == [args[0]] + args[1..];
    }
  }

  /** Filtering for build-for-testing twice is the same as filtering once. */
  lemma FilterForBuildForTestingIdempotent(args: seq<string>)
    ensures FilterForBuildForTesting(FilterForBuildForTesting(args)) == FilterForBuildForTesting(args)
  {
    FilterForBuildForTestingIdentity(FilterForBuildForTesting(args));
  }

  /**
   * The build filter works token by token: it distributes over a split point unless the left
   * part ends in a test-only flag whose value would be the first token of the right part.
   */
  lemma {:induction false} FilterForBuildForTestingAppend(a: seq<string>, b: seq<string>)
    requires |a| == 0 || a[|a| - 1] !in TestOnlyFlags || |b| == 0 || StartsWith(b[0], "-")
    ensures FilterForBuildForTesting(a + b) == FilterForBuildForTesting(a) + FilterForBuildForTesting(b)
    decreases |a|
  {
    if |a| == 0 {
      assert a + b == b;
    } else {
      var ab := a + b;
      assert ab[1..] == a[1..] + b;
      if a[0] in TestOnlyFlags && |a| > 1 && !StartsWith(a[1], "-") {
        assert ab[1] == a[1];
        assert ab[2..] == a[2..] + b;
        FilterForBuildForTestingAppend(a[2..], b);
      } else if a[0] in TestOnlyFlags && |a| == 1 {
        assert ab == [a[0]] + b;
        assert FilterForBuildForTesting(a) == [];
      } else {
        if a[0] in TestOnlyFlags {
          assert ab[1] == a[1];
        }
        FilterForBuildForTestingAppend(a[1..], b);
      }
    }
  }

  /**
   * A test-only flag swallows the following token exactly when that token does not start
   * with `-`; a following token that does start with `-` is filtered on its own, and a flag
   * at the very end swallows nothing. This holds wherever the flag occurs.
   */
  lemma FlagSwallowsValue(pre: seq<string>, flag: string, v: string, post: seq<string>)
    requires flag in TestOnlyFlags
    ensures !StartsWith(v, "-") ==>
      FilterForBuildForTesting(pre + [flag, v] + post) == FilterForBuildForTesting(pre) + FilterForBuildForTesting(post)
    ensures StartsWith(v, "-") ==>
      FilterForBuildForTesting(pre + [flag, v] + post) == FilterForBuildForTesting(pre) + FilterForBuildForTesting([v] + post)
    ensures FilterForBuildForTesting(pre + [flag]) == FilterForBuildForTesting(pre)
  {
    TestOnlyFlagsAreDashed(flag);
    var tail := [flag, v] + post;
    assert pre + [flag, v] + post == pre + tail;
    FilterForBuildForTestingAppend(pre, tail);
    assert tail[1] == v;
    if !StartsWith(v, "-") {
      assert tail[2..] == post;
    } else {
      assert tail[1..] == [v] + post;
    }
    FilterForBuildForTestingAppend(pre, [flag]);
  }

  /**
   * The filter as the source writes it: one pass with a `skip_next` flag. It computes the
   * same vector as the recursive definition.
   */
  method FilterForBuildForTestingLoop(args: seq<string>) returns (out: seq<string>)
    ensures out == FilterForBuildForTesting(args)
  {
    out := [];
    var skipNext := false;
    var i := 0;
    while i < |args|
      invariant 0 <= i <= |args|
      invariant !skipNext ==> out + FilterForBuildForTesting(args[i..]) == FilterForBuildForTesting(args)
      invariant skipNext ==> i < |args| && out + FilterForBuildForTesting(args[i + 1..]) == FilterForBuildForTesting(args)
    {
      var a := args[i];
      var rest := args[i..];
      assert rest[0] == a && rest[1..] == args[i + 1..];
      if skipNext {
        skipNext := false;
      } else if a in TestOnlyFlags {
        if i + 1 < |args| && !StartsWith(args[i + 1], "-") {
          assert rest[1] == args[i + 1] && rest[2..] == args[i + 2..];
          skipNext := true;
        }
      } else if StartsWithAny(a, TestSelectorPrefixes) {
      } else {
        out := out + [a];
      }
      i := i + 1;
    }
  }

  /** The flags whose values name the project; `-xctestrun` replaces them when running tests. */
  const ProjectFlags: set<string> := {"-workspace", "-project", "-scheme"}

  /**
   * The arguments for `test-without-building`: each `-workspace`, `-project` or `-scheme` is
   * dropped together with the token after it, whatever that token looks like.
   */
  function FilterForTestWithoutBuilding(args: seq<string>): (r: seq<string>)
    ensures IsSubsequence(r, args)
    ensures forall i :: 0 <= i < |r| ==> r[i] !in ProjectFlags
    decreases |args|
  {
    if |args| == 0 then []
    else if args[0] in ProjectFlags then
      if |args| == 1 then []
      else
        var rest := FilterForTestWithoutBuilding(args[2..]);
        assert args == [args[0]] + ([args[1]] + args[2..]);
        SubsequenceSkip(args[1], rest, args[2..]);
        SubsequenceSkip(args[0], rest, [args[1]] + args[2..]);
        rest
    else
      var rest := FilterForTestWithoutBuilding(args[1..]);
      assert args == [args[0]] + args[1..];
      SubsequenceCons(args[0], rest, args[1..]);
      [args[0]] + rest
  }

  /** True when a scan of `args` ends with a project flag still waiting for its value. */
  predicate EndsWithPendingProjectFlag(args: seq<string>)
    decreases |args|
  {
    if |args| == 0 then false
    else if args[0] in ProjectFlags then |args| == 1 || EndsWithPendingProjectFlag(args[2..])
    else EndsWithPendingProjectFlag(args[1..])
  }

  /** An invocation without project flags passes through the test filter unchanged. */
  lemma {:induction false} FilterForTestWithoutBuildingIdentity(args: seq<string>)
    requires forall i :: 0 <= i < |args| ==> args[i] !in ProjectFlags
    ensures FilterForTestWithoutBuilding(args) == args
    decreases |args|
  {
    if |args| > 0 {
      FilterForTestWithoutBuildingIdentity(args[1..]);
      assert args == [args[0]] + args[1..];
    }
  }

  /** The test filter distributes over a split point that does not separate a flag from its value. */
  lemma {:induction false} FilterForTestWithoutBuildingAppend(a: seq<string>, b: seq<string>)
    requires !EndsWithPendingProjectFlag(a)
    ensures FilterForTestWithoutBuilding(a + b) == FilterForTestWithoutBuilding(a) + FilterForTestWithoutBuilding(b)
    decreases |a|
  {
    if |a| == 0 {
      assert a + b == b;
    } else {
      var ab := a + b;
      if a[0] in ProjectFlags {
        assert ab[1] == a[1];
        assert ab[2..] == a[2..] + b;
        FilterForTestWithoutBuildingAppend(a[2..], b);
      } else {
        assert ab[1..] == a[1..] + b;
        FilterForTestWithoutBuildingAppend(a[1..], b);
      }
    }
  }

  /**
   * A project flag always takes the next token with it, even one that looks like a flag
   * (also another project flag), wherever the pair occurs; at the very end it is dropped alone.
   */
  lemma ProjectFlagDropsValue(pre: seq<string>, flag: string, v: string, post: seq<string>)
    requires flag in ProjectFlags
    requires !EndsWithPendingProjectFlag(pre)
    ensures FilterForTestWithoutBuilding(pre + [flag, v] + post) ==
            FilterForTestWithoutBuilding(pre) + FilterForTestWithoutBuilding(post)
    ensures FilterForTestWithoutBuilding(pre + [flag]) == FilterForTestWithoutBuilding(pre)
  {
    var tail := [flag, v] + post;
    assert pre + [flag, v] + post == pre + tail;
    FilterForTestWithoutBuildingAppend(pre, tail);
    assert tail[2..] == post;
    FilterForTestWithoutBuildingAppend(pre, [flag]);
  }

  /** The test filter as the source writes it: one pass with a `skip_next` flag. */
  method FilterForTestWithoutBuildingLoop(args: seq<string>) returns (out: seq<string>)
    ensures out == FilterForTestWithoutBuilding(args)
  {
    out := [];
    var skipNext := false;
    var i := 0;
    while i < |args|
      invariant 0 <= i <= |args|
      invariant !skipNext ==> out + FilterForTestWithoutBuilding(args[i..]) == FilterForTestWithoutBuilding(args)
      invariant skipNext ==>
        (i < |args| && out + FilterForTestWithoutBuilding(args[i + 1..]) == FilterForTestWithoutBuilding(args))
        || (i == |args| && out == FilterForTestWithoutBuilding(args))
    {
      var a := args[i];
      var rest := args[i..];
      assert rest[0] == a && rest[1..] == args[i + 1..];
      if skipNext {
        skipNext := false;
      } else if a in ProjectFlags {
        if i + 1 < |args| {
          assert rest[1] == args[i + 1] && rest[2..] == args[i + 2..];
        }
        skipNext := true;
      } else {
        out := out + [a];
      }
      i := i + 1;
    }
  }
}

=== FILE: xcodebuild_main.dfy ===
/**
 * The xcodebuild wrapper's top level: validate the command after `--`, build for testing,
 * patch the newest `.xctestrun` with the forwarded variables, then run the tests without
 * building. Running commands, finding the file and the clock are inputs (`Host`).
 */
module XcodebuildMain {
  import opened Wrappers
  import opened Seqs
  import opened Text
  import opened XcodebuildArgs
  import opened XcTestRunPatch

  /** What the outside world contributes to one run of the wrapper. */
  datatype Host = Host(
    environ: map<string, string>,   // the host process environment
    buildRc: int,                   // exit status of the build-for-testing command
    xctestrunDir: Option<string>,   // directory of the newest matching `.xctestrun`; None when none matches
    xctestrun: XcTestRun,           // the content of that file
    nowIso: string,                 // the current UTC time in ISO-8601 form
    testRc: int)                    // exit status of the test-without-building command

  /** The commands run in order, the patched file written (path and content), and the exit status. */
  datatype Outcome = Outcome(exitCode: int, commands: seq<seq<string>>, patched: Option<(string, XcTestRun)>)

  /** A `SystemExit` raised with a message ends the script with status 1. */
  const MessageExitStatus := 1

  /** The usage and "must start with xcodebuild" errors end the script with status 2. */
  const UsageExitStatus := 2

  function BuildCommand(cmd: seq<string>): seq<string>
    requires |cmd| > 0
  {
    ["xcodebuild"] + FilterForBuildForTesting(StripBuildActions(cmd[1..])) + ["build-for-testing"]
  }

  function TestCommand(cmd: seq<string>, patchedPath: string): seq<string>
    requires |cmd| > 0
  {
    ["xcodebuild", "-xctestrun", patchedPath] + FilterForTestWithoutBuilding(StripBuildActions(cmd[1..])) + ["test-without-building"]
  }

  /** The patched copy lives beside the original, named after the scheme and the current time. */
  function PatchedPath(dir: string, scheme: string, nowIso: string): string {
    dir + "/" + scheme + "-" + CompactTimestamp(nowIso) + ".patched.xctestrun"
  }

  /**
   * Everything after validation: the build always runs; a failed build is returned as is; a
   * missing `.xctestrun` ends with status 1; otherwise the patched copy is written and the tests
   * run against it, and their status is returned.
   */
  function BuildPatchAndTest(cmd: seq<string>, scheme: string, host: Host): (o: Outcome)
    requires |cmd| > 0
    ensures |o.commands| > 0 && o.commands[0] == BuildCommand(cmd)
    ensures host.buildRc != 0 ==> o == Outcome(host.buildRc, [BuildCommand(cmd)], None)
    ensures host.buildRc == 0 && host.xctestrunDir.None? ==> o == Outcome(MessageExitStatus, [BuildCommand(cmd)], None)
    ensures host.buildRc == 0 && host.xctestrunDir.Some? ==>
      && o.exitCode == host.testRc
      && o.patched.Some?
      && o.commands == [BuildCommand(cmd), TestCommand(cmd, o.patched.value.0)]
      && o.patched.value.1 == PatchXcTestRun(host.xctestrun, CollectEnv(host.environ, DefaultPrefixes))
  {
    var env := CollectEnv(host.environ, DefaultPrefixes);
    var build := BuildCommand(cmd);
    if host.buildRc != 0 then Outcome(host.buildRc, [build], None)
    else
      match host.xctestrunDir
      case None => Outcome(MessageExitStatus, [build], None)
      case Some(dir) =>
        var path := PatchedPath(dir, scheme, host.nowIso);
        Outcome(host.testRc, [build, TestCommand(cmd, path)], Some((path, PatchXcTestRun(host.xctestrun, env))))
  }

  /**
   * The wrapper's exit status and effects for the arguments `argv` (without the script name):
   * an empty command, or one not starting with `xcodebuild`, is a usage error (2) and a command
   * without a `-scheme` value is an error (1), both before anything runs.
   */
  function Main(argv: seq<string>, host: Host): (o: Outcome)
    ensures var cmd := SplitAfterDashDash(argv);
      && (|cmd| == 0 || cmd[0] != "xcodebuild" ==> o == Outcome(UsageExitStatus, [], None))
      && (|cmd| > 0 && cmd[0] == "xcodebuild" && RequireArgValue(cmd, "-scheme").Err? ==>
            o == Outcome(MessageExitStatus, [], None))
      && (|cmd| > 0 && cmd[0] == "xcodebuild" && RequireArgValue(cmd, "-scheme").Ok? ==>
            o == BuildPatchAndTest(cmd, RequireArgValue(cmd, "-scheme").value, host))
  {
    var cmd := SplitAfterDashDash(argv);
    if |cmd| == 0 then Outcome(UsageExitStatus, [], None)
    else if cmd[0] != "xcodebuild" then Outcome(UsageExitStatus, [], None)
    else
      match RequireArgValue(cmd, "-scheme")
      case Err(_) => Outcome(MessageExitStatus, [], None)
      case Ok(scheme) => BuildPatchAndTest(cmd, scheme, host)
  }

  /**
   * The build command carries exactly one action, `build-for-testing`, at the end, no test-only
   * option, and otherwise only arguments of the user's command, in their order.
   */
  lemma BuildCommandShape(cmd: seq<string>)
    requires |cmd| > 0
    ensures var b := BuildCommand(cmd); var mid := b[1..|b| - 1];
      && b[0] == "xcodebuild" && b[|b| - 1] == "build-for-testing"
      && (forall i :: 0 <= i < |mid| ==> mid[i] !in BuildActions && !IsTestOnlyToken(mid[i]))
      && IsSubsequence(mid, cmd[1..])
  {
    var s := StripBuildActions(cmd[1..]);
    var f := FilterForBuildForTesting(s);
    var b := BuildCommand(cmd);
    assert b[1..|b| - 1] == f;
    forall i | 0 <= i < |f| ensures f[i] !in BuildActions {
      SubsequenceMember(f, s, i);
    }
    SubsequenceTrans(f, s, cmd[1..]);
  }

  /**
   * The test command runs the patched file, carries exactly one action, `test-without-building`,
   * at the end, never names the workspace, project or scheme, and otherwise only arguments of the
   * user's command, in their order.
   */
  lemma TestCommandShape(cmd: seq<string>, path: string)
    requires |cmd| > 0
    ensures var t := TestCommand(cmd, path); var mid := t[3..|t| - 1];
      && t[..3] == ["xcodebuild", "-xctestrun", path] && t[|t| - 1] == "test-without-building"
      && (forall i :: 0 <= i < |mid| ==> mid[i] !in BuildActions && mid[i] !in ProjectFlags)
      && IsSubsequence(mid, cmd[1..])
  {
    var s := StripBuildActions(cmd[1..]);
    var f := FilterForTestWithoutBuilding(s);
    var t := TestCommand(cmd, path);
    assert t[3..|t| - 1] == f;
    forall i | 0 <= i < |f| ensures f[i] !in BuildActions {
      SubsequenceMember(f, s, i);
    }
    SubsequenceTrans(f, s, cmd[1..]);
  }

  /** A failed build is reported as a failure, and the tests are never run. */
  lemma FailedBuildStopsEarly(argv: seq<string>, host: Host)
    requires host.buildRc != 0
    ensures Main(argv, host).exitCode != 0
    ensures |Main(argv, host).commands| <= 1 && Main(argv, host).patched.None?
  {
    var cmd := SplitAfterDashDash(argv);
    if |cmd| > 0 && cmd[0] == "xcodebuild" && RequireArgValue(cmd, "-scheme").Ok? {
      assert Main(argv, host) == Outcome(host.buildRc, [BuildCommand(cmd)], None);
    }
  }
}

=== FILE: xctestrun_patch.dfy ===
/**
 * Selecting the variables to inject from the host environment, and merging them into every
 * test target of a `.xctestrun` property list.
 */
module XcTestRunPatch {
  import opened Wrappers
  import opened Text

  /** Host variables with these prefixes are forwarded into the simulator. */
  const DefaultPrefixes: seq<string> := ["LEXICAL_BENCH_", "LEXICAL_FORCE_"]

  /** The host variables whose names start with one of `prefixes`, with their values. */
  function CollectEnv(environ: map<string, string>, prefixes: seq<string>): (env: map<string, string>)
    ensures forall k :: k in env <==> k in environ && StartsWithAny(k, prefixes)
    ensures forall k :: k in env ==> env[k] == environ[k]
  {
    map k | k in environ && StartsWithAny(k, prefixes) :: environ[k]
  }

  /** Selecting with two prefix lists at once is the union of selecting with each. */
  lemma CollectEnvUnion(environ: map<string, string>, p: seq<string>, q: seq<string>)
    ensures CollectEnv(environ, p + q) == CollectEnv(environ, p) + CollectEnv(environ, q)
  {
    var l := CollectEnv(environ, p + q);
    var r := CollectEnv(environ, p) + CollectEnv(environ, q);
    forall k | k in environ
      ensures StartsWithAny(k, p + q) <==> StartsWithAny(k, p) || StartsWithAny(k, q)
    {
      if StartsWithAny(k, p + q) {
        var i :| 0 <= i < |p + q| && StartsWith(k, (p + q)[i]);
        if i >= |p| { assert (p + q)[i] == q[i - |p|]; }
      }
      if StartsWithAny(k, q) {
        var i :| 0 <= i < |q| && StartsWith(k, q[i]);
        assert (p + q)[|p| + i] == q[i];
      }
      if StartsWithAny(k, p) {
        var i :| 0 <= i < |p| && StartsWith(k, p[i]);
        assert (p + q)[i] == p[i];
      }
    }
    assert l.Keys == r.Keys;
  }

  /** A property-list value: a string, an array, a dictionary, or any other scalar. */
  datatype Plist =
    | PString(s: string)
    | PArray(items: seq<Plist>)
    | PDict(entries: map<string, Plist>)
    | PScalar(repr: string)

  /** One test target: its dictionary of settings. */
  datatype TestTarget = TestTarget(fields: map<string, Plist>)

  /** One test configuration: its test targets (`TestTargets`, empty when absent) and its other keys. */
  datatype TestConfiguration = TestConfiguration(other: map<string, Plist>, targets: seq<TestTarget>)

  /** A `.xctestrun` file: its configurations (`TestConfigurations`, empty when absent) and its other keys. */
  datatype XcTestRun = XcTestRun(other: map<string, Plist>, configurations: seq<TestConfiguration>)

  /** The two dictionaries of a target that receive the injected variables. */
  const EnvironmentKeys: seq<string> := ["EnvironmentVariables", "TestingEnvironmentVariables"]

  /**
   * `merged` is what the patch must leave under an environment key whose previous value was
   * `previous` (None when the key was missing): a dictionary holding every injected variable as
   * a string, every previous entry that was not injected, and nothing else. A previous value
   * that was not a dictionary contributes nothing.
   */
  ghost predicate MergedFrom(previous: Option<Plist>, merged: Plist, env: map<string, string>) {
    && merged.PDict?
    && (forall k :: k in merged.entries <==>
          k in env || (previous.Some? && previous.value.PDict? && k in previous.value.entries))
    && (forall k :: k in env ==> merged.entries[k] == PString(env[k]))
    && (forall k :: k !in env && previous.Some? && previous.value.PDict? && k in previous.value.entries ==>
          merged.entries[k] == previous.value.entries[k])
  }

  function Lookup(m: map<string, Plist>, key: string): Option<Plist> {
    if key in m then Some(m[key]) else None
  }

  /** The dictionary left under one environment key: the previous dictionary (or a fresh one) updated with `env`. */
  function MergeEnv(previous: Option<Plist>, env: map<string, string>): (merged: Plist)
    ensures MergedFrom(previous, merged, env)
  {
    var base := if previous.Some? && previous.value.PDict? then previous.value.entries else map[];
    PDict(base + map k | k in env :: PString(env[k]))
  }

  /** `patched` is `target` with both environment dictionaries merged and every other key untouched. */
  ghost predicate TargetPatched(target: TestTarget, patched: TestTarget, env: map<string, string>) {
    && (forall i :: 0 <= i < |EnvironmentKeys| ==>
          EnvironmentKeys[i] in patched.fields &&
          MergedFrom(Lookup(target.fields, EnvironmentKeys[i]), patched.fields[EnvironmentKeys[i]], env))
    && (forall k :: k !in EnvironmentKeys ==>
          (k in patched.fields <==> k in target.fields) &&
          (k in target.fields ==> patched.fields[k] == target.fields[k]))
  }

  function PatchTarget(target: TestTarget, env: map<string, string>): (patched: TestTarget)
    ensures TargetPatched(target, patched, env)
  {
    var f := target.fields;
    var f1 := f["EnvironmentVariables" := MergeEnv(Lookup(f, "EnvironmentVariables"), env)];
    TestTarget(f1["TestingEnvironmentVariables" := MergeEnv(Lookup(f, "TestingEnvironmentVariables"), env)])
  }

  function PatchConfiguration(config: TestConfiguration, env: map<string, string>): (patched: TestConfiguration)
    ensures patched.other == config.other
    ensures |patched.targets| == |config.targets|
    ensures forall j :: 0 <= j < |config.targets| ==> TargetPatched(config.targets[j], patched.targets[j], env)
  {
    TestConfiguration(config.other, seq(|config.targets|, j requires 0 <= j < |config.targets| => PatchTarget(config.targets[j], env)))
  }

  /**
   * The patched `.xctestrun`: every target of every configuration has `env` merged into both of its
   * environment dictionaries; configurations, targets and all other keys are kept as they were.
   */
  function PatchXcTestRun(run: XcTestRun, env: map<string, string>): (patched: XcTestRun)
    ensures patched.other == run.other
    ensures |patched.configurations| == |run.configurations|
    ensures forall i :: 0 <= i < |run.configurations| ==>
      && patched.configurations[i].other == run.configurations[i].other
      && |patched.configurations[i].targets| == |run.configurations[i].targets|
    ensures forall i, j :: 0 <= i < |run.configurations| && 0 <= j < |run.configurations[i].targets| ==>
      TargetPatched(run.configurations[i].targets[j], patched.configurations[i].targets[j], env)
  {
    XcTestRun(run.other, seq(|run.configurations|, i requires 0 <= i < |run.configurations| => PatchConfiguration(run.configurations[i], env)))
  }

  /** The relation `MergedFrom` determines the merged dictionary uniquely. */
  lemma MergedFromUnique(previous: Option<Plist>, a: Plist, b: Plist, env: map<string, string>)
    requires MergedFrom(previous, a, env) && MergedFrom(previous, b, env)
    ensures a == b
  {
    assert a.entries.Keys == b.entries.Keys;
  }

  /** Merging the same variables a second time changes nothing. */
  lemma MergeEnvIdempotent(previous: Option<Plist>, env: map<string, string>)
    ensures MergeEnv(Some(MergeEnv(previous, env)), env) == MergeEnv(previous, env)
  {
    var once := MergeEnv(previous, env);
    var twice := MergeEnv(Some(once), env);
    assert MergedFrom(Some(once), once, env);
    MergedFromUnique(Some(once), once, twice, env);
  }

  lemma PatchTargetIdempotent(target: TestTarget, env: map<string, string>)
    ensures PatchTarget(PatchTarget(target, env), env) == PatchTarget(target, env)
  {
    var f := target.fields;
    var once := PatchTarget(target, env);
    MergeEnvIdempotent(Lookup(f, "EnvironmentVariables"), env);
    MergeEnvIdempotent(Lookup(f, "TestingEnvironmentVariables"), env);
    assert Lookup(once.fields, "EnvironmentVariables") == Some(MergeEnv(Lookup(f, "EnvironmentVariables"), env));
    assert PatchTarget(once, env).fields == once.fields;
  }

  /** Patching an already patched `.xctestrun` with the same variables changes nothing. */
  lemma PatchXcTestRunIdempotent(run: XcTestRun, env: map<string, string>)
    ensures PatchXcTestRun(PatchXcTestRun(run, env), env) == PatchXcTestRun(run, env)
  {
    var once := PatchXcTestRun(run, env);
    var twice := PatchXcTestRun(once, env);
    forall i | 0 <= i < |run.configurations|
      ensures twice.configurations[i] == once.configurations[i]
    {
      forall j | 0 <= j < |run.configurations[i].targets|
        ensures twice.configurations[i].targets[j] == once.configurations[i].targets[j]
      {
        PatchTargetIdempotent(run.configurations[i].targets[j], env);
      }
    }
  }
}
